=== FILE: README.md ===
# Port-logistics dashboard: chart interpretation, capture history, map and timeline

A Dafny model of the core of a React dashboard for Busan port traffic. The
dashboard aggregates vessel CSV rows by port, month, vessel type and domestic
origin/destination. It interprets a chart fragment written by a language
model into a bar or pie chart. It captures the drawn chart as an SVG data URL
into a history kept in the browser's local storage, at most three entries after each capture,
and shows that history newest first. A map places one marker per port, sized
by the tonnage of the month it is given. A draggable timeline reports the
clicked month to an `onDateSelect` callback. As the components are mounted,
no selected month is passed from the timeline to the map or the analysis
panel; each is modelled on its own, with the selection as a parameter.

Each source file is one module:

| module | file | models |
|---|---|---|
| `Wrappers` | wrappers.dfy | `Option` and `Result` |
| `Text` | text.dfy | `trim()`, `String(n)`, `padStart(2, '0')`, `Number(s)` on integer numerals |
| `Scan` | scan.dfy | the regular-expression searches, as leftmost and rightmost scans |
| `Entries` | entries.dfy | a JavaScript object as an ordered list of key/value entries |
| `Rows` | rows.dfy | CSV rows, field values, truthiness, `Number(v) \|\| 0` |
| `ParseCsv` | parse_csv.dfy | `src/utils/ParseCsv.jsx` and the identical `cleanRows` of `MapPanel.jsx` |
| `Grouping` | grouping.dfy | the `forEach` group-and-sum loop, generic over keep test, key and amount |
| `Analysis` | analysis.dfy | `AnalysisResultPanel.jsx`: filters, the two aggregates, the 5% pie fold, `noData`, unwrapping the generated code |
| `DynamicChart` | dynamic_chart.dfy | `DynamicChart.jsx`: splitting out the data block, the parameter regexes, the chart chosen |
| `ChartHistory` | history.dfy | the `chartHistory` storage item shared by the two panels, and append-with-eviction |
| `Capture` | capture.dfy | `LlmResultPanel.jsx`: `captureSvg`, the frame/timer polling chain, the `capturedRef` guard, `innerChartCode` |
| `HistoryPanel` | history_panel.dfy | `HistoryPanel.jsx`: load and sort, live prepend, delete by position, clear on leave |
| `MapPanel` | map_panel.dfy | `MapPanel.jsx`: the three-level tonnage object, the port-to-marker mapping, the marker shown |
| `Timeline` | timeline.dfy | `TimeLinePanel.jsx`: month count, month list, drag clamp, month selection |

Behaviour of the code worth knowing, which the model follows:

- A stored history item that is not valid JSON is not recovered to an empty
  history. `JSON.parse` throws in both readers. `HistoryPanel.Load` and
  `Capture.OnSettle` return a failure, and `Capture.MalformedStoreBlocksCapture`
  shows that no capture is ever stored again.
- A new render does not cancel the polling chain of the previous one. The
  effect clears the shared `capturedRef` flag, so a chain that already
  captured is re-armed, and two captures can complete for overlapping renders
  (`Capture.EffectRearmsOlderChain`).
- The bound of three entries holds after an append, not at all times. A
  delete writes the whole newest-first view back, however long it is. The next
  append then evicts from the front of that list, which holds the NEWEST entry
  (`HistoryPanel.DeleteThenAppendEvictsNewest`).
- Deletion is by position in the view, not by entry.

The map stores months under the key the CSV wrote, but reads them back padded
to two digits. Tonnage stored under "9" is therefore never shown for month 9
(`MapPanel.UnpaddedMonthNotShown`).

## Model

| member | source | states |
|---|---|---|
| Text.SkipSpaces | src/utils/ParseCsv.jsx:13 | the end of the longest white-space run from a position; every skipped character is space and the next is not |
| Text.SkipSpacesBack | src/utils/ParseCsv.jsx:13 | the start of the longest white-space run ending at a position |
| Text.Trim | src/utils/ParseCsv.jsx:13-15 | `trim()`: the result has no white space at either end and is no longer than the input |
| Text.TrimDropsOnlyOuterSpace | src/utils/ParseCsv.jsx:13-15 | the input is white space, then the trimmed text, then white space |
| Text.TrimOfPadded | src/utils/ParseCsv.jsx:13-15 | trimming any white-space padding of a trimmed text gives that text back |
| Text.TrimIdempotent | src/utils/ParseCsv.jsx:13-15 | trimming twice is trimming once |
| Text.PadStart2 | src/components/AnalysisResultPanel.jsx:401 | `padStart(2, '0')`: texts of two or more characters are unchanged; shorter ones get leading zeros up to length 2 |
| Text.NatToString | src/components/AnalysisResultPanel.jsx:400 | `String(n)`: a non-empty digit string with no leading zero except for 0, one digit exactly below 10 |
| Text.IntToString | src/components/AnalysisResultPanel.jsx:400 | `String(n)`: starts with a digit exactly for non-negative n and with '-' exactly for negative n |
| Text.DigitsValueOfNatToString | src/components/DynamicChart.jsx:93-96 | `parseInt` of the decimal numeral of n is n |
| Text.ToNumber | src/components/AnalysisResultPanel.jsx:409 | `Number(s)`: blank text is 0; a digit numeral with white space around it has its decimal value; a '+' or '-' numeral has that value with its sign; `NaN` exactly when the trimmed text is none of these |
| Text.NotANumber | src/components/AnalysisResultPanel.jsx:409 | "N/A" is `NaN` |
| Text.TrailingLettersNotANumber | src/components/AnalysisResultPanel.jsx:409 | a numeral followed by letters, "12abc", is `NaN` as a whole |
| Text.NumberOfString | src/components/AnalysisResultPanel.jsx:400-409 | `Number(String(n))` is n for every integer |
| Scan.Leftmost | src/components/DynamicChart.jsx:161 | `match` without the global flag: the first matching position, with nothing matching before it; none when no position matches |
| Scan.Rightmost | src/components/DynamicChart.jsx:104 | the last matching position in a range, the choice a greedy `[^>]*` makes |
| Scan.IndexOf | src/components/AnalysisResultPanel.jsx:498 | the scan behind `[^>]*>` and the lazy `[\s\S]*?\}\)\(\)\}`: the first occurrence of a literal at or after a position, or none at all |
| Scan.Includes | src/components/DynamicChart.jsx:89 | `includes`: true exactly when the literal occurs somewhere |
| Scan.DigitRun | src/components/DynamicChart.jsx:91 | `\d+`: matches exactly at a digit, and runs to the end of the digits |
| Scan.QuotedAt | src/components/DynamicChart.jsx:100 | `["']([^"']*)["']`: the text between a quote and the next quote, which it does not contain; no match when no second quote follows |
| Entries.KeyIndex | src/components/AnalysisResultPanel.jsx:412 | the position of the first entry with a key, or the length when the key is absent |
| Entries.LookupIndex | src/components/MapPanel.jsx:163 | `obj[k]` is the value at the key's first position, and undefined exactly when no own entry has the key |
| Entries.LookupFound | src/components/MapPanel.jsx:163 | a value read under a key belongs to an entry with that key |
| Entries.Put | src/utils/ParseCsv.jsx:16 | `obj[k] = v`: reading k gives v, and every other key reads as before |
| Entries.PutKeys | src/utils/ParseCsv.jsx:16 | an existing key keeps its place; a new key goes last |
| Entries.PutNew | src/utils/ParseCsv.jsx:16 | assigning a new key appends one entry |
| Entries.PutExisting | src/utils/ParseCsv.jsx:16 | assigning an existing key replaces its entry in place |
| Entries.PutMembers | src/utils/ParseCsv.jsx:16 | an assignment adds no entry but its own |
| Entries.PutKeepsDistinct | src/utils/ParseCsv.jsx:16 | an assignment never duplicates a key |
| Entries.Add | src/components/AnalysisResultPanel.jsx:412 | `acc[k] = (acc[k] \|\| 0) + a`: k reads as its old number, or 0, plus a; other keys are unchanged |
| Entries.Dedup | src/components/AnalysisResultPanel.jsx:415 | the distinct keys: the same members as the input, none repeated |
| Rows.StringOf | src/components/AnalysisResultPanel.jsx:400 | `String(v)`: a string is itself; a number's text reads back as the number |
| Rows.NumberOr0 | src/components/AnalysisResultPanel.jsx:409 | `Number(v) \|\| 0`: a number is itself, a numeral string its value, anything else 0 |
| Rows.NonNumeralCountsZero | src/components/AnalysisResultPanel.jsx:437 | a tonnage written "N/A" or "12abc" counts as 0 |
| ParseCsv.MapKeys | src/utils/ParseCsv.jsx:12-13 | one normalised key per raw entry, in order |
| ParseCsv.Rebuild | src/utils/ParseCsv.jsx:11-17 | the keys of the rebuilt object are the distinct normalised keys in order of first occurrence |
| ParseCsv.RebuildImage | src/utils/ParseCsv.jsx:11-17 | the rebuilt object has distinct keys, and each entry is the normalised form of some raw entry |
| ParseCsv.LastIndexOf | src/utils/ParseCsv.jsx:12-16 | the last raw entry whose key normalises to k, or none |
| ParseCsv.RebuildLookup | src/utils/ParseCsv.jsx:12-16 | under k the rebuilt object holds the normalised value of the LAST raw entry whose key normalises to k |
| ParseCsv.RebuildOfNormal | src/utils/ParseCsv.jsx:11-17 | an object whose keys and values are already normal is rebuilt unchanged |
| ParseCsv.CleanRow | src/utils/ParseCsv.jsx:10-18 | the cleaned row has the distinct trimmed keys in first-occurrence order, and trimmed string values |
| ParseCsv.CleanValueIdempotent | src/utils/ParseCsv.jsx:15 | trimming a value twice is trimming once |
| ParseCsv.CleanRows | src/components/MapPanel.jsx:75-84 | `rows.map(cleanRow)`: one cleaned row per row |
| ParseCsv.ParseAndClean | src/utils/ParseCsv.jsx:3-20 | one clean row per parsed row |
| ParseCsv.CleanRowLookup | src/utils/ParseCsv.jsx:12-16 | a trimmed key reads as the cleaned value of the last raw entry with that trimmed key, and is absent when no raw key trims to it |
| ParseCsv.CleanRowIdempotent | src/utils/ParseCsv.jsx:10-18 | cleaning a cleaned row changes nothing |
| Grouping.Filter | src/components/AnalysisResultPanel.jsx:396-398 | the rows passing a test, in order |
| Grouping.GroupSumKeys | src/components/AnalysisResultPanel.jsx:396-415 | the accumulator has one entry per distinct kept key, in order of first appearance |
| Grouping.GroupSumLookup | src/components/AnalysisResultPanel.jsx:396-413 | each kept key maps to the sum of the amounts of the kept rows with that key; other keys are absent |
| Grouping.GroupSumTotal | src/components/AnalysisResultPanel.jsx:396-413 | the values of the accumulator add up to the total amount of the kept rows |
| Grouping.AddSumValues | src/components/AnalysisResultPanel.jsx:412 | adding to one key adds the same amount to the sum of all values |
| Grouping.GroupSumNonNegative | src/components/AnalysisResultPanel.jsx:396-413 | with non-negative amounts every group sum is non-negative |
| Grouping.GroupSumFilterFirst | src/components/AnalysisResultPanel.jsx:396-413 | filtering the rows first and then grouping gives the same accumulator |
| Grouping.RejectedRowIgnored | src/components/AnalysisResultPanel.jsx:398-410 | a row the keep test rejects changes nothing |
| Grouping.GroupSumEntry | src/components/AnalysisResultPanel.jsx:396-415 | the i-th entry holds the i-th distinct kept key and its sum |
| Grouping.DedupEmpty | src/components/AnalysisResultPanel.jsx:415 | the distinct keys are empty exactly when there are no keys |
| Analysis.AggregateFilterFirst | src/components/AnalysisResultPanel.jsx:394-419 | the port and date filters can be applied before grouping without changing the aggregate |
| Analysis.PortFilterExcludes | src/components/AnalysisResultPanel.jsx:398 | with a port selected, a row from another port changes nothing |
| Analysis.FalsyCodeIgnored | src/components/AnalysisResultPanel.jsx:410 | a row with an empty or missing code changes nothing |
| Analysis.IntToStringInjective | src/components/AnalysisResultPanel.jsx:400-405 | two years give the same text exactly when they are equal |
| Analysis.MonthKeyValue | src/components/AnalysisResultPanel.jsx:401 | the padded numeral of a month below 100 reads back as the month |
| Analysis.MonthKeyInjective | src/components/AnalysisResultPanel.jsx:401-405 | two months below 100 pad to the same key exactly when they are equal |
| Analysis.DateTestOnNumbers | src/components/AnalysisResultPanel.jsx:400-406 | for numeric year and month, a row passes the active date test exactly when both equal the selection |
| Analysis.DateTestInactive | src/components/AnalysisResultPanel.jsx:402 | without a selected date, or with a zero year or month, only the port test applies |
| Analysis.MonthPaddingScenario | src/components/AnalysisResultPanel.jsx:401-404 | months written "9" and "09" both match a selected month 9 |
| Analysis.Label | src/components/AnalysisResultPanel.jsx:416 | `dict[code] \|\| code`: the name when one is present and non-empty, the code otherwise |
| Analysis.Relabel | src/components/AnalysisResultPanel.jsx:415-418 | one item per accumulator entry, in order, with its amount and its label |
| Analysis.RelabelTotal | src/components/AnalysisResultPanel.jsx:415-418 | relabelling keeps the total |
| Analysis.AggregateEntries | src/components/AnalysisResultPanel.jsx:394-419 | one item per distinct contributing code, in first-appearance order, each with its label and the summed amount |
| Analysis.AggregateLookup | src/components/AnalysisResultPanel.jsx:394-413 | the accumulator holds exactly the codes of contributing rows, each with its sum |
| Analysis.AggregateTotal | src/components/AnalysisResultPanel.jsx:422-444 | the items add up to the total amount of the contributing rows |
| Analysis.MajorsFilter | src/components/AnalysisResultPanel.jsx:454-460 | the `forEach` loop keeps, in order, exactly what a filter with the 5% test keeps |
| Analysis.MajorsMembers | src/components/AnalysisResultPanel.jsx:454-457 | the kept items are exactly those whose share is at least 5% |
| Analysis.SplitTotal | src/components/AnalysisResultPanel.jsx:449-460 | the kept items plus `others` add up to the total |
| Analysis.MinorSumNonNegative | src/components/AnalysisResultPanel.jsx:458 | with non-negative tonnages `others` is non-negative |
| Analysis.FoldSmallShares | src/components/AnalysisResultPanel.jsx:448-464 | the items with a share of at least 5%, in their order, then one "기타" slice holding the rest exactly when the rest is positive |
| Analysis.FoldConservesTotal | src/components/AnalysisResultPanel.jsx:448-464 | with non-negative tonnages the slices add up to the total |
| Analysis.ZeroTotalAllZero | src/components/AnalysisResultPanel.jsx:449 | non-negative amounts with a zero total are all zero |
| Analysis.NoMajors | src/components/AnalysisResultPanel.jsx:454-460 | when no item reaches 5% nothing is kept |
| Analysis.FoldEmptyIff | src/components/AnalysisResultPanel.jsx:448-464 | with non-negative tonnages the pie is empty exactly when the total is zero |
| Analysis.FoldKeepsFivePercent | src/components/AnalysisResultPanel.jsx:450-455 | a share of exactly 5% keeps its own slice |
| Analysis.FoldFoldsFourPercent | src/components/AnalysisResultPanel.jsx:450-462 | a 4% share goes into "기타" |
| Analysis.NoDataIff | src/components/AnalysisResultPanel.jsx:467 | the fallback shows exactly when no row has a vessel-type code and the contributing tonnage is zero |
| Analysis.StripOpenTag | src/components/AnalysisResultPanel.jsx:498 | removing the opening tag never lengthens the text |
| Analysis.StripCloseTag | src/components/AnalysisResultPanel.jsx:498 | removing the trailing closing tag never lengthens the text |
| Analysis.UnwrapContainer | src/components/AnalysisResultPanel.jsx:493-501 | `innerChartCode`: null exactly for empty code; otherwise no longer than the code, and the trimmed code when it does not start with the container tag |
| Analysis.UnwrapRoundTrip | src/components/AnalysisResultPanel.jsx:493-501 | wrapping markup in the container tag, with attributes free of '>', and unwrapping gives the markup back |
| Analysis.StripOpenTagOf | src/components/AnalysisResultPanel.jsx:498 | the opening tag with any attributes free of '>' is removed exactly |
| Analysis.StripCloseTagOf | src/components/AnalysisResultPanel.jsx:498 | a closing tag at the very end is removed exactly |
| Analysis.CloseTagOnlyAtEnd | src/components/AnalysisResultPanel.jsx:498 | a closing tag at the end is the first match of the closing pattern |
| Analysis.PanelView | src/components/AnalysisResultPanel.jsx:533-586 | the message shows exactly when there is no data; otherwise the generated chart exactly when the code unwraps to a non-empty text; otherwise the built-in charts of the vessel-type aggregate and the folded pie data |
| Analysis.BlankCodeShowsBuiltin | src/components/AnalysisResultPanel.jsx:493-501 | code of only white space is truthy but unwraps to empty, so the built-in charts show |
| DynamicChart.ExtractDataAndJsx | src/components/DynamicChart.jsx:159-168 | the fragment is kept whole; the block returned is the first one the pattern matches, and none exactly when it matches nowhere |
| DynamicChart.ExtractedShape | src/components/DynamicChart.jsx:161-162 | a found block starts with `(() => {`, ends with `})()` and occurs in the fragment |
| DynamicChart.ExtractRoundTrip | src/components/DynamicChart.jsx:161-162 | a fragment holding one written-out data block gives that block back |
| DynamicChart.ProcessedData | src/components/DynamicChart.jsx:55-79 | no block gives null; a thrown error gives an empty series; otherwise the returned value |
| DynamicChart.Field | src/components/DynamicChart.jsx:91 | a matched margin field ends after its start and within the text |
| DynamicChart.FieldsAt | src/components/DynamicChart.jsx:91-96 | a matched margin gives one number per field name |
| DynamicChart.FieldsAfter | src/components/DynamicChart.jsx:91-96 | after the first field the rest of the margin gives one number per remaining name, the first being that field's |
| DynamicChart.FirstMatchOr | src/components/DynamicChart.jsx:91-108 | `match ? value : default`: the value of the first match when there is one, the default when nothing matches |
| DynamicChart.CellFills | src/components/DynamicChart.jsx:142-144 | one cell per entry, coloured `COLORS[idx % COLORS.length]`, undefined when the palette is empty |
| DynamicChart.Render | src/components/DynamicChart.jsx:83-155 | the error placeholder exactly for empty code or no data; a bar chart exactly when "BarChart" occurs, with margin, fill and labels read by their first matches or the defaults; a pie chart exactly when only "PieChart" occurs, with palette cells; charts carry the processed data |
| DynamicChart.NoBlockShowsError | src/components/DynamicChart.jsx:55-86 | without a data block the error placeholder shows |
| DynamicChart.FailureRendersEmptyChart | src/components/DynamicChart.jsx:64-78 | a data block that throws still draws a chart, with no data |
| DynamicChart.BarDefaults | src/components/DynamicChart.jsx:91-108 | with nothing to match, the bar chart uses the default margin, fill and empty labels |
| DynamicChart.PieCellsRoundRobin | src/components/DynamicChart.jsx:142-144 | cell i is coloured with palette entry i modulo the palette length |
| DynamicChart.FillRoundTrip | src/components/DynamicChart.jsx:100-101 | a quoted fill colour is read back |
| DynamicChart.YLabelRoundTrip | src/components/DynamicChart.jsx:107-108 | a Y-axis label written `value="v" angle=` is read back |
| DynamicChart.XLabelRoundTrip | src/components/DynamicChart.jsx:104-105 | an X-axis label written `XAxis label={{ value: "v" }}` is read back |
| DynamicChart.MarginRoundTrip | src/components/DynamicChart.jsx:91-97 | a margin written in the usual layout is read back |
| DynamicChart.FieldsRoundTrip | src/components/DynamicChart.jsx:91-96 | margin fields written one after another are read back in order |
| ChartHistory.ReadStored | src/components/LlmResultPanel.jsx:135-137 | a missing item reads as empty, a stored array as itself, and a malformed item fails |
| ChartHistory.AppendEvicting | src/components/LlmResultPanel.jsx:150-153 | the shift loop leaves exactly the newest `MAX_HISTORY_ITEMS` of the appended list |
| ChartHistory.AppendedShape | src/components/LlmResultPanel.jsx:150-153 | after an append there are 1 to 3 entries, the new one last; a short list loses nothing; otherwise only the oldest are dropped |
| Capture.WithNamespace | src/components/LlmResultPanel.jsx:18-20 | `xmlns` is set to the SVG namespace exactly when missing or empty; nothing else changes |
| Capture.CaptureSvg | src/components/LlmResultPanel.jsx:16-25 | null exactly without an element; otherwise the data-URL prefix followed by the encoding of the element with its namespace |
| Capture.CaptureTwice | src/components/LlmResultPanel.jsx:18-24 | capturing an element a second time gives the same URL |
| Capture.TryCapture | src/components/LlmResultPanel.jsx:111-127 | stops exactly when the flag is set; throws exactly when the container has unmounted; asks for another frame exactly while there is no svg or nothing drawn; otherwise settles on the svg found |
| Capture.PollChainFirstReady | src/components/LlmResultPanel.jsx:111-166 | a chain never settles while the flag is set; otherwise it settles on the svg of the first frame that has a drawn svg if the container stayed mounted until then, and never when no frame has one |
| Capture.UnmountEndsChain | src/components/LlmResultPanel.jsx:114 | a container that unmounts before any frame finds a drawn svg ends the chain without a capture |
| Capture.OnSettle | src/components/LlmResultPanel.jsx:130-163 | returns at once when the flag is set; fails exactly on a malformed item or when `setItem` exceeds the storage quota; otherwise sets the flag, stores the existing list with the new entry appended and the oldest shifted out beyond 3, and dispatches that entry, which holds the captured URL, the timestamp and the metadata |
| Capture.OnEffect | src/components/LlmResultPanel.jsx:106-109 | clears the flag on every run, and starts a chain exactly when the code is truthy and the container is mounted |
| Capture.CapturedRunUnchanged | src/components/LlmResultPanel.jsx:111-131 | once the flag is set, nothing changes until the effect runs again |
| Capture.AtMostOneCapture | src/components/LlmResultPanel.jsx:130-163 | between two effect runs at most one entry is dispatched, and none once the flag is set |
| Capture.CaptureBoundsStore | src/components/LlmResultPanel.jsx:150-155 | a stored capture leaves at most 3 entries; a capture over the storage quota changes nothing |
| Capture.QuotaErrorKeepsArmed | src/components/LlmResultPanel.jsx:155-162 | `setItem` throwing before the dispatch and the flag leaves the panel as it was, so a later settle callback still captures |
| Capture.MalformedStoreBlocksCapture | src/components/LlmResultPanel.jsx:135-137 | with a malformed item a settle callback changes nothing |
| Capture.EffectRearmsOlderChain | src/components/LlmResultPanel.jsx:106-167 | an effect run between two settle callbacks lets both capture |
| Capture.NextInnerChartCode | src/components/LlmResultPanel.jsx:173-182 | an empty code keeps the previous value; a non-empty one replaces it with the unwrapped code |
| Capture.Display | src/components/LlmResultPanel.jsx:207-215 | the waiting message exactly when there is no code or it is empty; otherwise the chart of that code |
| Capture.EmptyCodeKeepsChart | src/components/LlmResultPanel.jsx:173 | an empty code after a chart leaves the chart on screen |
| Capture.BlankCodeClearsChart | src/components/LlmResultPanel.jsx:173-207 | white-space-only code replaces the chart with the waiting message |
| HistoryPanel.Insert | src/components/HistoryPanel.jsx:81 | inserting adds exactly the one entry |
| HistoryPanel.InsertSorted | src/components/HistoryPanel.jsx:81 | inserting into a newest-first list keeps it newest first |
| HistoryPanel.SortNewestFirst | src/components/HistoryPanel.jsx:81 | the sorted list is a permutation of the stored one, newest first |
| HistoryPanel.SortStable | src/components/HistoryPanel.jsx:81 | entries with the same timestamp keep their stored order |
| HistoryPanel.SortOfSorted | src/components/HistoryPanel.jsx:81 | a list already newest first is left as it is |
| HistoryPanel.Load | src/components/HistoryPanel.jsx:79-83 | fails exactly on a malformed item; nothing stored gives an empty view; otherwise a newest-first permutation of the stored list |
| HistoryPanel.OnBroadcast | src/components/HistoryPanel.jsx:87-88 | a dispatched entry goes in front of the unchanged view |
| HistoryPanel.BroadcastsAccumulate | src/components/HistoryPanel.jsx:87-88 | several dispatches grow the view by one card each, the latest in front, with no bound |
| HistoryPanel.DeleteAt | src/components/HistoryPanel.jsx:98 | removes exactly the card at the index; an index out of range removes nothing |
| HistoryPanel.HandleDelete | src/components/HistoryPanel.jsx:96-101 | fails exactly when `setItem` exceeds the storage quota; otherwise the filtered view is also what is stored, and it lost exactly the deleted card |
| HistoryPanel.ClearOnLeave | src/components/HistoryPanel.jsx:70-72 | the stored item is removed, so the next load is empty |
| HistoryPanel.DeleteKeepsOrder | src/components/HistoryPanel.jsx:98 | deleting from a newest-first view keeps it newest first |
| HistoryPanel.DeleteThenAppendEvictsNewest | src/components/HistoryPanel.jsx:96-101 | after a delete writes back three cards newest first, the next append evicts the newest of them |
| MapPanel.AddAtNumber | src/components/MapPanel.jsx:111-113 | adding along a path adds the tonnage to the number at its end, a missing number counting as 0, and changes no other path of that length |
| MapPanel.AddAtKeeps | src/components/MapPanel.jsx:111 | adding along a path assigns its first key, so the key is present afterwards |
| MapPanel.ReduceCounts | src/components/MapPanel.jsx:105 | a fold whose every step adds a selected row's amount to one counter ends with the sum over the selected rows, and nothing when none was selected |
| MapPanel.NestStepCell | src/components/MapPanel.jsx:106-114 | one row adds its tonnage to its own cell when kept, and to no other |
| MapPanel.NestCell | src/components/MapPanel.jsx:104-116 | every cell holds the tonnage summed over the kept rows with its keys; a cell no kept row names is absent |
| MapPanel.NestEmpty | src/components/MapPanel.jsx:104-116 | the object has no property exactly when no row was kept |
| MapPanel.NestDistinct | src/components/MapPanel.jsx:104-116 | no port code occurs twice at the top level |
| MapPanel.AggregatedCell | src/components/MapPanel.jsx:104-116 | each cell of `aggregated` is the tonnage summed over the rows with that code, year and month |
| MapPanel.FalsyRowSkipped | src/components/MapPanel.jsx:110 | a row with a falsy code, year or month changes nothing |
| MapPanel.IsEmptyIff | src/components/MapPanel.jsx:132 | the map is empty exactly when no row has a code, a year and a month |
| MapPanel.LocationOf | src/components/MapPanel.jsx:123-128 | '021', '020' and '022' select markers 0, 1 and 2, and no other code selects a marker |
| MapPanel.AssignTons | src/components/MapPanel.jsx:120-130 | there are always three markers |
| MapPanel.AssignTonsLookup | src/components/MapPanel.jsx:120-130 | a marker takes its code's sub-object when the code is present, and keeps what it had otherwise |
| MapPanel.LookupLast | src/components/MapPanel.jsx:120-130 | with distinct keys, the last entry answers for its own key only |
| MapPanel.MarkerAt | src/components/MapPanel.jsx:159-175 | a circle exactly when the map is not empty and a date is selected, coloured `colors[idx % 3]`, showing the month's tonnage |
| MapPanel.MarkerShowsCell | src/components/MapPanel.jsx:120-163 | a marker whose code was aggregated shows that code's cell for the padded month, or 0 |
| MapPanel.UnpaddedMonthNotShown | src/components/MapPanel.jsx:108-163 | tonnage stored under an unpadded month numeral is shown as 0 |
| Timeline.IndexInjective | src/components/TimeLinePanel.jsx:17 | two months with the same index are the same month |
| Timeline.MonthOfIndex | src/components/TimeLinePanel.jsx:109 | a month's zero-based number is its index modulo 12 |
| Timeline.Next | src/components/TimeLinePanel.jsx:109 | the next month is one index later; December is followed by January |
| Timeline.MonthsCount | src/components/TimeLinePanel.jsx:17 | `monthsCount` is the number of months from start to end, both included, positive exactly when end is not before start |
| Timeline.MonthsFromIndex | src/components/TimeLinePanel.jsx:105-110 | the i-th of n consecutive months is i months after the first |
| Timeline.EnumerateMonths | src/components/TimeLinePanel.jsx:105-110 | the loop lists `monthsCount` months (none when end is before start), from start's month to end's, each the month after the previous, equal to the reference list |
| Timeline.DefaultMonths | src/components/TimeLinePanel.jsx:4-17 | the default props give 24 months, the thirteenth January 2023 |
| Timeline.YearLabels | src/components/TimeLinePanel.jsx:172-174 | the year label shows over the months whose index is a multiple of 12 |
| Timeline.MinOffsetSign | src/components/TimeLinePanel.jsx:62-66 | `minOffset` is at most 0 exactly when the strip holds 12 months or more, or the container has no width |
| Timeline.Clamp | src/components/TimeLinePanel.jsx:66-68 | the clamped offset is at most 0, at least `minOffset` when that is at most 0, and unchanged when already in range |
| Timeline.ClampIdempotent | src/components/TimeLinePanel.jsx:66-68 | clamping twice is clamping once |
| Timeline.Handle | src/components/TimeLinePanel.jsx:49-102 | press records the press position and offset; a move while dragging sets the clamped offset; a move while not dragging changes nothing; release stops the drag |
| Timeline.HandleInStrip | src/components/TimeLinePanel.jsx:30-98 | every event keeps the offset in range |
| Timeline.HandleAllInStrip | src/components/TimeLinePanel.jsx:57-98 | no sequence of events drags the strip out of range |
| Timeline.ReachableInStrip | src/components/TimeLinePanel.jsx:10-98 | from the first render, the offset is never positive |
| Timeline.DragBackRestores | src/components/TimeLinePanel.jsx:49-70 | pressing and moving back to the press point leaves the strip where it was |
| Timeline.HandleMonthSelect | src/components/TimeLinePanel.jsx:115-120 | records the index, and passes `months[idx]` to the callback exactly when there is one |
| Timeline.SelectMonth | src/components/TimeLinePanel.jsx:115-162 | clicking circle idx selects it and passes the month idx months after start, which is not after end |

## Left out

- Rendering, layout, tooltips, legends, map tiles and the other presentation-only JSX are not modelled.
- The marker radius (`Math.sqrt`) and the timeline pixel spacing involve floating point and drawing only. The model keeps their inputs, the tonnage and the offset.
- `fetch` of the dictionary CSVs and of the dock data, `Papa.parse`, `XMLSerializer`, `btoa` and `new Function` are outside the model. The parser becomes the parameter `papa` of `ParseCsv.ParseAndClean`. The serialiser and encoder become `encode` in `Capture`. Evaluating the data block becomes `run` in `DynamicChart`.
- The dock-data table built in `MapPanel.jsx` is never read by the rest of the panel, so it is not modelled.
- Clocks: capture timestamps are integer parameters ordered like the instants they stand for. ISO-8601 formatting and `new Date` parsing, including invalid dates, are left out.
- `requestAnimationFrame`, `setTimeout` and the browser's event dispatch become explicit event lists. Real timing and the 800 ms settle delay are not modelled.
- JSON encoding of the stored history is treated as the identity: what is stored is read back unchanged.
- The browser's storage quota is not computed: whether `localStorage.setItem` accepts the serialized list is the boolean parameter `fits` of `Capture.OnSettle` and `HistoryPanel.HandleDelete`.
- The unused `finalJSX` and `innerChartJSX` in `AnalysisResultPanel.jsx` and the commented-out code are not modelled.
- Rows.NumberOr0: `Number(s)` is modelled on integer decimal numerals only; fractions, exponents, hexadecimal, `Infinity` and `NaN` are not.
- Text.ToNumber: only blank text and integer numerals with an optional '+' or '-' sign are recognised.
- Entries.LookupIndex: only own properties are read. In JavaScript `obj[k]` also reaches `Object.prototype`, so keys such as `constructor`, `toString` or `__proto__` are not undefined on an object without them; the model does not follow those keys.
- Entries.Add: `acc[k] || 0` is modelled on own properties only; for a key naming an `Object.prototype` member JavaScript reads the inherited value and the sum becomes a string, and `__proto__` writes do not create an entry.
- Analysis.Label: `dict[code] || code` reads own entries only; a code naming an `Object.prototype` member gets the inherited value as its label in JavaScript.
- Entries.Put: keys keep first-insertion order; JavaScript lists integer-like keys first in ascending order, and the model does not.
- Rows.Truthy: field values are strings, integers or `undefined` (`Missing`); `null`, booleans, `NaN` and fractional numbers are not modelled.
- DynamicChart.ProcessedData: a returned value that is truthy but not an array is not modelled; the outcomes are an array, a falsy value, or an exception.
- DynamicChart.Field: `parseInt` is modelled on unbounded naturals, without the loss of precision above 2^53.
- MapPanel.AddAt: a number found where an object is expected on the way down is treated as `{}`. The keep test makes every level an object, so this case does not arise.
- MapPanel.ShownTon: `?? 0` reached on a sub-object instead of a number is read as 0.
- Timeline.Handle: a drag's mouse listeners are the closures of the render at press time; the model reads the current container width instead. The two differ only if the container is resized during a drag.
- Timeline.HandleMonthSelect: the date passed on is the first of its month; its time of day and time zone are not modelled.

=== FILE: analysis.dfy ===
/** The data shaping of the analysis panel (src/components/AnalysisResultPanel.jsx):
    the rows of the uploaded table are filtered by port and date, grouped by a
    code column and summed, relabelled through a code dictionary, and the
    tonnage series is folded so that every share below 5% goes into one
    "기타" ("other") slice. The assistant's chart markup is unwrapped from its
    outer `<ResponsiveContainer>`. */
module Analysis {
  import opened Wrappers
  import opened Text
  import opened Scan
  import opened Entries
  import opened Rows
  import opened Grouping

  const PortColumn := "청코드"
  const YearColumn := "년"
  const MonthColumn := "월"
  const TypeColumn := "선종코드"
  const CountColumn := "척수"
  const OdColumn := "국내 OD"
  const TonColumn := "총톤수"

  /** The label of the slice that collects the small shares. */
  const Other := "기타"

  /** `bindings.COLORS`, the palette both pie charts use. */
  const Palette: seq<string> := [
    "#4E79A7", "#59A14F", "#F28E2B", "#E15759", "#76B7B2",
    "#EDC948", "#B07AA1", "#FF9DA7", "#9C755F", "#BAB0AC"
  ]

  /** The panel's filter inputs: `selectedPortCode` ("" standing for every falsy
      value) and `selectedDate`. */
  datatype Selection = Selection(port: string, date: SelectedDate)

  /** The filter that lets every row through. */
  const NoFilter := Selection("", NoDate)

  /** One bar or slice: `{type, count}` of the vessel-type series and `{od, ton}`
      of the tonnage series. */
  datatype Bucket = Bucket(name: string, amount: int)

  // ---------------------------------------------------------------------------
  // Filtering

  /** `selectedDate?.year && selectedDate?.month`: both are set and non-zero. */
  predicate DateActive(date: SelectedDate) {
    date.Selected? && date.year != 0 && date.month != 0
  }

  /** `String(x).padStart(2, '0')`, the form both sides of the month test take. */
  function MonthKey(s: string): string {
    PadStart2(s)
  }

  /** The port test and the date test every row must pass. */
  predicate PassesFilters(row: Row, f: Selection) {
    && (f.port == "" || Get(row, PortColumn) == Str(f.port))
    && (DateActive(f.date) ==>
          && StringOf(Get(row, YearColumn)) == IntToString(f.date.year)
          && MonthKey(StringOf(Get(row, MonthColumn))) == MonthKey(IntToString(f.date.month)))
  }

  /** A row adds to the aggregate keyed by `keyCol` when it passes the filters
      and its code is truthy. */
  predicate Contributes(row: Row, f: Selection, keyCol: string) {
    PassesFilters(row, f) && Truthy(Get(row, keyCol))
  }

  /** The property key `acc[code]` uses. */
  function KeyOf(row: Row, keyCol: string): string {
    StringOf(Get(row, keyCol))
  }

  /** `Number(row[amtCol]) || 0` */
  function Amount(row: Row, amtCol: string): int {
    NumberOr0(Get(row, amtCol))
  }

  /** The keep test, key and amount of the grouping loops, as function values. */
  function Keeps(f: Selection, keyCol: string): Row -> bool {
    row => Contributes(row, f, keyCol)
  }

  function KeyFn(keyCol: string): Row -> string {
    row => KeyOf(row, keyCol)
  }

  function AmountFn(amtCol: string): Row -> int {
    row => Amount(row, amtCol)
  }

  function Passes(f: Selection): Row -> bool {
    row => PassesFilters(row, f)
  }

  /** `acc` after `csvRows.forEach(...)`: the amounts of the contributing rows
      summed per code. */
  function Aggregate(rows: seq<Row>, f: Selection, keyCol: string, amtCol: string): Entries<int> {
    GroupSum(rows, Keeps(f, keyCol), KeyFn(keyCol), AmountFn(amtCol))
  }

  /** Filtering first and grouping the survivors without a filter gives the same
      accumulator: rows that fail the port or date test contribute nothing. */
  lemma AggregateFilterFirst(rows: seq<Row>, f: Selection, keyCol: string, amtCol: string)
    ensures Aggregate(rows, f, keyCol, amtCol) == Aggregate(Filter(rows, Passes(f)), NoFilter, keyCol, amtCol)
  {
    assert forall row :: Keeps(f, keyCol)(row) == (Passes(f)(row) && Keeps(NoFilter, keyCol)(row)) by {
      forall row ensures Keeps(f, keyCol)(row) == (Passes(f)(row) && Keeps(NoFilter, keyCol)(row)) {
        assert PassesFilters(row, NoFilter);
      }
    }
    GroupSumFilterFirst(rows, Passes(f), Keeps(NoFilter, keyCol), Keeps(f, keyCol), KeyFn(keyCol), AmountFn(amtCol));
  }

  /** A row from another port than the selected one changes nothing. */
  lemma PortFilterExcludes(rows: seq<Row>, f: Selection, keyCol: string, amtCol: string, row: Row)
    requires f.port != "" && Get(row, PortColumn) != Str(f.port)
    ensures Aggregate(rows + [row], f, keyCol, amtCol) == Aggregate(rows, f, keyCol, amtCol)
  {
    assert !Keeps(f, keyCol)(row);
    RejectedRowIgnored(rows, Keeps(f, keyCol), KeyFn(keyCol), AmountFn(amtCol), row);
  }

  /** A row whose code is falsy (empty or missing) changes nothing. */
  lemma FalsyCodeIgnored(rows: seq<Row>, f: Selection, keyCol: string, amtCol: string, row: Row)
    requires !Truthy(Get(row, keyCol))
    ensures Aggregate(rows + [row], f, keyCol, amtCol) == Aggregate(rows, f, keyCol, amtCol)
  {
    assert !Keeps(f, keyCol)(row);
    RejectedRowIgnored(rows, Keeps(f, keyCol), KeyFn(keyCol), AmountFn(amtCol), row);
  }

  // ---------------------------------------------------------------------------
  // The date test

  lemma IntToStringInjective(a: int, b: int)
    ensures IntToString(a) == IntToString(b) <==> a == b
  {
    NumberOfString(a);
    NumberOfString(b);
  }

  /** The padded numeral of a month number below 100 reads back as that number. */
  lemma MonthKeyValue(m: nat)
    requires m < 100
    ensures AllDigits(MonthKey(NatToString(m))) && DigitsValue(MonthKey(NatToString(m))) == m
  {
    DigitsValueOfNatToString(m);
    var d := NatToString(m);
    if m < 10 {
      var r := MonthKey(d);
      assert r == ['0', d[0]];
      assert r[..1] == ['0'];
      assert d[..0] == [];
    }
  }

  /** Padding loses nothing: two month numbers below 100 give the same key only
      when they are equal, whether or not one of them had a leading zero. */
  lemma MonthKeyInjective(m1: int, m2: int)
    requires 0 <= m1 < 100 && 0 <= m2 < 100
    ensures MonthKey(IntToString(m1)) == MonthKey(IntToString(m2)) <==> m1 == m2
  {
    MonthKeyValue(m1);
    MonthKeyValue(m2);
  }

  /** For a row whose year and month are numbers, the date test holds exactly
      when they are the selected year and month. */
  lemma DateTestOnNumbers(row: Row, year: int, month: int, date: SelectedDate)
    requires Get(row, YearColumn) == Num(year) && Get(row, MonthColumn) == Num(month) && 0 <= month < 100
    requires DateActive(date) && 0 <= date.month < 100
    ensures PassesFilters(row, Selection("", date)) <==> year == date.year && month == date.month
  {
    IntToStringInjective(year, date.year);
    MonthKeyInjective(month, date.month);
  }

  /** Without a selected date (or with a zero year or month), only the port test applies. */
  lemma DateTestInactive(row: Row, f: Selection)
    requires !DateActive(f.date)
    ensures PassesFilters(row, f) <==> f.port == "" || Get(row, PortColumn) == Str(f.port)
  {
  }

  /** A month written "9" and one written "09" both match a selected month 9. */
  lemma MonthPaddingScenario()
    ensures MonthKey("9") == MonthKey(IntToString(9)) && MonthKey("09") == MonthKey(IntToString(9))
  {
    assert NatToString(9) == "9";
  }

  // ---------------------------------------------------------------------------
  // Relabelling: `Object.entries(acc).map(([code, n]) => ({ label: dict[code] || code, n }))`

  /** `dict[code] || code`, a missing name and an empty one falling back to the code. */
  function Label(dict: Entries<string>, code: string): (r: string)
    ensures r == code || (Lookup(dict, code) == Some(r) && r != "")
    ensures r == code <== Lookup(dict, code).None? || Lookup(dict, code) == Some("")
  {
    match Lookup(dict, code)
    case Some(name) => if name != "" then name else code
    case None => code
  }

  function Relabel(acc: Entries<int>, dict: Entries<string>): (r: seq<Bucket>)
    ensures |r| == |acc|
    ensures forall i :: 0 <= i < |r| ==> r[i].amount == acc[i].1 && r[i].name == Label(dict, acc[i].0)
  {
    seq(|acc|, i requires 0 <= i < |acc| => Bucket(Label(dict, acc[i].0), acc[i].1))
  }

  /** The sum of the amounts of a series. */
  function Total(items: seq<Bucket>): int
    decreases |items|
  {
    if items == [] then 0 else Total(items[..|items| - 1]) + items[|items| - 1].amount
  }

  lemma TotalAppend(items: seq<Bucket>, b: Bucket)
    ensures Total(items + [b]) == Total(items) + b.amount
  {
    assert (items + [b])[..|items|] == items;
  }

  /** Relabelling keeps every amount, so the series total is the accumulator's. */
  lemma {:induction false} RelabelTotal(acc: Entries<int>, dict: Entries<string>)
    ensures Total(Relabel(acc, dict)) == SumValues(acc)
    decreases |acc|
  {
    if acc != [] {
      var n := |acc| - 1;
      RelabelTotal(acc[..n], dict);
      assert Relabel(acc, dict)[..n] == Relabel(acc[..n], dict);
    }
  }

  /** `aggregatedByType` */
  function AggregatedByType(rows: seq<Row>, f: Selection, vesselDict: Entries<string>): seq<Bucket> {
    Relabel(Aggregate(rows, f, TypeColumn, CountColumn), vesselDict)
  }

  /** `dataByOd` */
  function DataByOd(rows: seq<Row>, f: Selection, domOdDict: Entries<string>): seq<Bucket> {
    Relabel(Aggregate(rows, f, OdColumn, TonColumn), domOdDict)
  }

  /** The codes of the contributing rows, in row order. */
  function Codes(rows: seq<Row>, f: Selection, keyCol: string): seq<string> {
    KeptKeys(rows, Keeps(f, keyCol), KeyFn(keyCol))
  }

  /** The summed amount of code `k`. */
  function CodeSum(rows: seq<Row>, f: Selection, keyCol: string, amtCol: string, k: string): int {
    SumFor(rows, Keeps(f, keyCol), KeyFn(keyCol), AmountFn(amtCol), k)
  }

  /** One bar per distinct contributing code, in order of first appearance,
      labelled through the dictionary and carrying the code's summed amount. */
  lemma AggregateEntries(rows: seq<Row>, f: Selection, keyCol: string, amtCol: string, dict: Entries<string>)
    ensures var r := Relabel(Aggregate(rows, f, keyCol, amtCol), dict);
      var codes := Dedup(Codes(rows, f, keyCol));
      |r| == |codes| && forall i :: 0 <= i < |r| ==> r[i] == Bucket(Label(dict, codes[i]), CodeSum(rows, f, keyCol, amtCol, codes[i]))
  {
    GroupSumKeys(rows, Keeps(f, keyCol), KeyFn(keyCol), AmountFn(amtCol));
    forall i | 0 <= i < |Dedup(Codes(rows, f, keyCol))| {
      GroupSumEntry(rows, Keeps(f, keyCol), KeyFn(keyCol), AmountFn(amtCol), i);
    }
  }

  /** The accumulator holds exactly the codes of contributing rows. */
  lemma AggregateLookup(rows: seq<Row>, f: Selection, keyCol: string, amtCol: string, k: string)
    ensures Lookup(Aggregate(rows, f, keyCol, amtCol), k) ==
      if k in Codes(rows, f, keyCol) then Some(CodeSum(rows, f, keyCol, amtCol, k)) else None
  {
    GroupSumLookup(rows, Keeps(f, keyCol), KeyFn(keyCol), AmountFn(amtCol), k);
  }

  /** The bars add up to the total amount of the contributing rows. */
  lemma AggregateTotal(rows: seq<Row>, f: Selection, keyCol: string, amtCol: string, dict: Entries<string>)
    ensures Total(Relabel(Aggregate(rows, f, keyCol, amtCol), dict)) == TotalKept(rows, Keeps(f, keyCol), AmountFn(amtCol))
  {
    RelabelTotal(Aggregate(rows, f, keyCol, amtCol), dict);
    GroupSumTotal(rows, Keeps(f, keyCol), KeyFn(keyCol), AmountFn(amtCol));
  }

  // ---------------------------------------------------------------------------
  // Folding the small shares: `chartData`

  /** `ton / total >= 0.05` in real arithmetic: a zero total makes every positive
      share infinite (kept) and a zero share `NaN` (folded); a negative total
      flips the inequality. */
  predicate Major(ton: int, total: int) {
    if total > 0 then 20 * ton >= total
    else if total == 0 then ton > 0
    else 20 * ton <= total
  }

  /** The items kept, in order. */
  function Majors(items: seq<Bucket>, total: int): (r: seq<Bucket>)
    ensures |r| <= |items|
    decreases |items|
  {
    if items == [] then []
    else
      var n := |items| - 1;
      Majors(items[..n], total) + if Major(items[n].amount, total) then [items[n]] else []
  }

  /** The 5% test against `total`, as a selection predicate. */
  function MajorOf(total: int): Bucket -> bool {
    (b: Bucket) => Major(b.amount, total)
  }

  /** The `forEach` loop keeps what `items.filter` with the 5% test would keep,
      in the same order. */
  lemma {:induction false} MajorsFilter(items: seq<Bucket>, total: int)
    ensures Majors(items, total) == Filter(items, MajorOf(total))
    decreases |items|
  {
    if items != [] {
      MajorsFilter(items[..|items| - 1], total);
    }
  }

  /** The kept items are exactly the items with a share of at least 5%. */
  lemma {:induction false} MajorsMembers(items: seq<Bucket>, total: int)
    ensures forall b :: b in Majors(items, total) <==> b in items && Major(b.amount, total)
    decreases |items|
  {
    if items != [] {
      var n := |items| - 1;
      MajorsMembers(items[..n], total);
      assert items == items[..n] + [items[n]];
    }
  }

  /** `others`: the sum of the folded amounts. */
  function MinorSum(items: seq<Bucket>, total: int): int
    decreases |items|
  {
    if items == [] then 0
    else
      var n := |items| - 1;
      MinorSum(items[..n], total) + if Major(items[n].amount, total) then 0 else items[n].amount
  }

  lemma {:induction false} SplitTotal(items: seq<Bucket>, total: int)
    ensures Total(Majors(items, total)) + MinorSum(items, total) == Total(items)
    decreases |items|
  {
    if items != [] {
      var n := |items| - 1;
      SplitTotal(items[..n], total);
      if Major(items[n].amount, total) {
        TotalAppend(Majors(items[..n], total), items[n]);
      } else {
        assert Majors(items[..n], total) + [] == Majors(items[..n], total);
      }
    }
  }

  predicate NonNegative(items: seq<Bucket>) {
    forall i :: 0 <= i < |items| ==> items[i].amount >= 0
  }

  lemma {:induction false} MinorSumNonNegative(items: seq<Bucket>, total: int)
    requires NonNegative(items)
    ensures MinorSum(items, total) >= 0
    decreases |items|
  {
    if items != [] {
      var n := |items| - 1;
      assert forall i :: 0 <= i < n ==> items[..n][i] == items[i];
      MinorSumNonNegative(items[..n], total);
    }
  }

  /** `chartData`: the items with a share of at least 5%, in order, then one
      "기타" slice carrying the rest when the rest is positive. */
  function FoldSmallShares(items: seq<Bucket>): (r: seq<Bucket>)
    ensures var m := MinorSum(items, Total(items));
      r == Filter(items, MajorOf(Total(items))) + if m > 0 then [Bucket(Other, m)] else []
    ensures |r| <= |items| + 1
    ensures forall i :: 0 <= i < |items| && Major(items[i].amount, Total(items)) ==> items[i] in r
    ensures forall b :: b in r ==> (b in items && Major(b.amount, Total(items))) || b == Bucket(Other, MinorSum(items, Total(items)))
  {
    var total := Total(items);
    var main := Majors(items, total);
    var others := MinorSum(items, total);
    MajorsMembers(items, total);
    MajorsFilter(items, total);
    if others > 0 then main + [Bucket(Other, others)] else main
  }

  /** With non-negative tonnages the pie keeps the whole: its slices add up to the total. */
  lemma FoldConservesTotal(items: seq<Bucket>)
    requires NonNegative(items)
    ensures Total(FoldSmallShares(items)) == Total(items)
  {
    var total := Total(items);
    SplitTotal(items, total);
    MinorSumNonNegative(items, total);
    var others := MinorSum(items, total);
    if others > 0 {
      TotalAppend(Majors(items, total), Bucket(Other, others));
    }
  }

  lemma {:induction false} TotalNonNegative(items: seq<Bucket>)
    requires NonNegative(items)
    ensures Total(items) >= 0
    decreases |items|
  {
    if items != [] {
      var n := |items| - 1;
      assert forall i :: 0 <= i < n ==> items[..n][i] == items[i];
      TotalNonNegative(items[..n]);
    }
  }

  lemma {:induction false} ZeroTotalAllZero(items: seq<Bucket>)
    requires NonNegative(items) && Total(items) == 0
    ensures forall i :: 0 <= i < |items| ==> items[i].amount == 0
    decreases |items|
  {
    if items != [] {
      var n := |items| - 1;
      assert forall i :: 0 <= i < n ==> items[..n][i] == items[i];
      TotalNonNegative(items[..n]);
      ZeroTotalAllZero(items[..n]);
    }
  }

  lemma {:induction false} NoMajors(items: seq<Bucket>, total: int)
    requires forall i :: 0 <= i < |items| ==> !Major(items[i].amount, total)
    ensures Majors(items, total) == []
    decreases |items|
  {
    if items != [] {
      var n := |items| - 1;
      assert forall i :: 0 <= i < n ==> items[..n][i] == items[i];
      NoMajors(items[..n], total);
      assert !Major(items[n].amount, total);
    }
  }

  /** With non-negative tonnages the pie is empty exactly when the total is zero
      (in particular a zero total gives an empty pie, never a failure). */
  lemma FoldEmptyIff(items: seq<Bucket>)
    requires NonNegative(items)
    ensures FoldSmallShares(items) == [] <==> Total(items) == 0
  {
    var total := Total(items);
    SplitTotal(items, total);
    MinorSumNonNegative(items, total);
    TotalNonNegative(items);
    if total == 0 {
      ZeroTotalAllZero(items);
      NoMajors(items, total);
    } else if Majors(items, total) == [] {
      assert MinorSum(items, total) == total;
    }
  }

  /** A 5% share is kept on its own. */
  lemma FoldKeepsFivePercent()
    ensures FoldSmallShares([Bucket("A", 95), Bucket("B", 5)]) == [Bucket("A", 95), Bucket("B", 5)]
  {
    var items := [Bucket("A", 95), Bucket("B", 5)];
    assert items[..1] == [Bucket("A", 95)] && items[..1][..0] == [];
    assert Total(items) == 100;
    assert Majors(items, 100) == [Bucket("A", 95), Bucket("B", 5)];
    assert MinorSum(items, 100) == 0;
  }

  /** A 4% share goes into "기타". */
  lemma FoldFoldsFourPercent()
    ensures FoldSmallShares([Bucket("A", 96), Bucket("B", 4)]) == [Bucket("A", 96), Bucket(Other, 4)]
  {
    var items := [Bucket("A", 96), Bucket("B", 4)];
    assert items[..1] == [Bucket("A", 96)] && items[..1][..0] == [];
    assert Total(items) == 100;
    assert Majors(items, 100) == [Bucket("A", 96)];
    assert MinorSum(items, 100) == 4;
  }

  // ---------------------------------------------------------------------------
  // The no-data fallback

  /** `noData` */
  predicate NoData(byType: seq<Bucket>, chartData: seq<Bucket>) {
    |byType| == 0 && |chartData| == 0
  }

  /** With non-negative tonnages, the fallback message shows exactly when no row
      contributes to the vessel-type bars and the contributing tonnage is zero. */
  lemma NoDataIff(rows: seq<Row>, f: Selection, vesselDict: Entries<string>, domOdDict: Entries<string>)
    requires forall i :: 0 <= i < |rows| ==> Amount(rows[i], TonColumn) >= 0
    ensures NoData(AggregatedByType(rows, f, vesselDict), FoldSmallShares(DataByOd(rows, f, domOdDict)))
      <==> Codes(rows, f, TypeColumn) == [] && TotalKept(rows, Keeps(f, OdColumn), AmountFn(TonColumn)) == 0
  {
    NoBarsIff(rows, f, vesselDict);
    EmptyPieIff(rows, f, domOdDict);
  }

  /** No vessel-type bar exactly when no row contributes a type. */
  lemma NoBarsIff(rows: seq<Row>, f: Selection, vesselDict: Entries<string>)
    ensures AggregatedByType(rows, f, vesselDict) == [] <==> Codes(rows, f, TypeColumn) == []
  {
    AggregateEntries(rows, f, TypeColumn, CountColumn, vesselDict);
    DedupEmpty(Codes(rows, f, TypeColumn));
  }

  /** With non-negative tonnages the pie is empty exactly when the contributing
      tonnage is zero. */
  lemma EmptyPieIff(rows: seq<Row>, f: Selection, domOdDict: Entries<string>)
    requires forall i :: 0 <= i < |rows| ==> Amount(rows[i], TonColumn) >= 0
    ensures FoldSmallShares(DataByOd(rows, f, domOdDict)) == [] <==> TotalKept(rows, Keeps(f, OdColumn), AmountFn(TonColumn)) == 0
  {
    var acc := Aggregate(rows, f, OdColumn, TonColumn);
    var od := DataByOd(rows, f, domOdDict);
    GroupSumNonNegative(rows, Keeps(f, OdColumn), KeyFn(OdColumn), AmountFn(TonColumn));
    assert NonNegative(od) by {
      assert forall i :: 0 <= i < |od| ==> od[i].amount == acc[i].1 && acc[i] in acc;
    }
    FoldEmptyIff(od);
    AggregateTotal(rows, f, OdColumn, TonColumn, domOdDict);
  }

  // ---------------------------------------------------------------------------
  // Unwrapping the assistant's markup: `innerChartCode`

  const OpenTag := "<ResponsiveContainer"
  const CloseTag := "</ResponsiveContainer>"

  predicate StartsWith(s: string, prefix: string) {
    |prefix| <= |s| && s[..|prefix|] == prefix
  }

  /** `.replace(/^<ResponsiveContainer[^>]*>/, '')`: the opening tag runs to the
      first `>` after its name; without one nothing is removed. */
  function StripOpenTag(t: string): (r: string)
    ensures |r| <= |t|
  {
    if StartsWith(t, OpenTag) then
      match IndexOf(t, ">", |OpenTag|)
      case Some(j) => t[j + 1..]
      case None => t
    else t
  }

  /** `</ResponsiveContainer>\s*$` at `i`. */
  function CloseTagAt(s: string, i: nat): Option<nat> {
    if LiteralAt(s, i, CloseTag) && AllSpace(s[i + |CloseTag|..]) then Some(i) else None
  }

  /** `.replace(/<\/ResponsiveContainer>\s*$/, '')` */
  function StripCloseTag(t: string): (r: string)
    ensures |r| <= |t|
  {
    match Leftmost(t, 0, CloseTagAt)
    case Some((i, _)) => t[..i]
    case None => t
  }

  /** `innerChartCode`: `None` (null) for falsy code; otherwise the trimmed code,
      without its outer `<ResponsiveContainer>` when it starts with one. */
  function UnwrapContainer(code: string): (r: Option<string>)
    ensures r.None? <==> code == ""
    ensures r.Some? ==> |r.value| <= |code|
    ensures r.Some? && !StartsWith(Trim(code), OpenTag) ==> r.value == Trim(code)
  {
    if code == "" then None
    else
      var t := Trim(code);
      Some(if StartsWith(t, OpenTag) then StripCloseTag(StripOpenTag(t)) else t)
  }

  /** Wrapping any markup in the container, with any attributes free of `>`,
      and unwrapping it gives the markup back. */
  lemma UnwrapRoundTrip(attrs: string, x: string)
    requires forall k :: 0 <= k < |attrs| ==> attrs[k] != '>'
    ensures UnwrapContainer(OpenTag + attrs + ">" + x + CloseTag) == Some(x)
  {
    var s := OpenTag + attrs + ">" + x + CloseTag;
    TrimOfTagged(s);
    assert s[..|OpenTag|] == OpenTag;
    assert s == OpenTag + attrs + ">" + (x + CloseTag);
    StripOpenTagOf(attrs, x + CloseTag);
    StripCloseTagOf(x);
  }

  /** Markup that starts with `<` and ends with `>` is already trimmed. */
  lemma TrimOfTagged(s: string)
    requires |s| > 0 && s[0] == '<' && s[|s| - 1] == '>'
    ensures Trim(s) == s
  {
    assert [] + s + [] == s;
    TrimOfPadded([], s, []);
  }

  lemma StripOpenTagOf(attrs: string, y: string)
    requires forall k :: 0 <= k < |attrs| ==> attrs[k] != '>'
    ensures StripOpenTag(OpenTag + attrs + ">" + y) == y
  {
    var s := OpenTag + attrs + ">" + y;
    var p := |OpenTag| + |attrs|;
    assert s[..|OpenTag|] == OpenTag;
    assert s[..p + 1] == OpenTag + attrs + ">";
    OpenTagEnd(s, attrs, p);
    assert s[p + 1..] == y;
  }

  lemma OpenTagEnd(s: string, attrs: string, p: nat)
    requires forall k :: 0 <= k < |attrs| ==> attrs[k] != '>'
    requires p == |OpenTag| + |attrs| < |s| && s[..p + 1] == OpenTag + attrs + ">"
    ensures IndexOf(s, ">", |OpenTag|) == Some(p)
  {
    assert LiteralAt(s, p, ">") by {
      assert s[p] == s[..p + 1][p] == '>';
      assert s[p..p + 1] == [s[p]];
    }
    forall k | |OpenTag| <= k < p ensures !LiteralAt(s, k, ">") {
      assert s[k] == s[..p + 1][k] == attrs[k - |OpenTag|];
      assert s[k..k + 1] == [s[k]];
    }
  }

  lemma StripCloseTagOf(x: string)
    ensures StripCloseTag(x + CloseTag) == x
  {
    var t := x + CloseTag;
    var m := |x|;
    assert t[m..] == CloseTag;
    CloseTagOnlyAtEnd(t, m);
    assert t[..m] == x;
  }

  lemma CloseTagOnlyAtEnd(t: string, m: nat)
    requires m + |CloseTag| == |t| && t[m..] == CloseTag
    ensures Leftmost(t, 0, CloseTagAt) == Some((m, m))
  {
    assert CloseTagAt(t, m) == Some(m) by {
      assert t[m..m + |CloseTag|] == CloseTag;
      assert t[m + |CloseTag|..] == [];
    }
    NoCloseTagBefore(t, m);
    LeftmostIs(t, 0, CloseTagAt, m, m);
  }

  lemma NoCloseTagBefore(t: string, m: nat)
    requires m + |CloseTag| == |t| && t[m..] == CloseTag
    ensures forall k :: 0 <= k < m ==> CloseTagAt(t, k).None?
  {
    forall k | 0 <= k < m ensures CloseTagAt(t, k).None? {
      var rest := t[k + |CloseTag|..];
      assert rest[|rest| - 1] == t[|t| - 1] == CloseTag[|CloseTag| - 1];
      EndsInBracket(rest);
    }
  }

  lemma EndsInBracket(s: string)
    requires |s| > 0 && s[|s| - 1] == '>'
    ensures !AllSpace(s)
  {
    assert !IsSpace(s[|s| - 1]);
  }

  /** What the panel shows. */
  datatype View =
    | NoDataMessage
    | Generated(code: string)
    | Builtin(bars: seq<Bucket>, pie: seq<Bucket>)

  /** The three render branches: the fallback message, the assistant's chart
      when `innerChartCode` is truthy, the built-in bar and pie charts otherwise. */
  function PanelView(rows: seq<Row>, f: Selection, vesselDict: Entries<string>, domOdDict: Entries<string>, generatedCode: string): (v: View)
    ensures v.NoDataMessage? <==> NoData(AggregatedByType(rows, f, vesselDict), FoldSmallShares(DataByOd(rows, f, domOdDict)))
    ensures v.Generated? ==> UnwrapContainer(generatedCode) == Some(v.code) && v.code != ""
    ensures v.Builtin? ==> UnwrapContainer(generatedCode) in {None, Some("")}
    ensures v.Builtin? ==> v.bars == AggregatedByType(rows, f, vesselDict) && v.pie == FoldSmallShares(DataByOd(rows, f, domOdDict))
    ensures !v.NoDataMessage? ==> (v.Generated? <==> generatedCode != "" && UnwrapContainer(generatedCode).value != "")
  {
    var byType := AggregatedByType(rows, f, vesselDict);
    var chartData := FoldSmallShares(DataByOd(rows, f, domOdDict));
    if NoData(byType, chartData) then NoDataMessage
    else match UnwrapContainer(generatedCode)
      case Some(inner) => if inner != "" then Generated(inner) else Builtin(byType, chartData)
      case None => Builtin(byType, chartData)
  }

  /** Code made only of white space is truthy, but unwraps to the empty string,
      which is falsy: the built-in charts show. */
  lemma BlankCodeShowsBuiltin(rows: seq<Row>, f: Selection, vesselDict: Entries<string>, domOdDict: Entries<string>)
    requires !NoData(AggregatedByType(rows, f, vesselDict), FoldSmallShares(DataByOd(rows, f, domOdDict)))
    ensures PanelView(rows, f, vesselDict, domOdDict, " ").Builtin?
  {
    assert Trim(" ") == [] by {
      assert " " == " " + [] + [];
      TrimOfPadded(" ", [], []);
    }
  }
}

=== FILE: capture.dfy ===
/** The capture-and-append logic of src/components/LlmResultPanel.jsx. Each
    render of a new chart starts a polling chain: animation frames look for the
    drawn `<svg>` and for something drawn inside it, then a timer lets the
    animation settle and the settle callback serialises the svg and appends it
    to the stored history. One flag (`capturedRef`) shared by every chain of the
    panel keeps a chain from capturing twice. Frames and timers are events; the
    serializer and base-64 encoder are the parameter `encode`. */
module Capture {
  import opened Wrappers
  import opened Entries
  import opened ChartHistory
  import Analysis
  import Text

  // ---------------------------------------------------------------------------
  // `captureSvg`

  const SvgNamespace := "http://www.w3.org/2000/svg"
  const DataUrlPrefix := "data:image/svg+xml;base64,"

  /** A drawn `<svg>` element: its attributes and the rest of its markup. */
  datatype Svg = Svg(attributes: Entries<string>, content: string)

  /** The `xmlns` attribute is set when it is missing or empty, and only then. */
  function WithNamespace(el: Svg): (r: Svg)
    ensures Lookup(r.attributes, "xmlns").GetOr("") != ""
    ensures Lookup(el.attributes, "xmlns").GetOr("") != "" ==> r == el
    ensures Lookup(el.attributes, "xmlns").GetOr("") == "" ==> Lookup(r.attributes, "xmlns") == Some(SvgNamespace)
    ensures forall a :: a != "xmlns" ==> Lookup(r.attributes, a) == Lookup(el.attributes, a)
    ensures r.content == el.content
  {
    if Lookup(el.attributes, "xmlns").GetOr("") == "" then
      el.(attributes := Put(el.attributes, "xmlns", SvgNamespace))
    else el
  }

  /** `captureSvg(svgEl)`: `null` without an element, otherwise a data URL of the
      element with its namespace in place. */
  function CaptureSvg(el: Option<Svg>, encode: Svg -> string): (r: Option<string>)
    ensures r.None? <==> el.None?
    ensures r.Some? ==> |DataUrlPrefix| <= |r.value| && r.value[..|DataUrlPrefix|] == DataUrlPrefix
    ensures r.Some? ==> r.value[|DataUrlPrefix|..] == encode(WithNamespace(el.value))
  {
    match el
    case None => None
    case Some(svg) => Some(DataUrlPrefix + encode(WithNamespace(svg)))
  }

  /** Capturing an element twice serialises the same markup: the namespace is
      added once. */
  lemma CaptureTwice(el: Svg, encode: Svg -> string)
    ensures CaptureSvg(Some(WithNamespace(el)), encode) == CaptureSvg(Some(el), encode)
  {
  }

  // ---------------------------------------------------------------------------
  // The polling chain

  /** What one call of `tryCapture` does. `Threw` is the `TypeError` of
      `containerRef.current.querySelector` once the container has unmounted: the
      frame callback ends there and so does its chain. */
  datatype FrameStep = Stop | Threw | Reschedule | Settle(svg: Svg)

  /** `tryCapture`: stop when the flag is set; throw when the container is gone;
      ask for another frame while there is no `<svg>` or nothing drawn in it;
      otherwise start the settle timer. */
  function TryCapture(captured: bool, mounted: bool, svg: Option<Svg>, drawn: bool): (r: FrameStep)
    ensures r.Stop? <==> captured
    ensures r.Threw? <==> !captured && !mounted
    ensures r.Reschedule? <==> !captured && mounted && (svg.None? || !drawn)
    ensures r.Settle? <==> !captured && mounted && svg.Some? && drawn
    ensures r.Settle? ==> svg == Some(r.svg)
  {
    if captured then Stop
    else if !mounted then Threw
    else if svg.None? then Reschedule
    else if !drawn then Reschedule
    else Settle(svg.value)
  }

  /** What one animation frame of a chain sees: whether the container is still
      mounted, the element found in it (if any), and whether something is drawn
      in that element. */
  datatype Frame = Frame(mounted: bool, svg: Option<Svg>, drawn: bool)

  /** The element a chain hands to its settle timer, if the frames it gets find
      one; the flag is as the chain reads it. */
  function PollChain(captured: bool, frames: seq<Frame>): Option<Svg>
    decreases |frames|
  {
    if frames == [] then None
    else match TryCapture(captured, frames[0].mounted, frames[0].svg, frames[0].drawn)
      case Stop => None
      case Threw => None
      case Reschedule => PollChain(captured, frames[1..])
      case Settle(svg) => Some(svg)
  }

  /** A frame that finds a drawn element in a mounted container. */
  predicate Ready(f: Frame) {
    f.mounted && f.svg.Some? && f.drawn
  }

  /** A chain never settles while the flag is set; otherwise it settles on the
      first frame that finds a drawn element, provided the container stayed
      mounted until then, and frames before it only reschedule. */
  lemma {:induction false} PollChainFirstReady(captured: bool, frames: seq<Frame>)
    ensures captured ==> PollChain(captured, frames).None?
    ensures !captured && (forall i :: 0 <= i < |frames| ==> !Ready(frames[i])) ==> PollChain(captured, frames).None?
    ensures !captured ==> forall i :: 0 <= i < |frames| && Ready(frames[i]) && (forall j :: 0 <= j < i ==> !Ready(frames[j]) && frames[j].mounted) ==>
      PollChain(captured, frames) == frames[i].svg
    decreases |frames|
  {
    if frames != [] && !captured {
      PollChainFirstReady(captured, frames[1..]);
      forall i | 0 <= i < |frames| && Ready(frames[i]) && (forall j :: 0 <= j < i ==> !Ready(frames[j]) && frames[j].mounted)
        ensures PollChain(captured, frames) == frames[i].svg
      {
        if i > 0 {
          assert !Ready(frames[0]) && frames[0].mounted;
          assert PollChain(captured, frames) == PollChain(captured, frames[1..]);
          assert frames[1..][i - 1] == frames[i];
          assert forall j :: 0 <= j < i - 1 ==> frames[1..][j] == frames[j + 1];
        }
      }
    }
  }

  /** A container that unmounts before any frame finds a drawn element ends the
      chain without a capture: the next frame throws. */
  lemma {:induction false} UnmountEndsChain(captured: bool, frames: seq<Frame>, i: nat)
    requires i < |frames| && !frames[i].mounted
    requires forall j :: 0 <= j < i ==> !Ready(frames[j])
    ensures PollChain(captured, frames).None?
    decreases i
  {
    if !captured && i > 0 && frames[0].mounted {
      assert PollChain(captured, frames) == PollChain(captured, frames[1..]);
      assert frames[1..][i - 1] == frames[i];
      assert forall j :: 0 <= j < i - 1 ==> frames[1..][j] == frames[j + 1];
      UnmountEndsChain(captured, frames[1..], i - 1);
    }
  }

  // ---------------------------------------------------------------------------
  // The panel's capture state

  /** The flag `capturedRef`, the stored history, and the `chartHistoryUpdated`
      events dispatched so far. */
  datatype Panel = Panel(captured: bool, store: Stored, broadcasts: seq<Entry>)

  /** The settle callback: returns at once when the flag is set; otherwise
      captures, appends with eviction, stores, dispatches the new entry and sets
      the flag. A malformed stored item throws before anything changes, and so
      does `setItem` when the serialized list does not fit in the storage quota
      (`fits` is false): nothing is stored or dispatched and the flag stays clear. */
  function OnSettle(p: Panel, svg: Svg, encode: Svg -> string, timestamp: int, meta: Metadata, fits: bool): (r: Result<Panel, string>)
    ensures p.captured ==> r == Success(p)
    ensures !p.captured ==> (r.Failure? <==> p.store.Malformed? || !fits)
    ensures !p.captured && r.Success? ==> var q := r.value;
      && q.captured
      && |q.broadcasts| == |p.broadcasts| + 1 && q.broadcasts[..|p.broadcasts|] == p.broadcasts
      && q.store.Saved? && 1 <= |q.store.entries| <= MaxHistoryItems
      && q.store.entries[|q.store.entries| - 1] == q.broadcasts[|p.broadcasts|]
      && q.broadcasts[|p.broadcasts|].timestamp == timestamp
    ensures !p.captured && r.Success? ==> var e := Entry(CaptureSvg(Some(svg), encode).value, timestamp, meta);
      && r.value.broadcasts == p.broadcasts + [e]
      && r.value.store == Saved(Appended(ReadStored(p.store).value, e))
  {
    if p.captured then Success(p)
    else
      var url := CaptureSvg(Some(svg), encode).value;
      match ReadStored(p.store)
      case Failure(err) => Failure(err)
      case Success(existing) =>
        var entry := Entry(url, timestamp, meta);
        AppendedShape(existing, entry);
        if !fits then Failure(QuotaExceeded)
        else Success(Panel(true, Saved(Appended(existing, entry)), p.broadcasts + [entry]))
  }

  /** The layout effect: the flag is cleared on every run; a chain starts only
      with a truthy `generatedCode` and a mounted container. */
  function OnEffect(p: Panel, generatedCode: string, mounted: bool): (r: (Panel, bool))
    ensures r.0 == p.(captured := false)
    ensures r.1 <==> generatedCode != "" && mounted
  {
    (p.(captured := false), generatedCode != "" && mounted)
  }

  /** The events that change the capture state. Animation frames only read the
      flag; `PollChain` covers them. */
  datatype Event =
    | EffectRun(generatedCode: string, mounted: bool)
    | SettleFired(svg: Svg, timestamp: int, meta: Metadata, fits: bool)

  /** One event; an exception in the settle callback ends that callback only. */
  function Step(p: Panel, ev: Event, encode: Svg -> string): Panel {
    match ev
    case EffectRun(code, mounted) => OnEffect(p, code, mounted).0
    case SettleFired(svg, t, meta, fits) =>
      match OnSettle(p, svg, encode, t, meta, fits)
      case Success(q) => q
      case Failure(_) => p
  }

  function Run(p: Panel, evs: seq<Event>, encode: Svg -> string): Panel
    decreases |evs|
  {
    if evs == [] then p else Run(Step(p, evs[0], encode), evs[1..], encode)
  }

  predicate NoEffect(evs: seq<Event>) {
    forall i :: 0 <= i < |evs| ==> evs[i].SettleFired?
  }

  /** Once the flag is set, settle callbacks change nothing until the effect runs again. */
  lemma {:induction false} CapturedRunUnchanged(p: Panel, evs: seq<Event>, encode: Svg -> string)
    requires p.captured && NoEffect(evs)
    ensures Run(p, evs, encode) == p
    decreases |evs|
  {
    if evs != [] {
      assert evs[0].SettleFired?;
      assert forall i :: 0 <= i < |evs| - 1 ==> evs[1..][i] == evs[i + 1];
      CapturedRunUnchanged(p, evs[1..], encode);
    }
  }

  /** Between two runs of the effect, however many settle callbacks fire (from
      however many chains), at most one entry is captured and dispatched. */
  lemma {:induction false} AtMostOneCapture(p: Panel, evs: seq<Event>, encode: Svg -> string)
    requires NoEffect(evs)
    ensures |Run(p, evs, encode).broadcasts| <= |p.broadcasts| + 1
    ensures p.captured ==> Run(p, evs, encode).broadcasts == p.broadcasts
    decreases |evs|
  {
    if p.captured {
      CapturedRunUnchanged(p, evs, encode);
    } else if evs != [] {
      var q := Step(p, evs[0], encode);
      assert forall i :: 0 <= i < |evs| - 1 ==> evs[1..][i] == evs[i + 1];
      AtMostOneCapture(q, evs[1..], encode);
    }
  }

  /** The stored history never holds more than `MaxHistoryItems` entries after
      a capture, whatever it held before; a list over the quota is not stored
      and the panel is left as it was. */
  lemma CaptureBoundsStore(p: Panel, ev: Event, encode: Svg -> string)
    requires ev.SettleFired? && !p.captured && !p.store.Malformed?
    ensures ev.fits ==> Step(p, ev, encode).store.Saved? && |Step(p, ev, encode).store.entries| <= MaxHistoryItems
    ensures !ev.fits ==> Step(p, ev, encode) == p
  {
  }

  /** A capture refused by the storage quota leaves the flag clear, so a later
      settle callback (of this chain's successor or of another chain) still
      captures and dispatches its entry. */
  lemma QuotaErrorKeepsArmed(p: Panel, refused: Event, late: Event, encode: Svg -> string)
    requires !p.captured && !p.store.Malformed?
    requires refused.SettleFired? && !refused.fits && late.SettleFired? && late.fits
    ensures Step(p, refused, encode) == p
    ensures var q := Step(Step(p, refused, encode), late, encode);
      q.captured && |q.broadcasts| == |p.broadcasts| + 1
  {
  }

  /** A malformed stored item makes every capture fail: the flag stays clear
      and nothing is stored or dispatched. */
  lemma MalformedStoreBlocksCapture(p: Panel, ev: Event, encode: Svg -> string)
    requires ev.SettleFired? && p.store.Malformed?
    ensures Step(p, ev, encode) == p
  {
  }

  /** Clearing the flag on every effect run re-arms chains started earlier: a
      settle timer left over from the previous chart captures again after the
      effect runs for the next one, so two entries are dispatched. */
  lemma EffectRearmsOlderChain(p: Panel, late: Event, code: string, mounted: bool, encode: Svg -> string)
    requires !p.captured && !p.store.Malformed? && late.SettleFired? && late.fits
    ensures var q := Step(p, late, encode);
      var r := Step(Step(q, EffectRun(code, mounted), encode), late, encode);
      q.captured && r.captured && |r.broadcasts| == |p.broadcasts| + 2
  {
    var q := Step(p, late, encode);
    assert q.store.Saved?;
  }

  // ---------------------------------------------------------------------------
  // `innerChartCode`, a module-level variable

  /** Rendering with `generatedCode` updates the module-level variable: a truthy
      code replaces it with the unwrapped markup, a falsy one leaves the previous
      value in place. */
  function NextInnerChartCode(previous: Option<string>, generatedCode: string): (r: Option<string>)
    ensures generatedCode == "" ==> r == previous
    ensures generatedCode != "" ==> r.Some? && r == Analysis.UnwrapContainer(generatedCode)
  {
    match Analysis.UnwrapContainer(generatedCode)
    case Some(inner) => Some(inner)
    case None => previous
  }

  /** What the panel shows: the waiting message or the interpreted chart. */
  datatype Screen = Waiting | ChartOf(code: string)

  function Display(innerChartCode: Option<string>): (d: Screen)
    ensures d.Waiting? <==> innerChartCode.None? || innerChartCode.value == ""
    ensures d.ChartOf? ==> Some(d.code) == innerChartCode
  {
    match innerChartCode
    case Some(code) => if code == "" then Waiting else ChartOf(code)
    case None => Waiting
  }

  /** A falsy `generatedCode` after a chart keeps that chart on screen. */
  lemma EmptyCodeKeepsChart(previous: Option<string>, code: string)
    ensures NextInnerChartCode(NextInnerChartCode(previous, code), "") == NextInnerChartCode(previous, code)
  {
  }

  /** Code made only of white space is truthy, so it replaces the previous chart,
      and with an empty string: the waiting message shows. */
  lemma BlankCodeClearsChart(previous: Option<string>, code: string)
    requires code != "" && Text.AllSpace(code)
    ensures Display(NextInnerChartCode(previous, code)) == Waiting
  {
    Text.TrimOfPadded(code, "", "");
    assert code + "" + "" == code;
  }
}

=== FILE: dynamic_chart.dfy ===
/** The chart interpreter of src/components/DynamicChart.jsx: it pulls the
    data-producing expression out of the assistant's fragment, evaluates it
    (the evaluator is a parameter), picks a chart template by keyword, and reads
    the template's parameters out of the fragment with fixed defaults. */
module DynamicChart {
  import opened Wrappers
  import opened Text
  import opened Scan
  import opened Rows

  // ---------------------------------------------------------------------------
  // `extractDataAndJsx`

  /** `data={` followed by the opening of the immediately invoked arrow function. */
  const DataOpen := "data={(() => {"
  /** The end of the invocation followed by the closing brace of the attribute. */
  const DataClose := "})()}"
  /** The length of `data={`, which the captured group leaves out. */
  const AttrPrefix := 6

  /** `data=\{(\(\(\) => \{[\s\S]*?\}\)\(\))\}` at `i`: the lazy body ends at the
      first `})()}` after the opening, and the group runs from `((` to `()`. */
  function DataBlockAt(s: string, i: nat): Option<string> {
    if LiteralAt(s, i, DataOpen) then
      match IndexOf(s, DataClose, i + |DataOpen|)
      case Some(j) => Some(s[i + AttrPrefix..j + |DataClose| - 1])
      case None => None
    else None
  }

  /** `{ dataProcessingCode, jsxCode }` */
  datatype Extracted = Extracted(dataProcessingCode: Option<string>, jsxCode: string)

  function ExtractDataAndJsx(code: string): (r: Extracted)
    ensures r.jsxCode == code
    ensures r.dataProcessingCode.None? <==> forall i :: 0 <= i <= |code| ==> DataBlockAt(code, i).None?
    ensures forall i :: 0 <= i <= |code| && DataBlockAt(code, i).Some? && (forall j :: 0 <= j < i ==> DataBlockAt(code, j).None?) ==>
      r.dataProcessingCode == DataBlockAt(code, i)
  {
    LeftmostFirst(code, 0, DataBlockAt);
    match Leftmost(code, 0, DataBlockAt)
    case Some((_, d)) => Extracted(Some(d), code)
    case None => Extracted(None, code)
  }

  /** The extracted code is a piece of the fragment that starts with `(() => {`
      and ends with `})()`. */
  lemma ExtractedShape(code: string)
    requires ExtractDataAndJsx(code).dataProcessingCode.Some?
    ensures var d := ExtractDataAndJsx(code).dataProcessingCode.value;
      && |d| >= 12 && d[..8] == "(() => {" && d[|d| - 4..] == "})()"
      && exists i :: LiteralAt(code, i, d)
  {
    var d := ExtractDataAndJsx(code).dataProcessingCode.value;
    var m := Leftmost(code, 0, DataBlockAt);
    assert m.Some? && m.value.1 == d;
    DataBlockShape(code, m.value.0, d);
  }

  lemma DataBlockShape(code: string, i: nat, d: string)
    requires DataBlockAt(code, i) == Some(d)
    ensures |d| >= 12 && d[..8] == "(() => {" && d[|d| - 4..] == "})()" && LiteralAt(code, i + AttrPrefix, d)
  {
    var j := IndexOf(code, DataClose, i + |DataOpen|).value;
    BlockShape(code, i, j);
  }

  lemma BlockShape(code: string, i: nat, j: nat)
    requires LiteralAt(code, i, DataOpen) && i + |DataOpen| <= j && LiteralAt(code, j, DataClose)
    ensures var d := code[i + AttrPrefix..j + |DataClose| - 1];
      && |d| >= 12 && d[..8] == "(() => {" && d[|d| - 4..] == "})()" && LiteralAt(code, i + AttrPrefix, d)
  {
    var d := code[i + AttrPrefix..j + |DataClose| - 1];
    assert d[..8] == code[i + AttrPrefix..i + |DataOpen|] == DataOpen[AttrPrefix..];
    assert d[|d| - 4..] == code[j..j + |DataClose| - 1] == DataClose[..4];
  }

  /** A fragment whose only data block is written out is split back into its
      parts: the block's body comes back unchanged. */
  lemma ExtractRoundTrip(body: string)
    requires forall k :: !LiteralAt(DataOpen + body + DataClose, k, DataClose) || k == |DataOpen| + |body|
    ensures ExtractDataAndJsx(DataOpen + body + DataClose).dataProcessingCode == Some("(() => {" + body + "})()")
  {
    var s := DataOpen + body + DataClose;
    var j := |DataOpen| + |body|;
    assert LiteralAt(s, 0, DataOpen) by {
      assert s[..|DataOpen|] == DataOpen;
    }
    assert LiteralAt(s, j, DataClose) by {
      assert s[j..j + |DataClose|] == DataClose;
    }
    assert IndexOf(s, DataClose, |DataOpen|) == Some(j);
    assert DataBlockAt(s, 0) == Some(s[AttrPrefix..j + |DataClose| - 1]);
    assert s[AttrPrefix..|DataOpen|] == DataOpen[AttrPrefix..] == "(() => {";
    assert s[|DataOpen|..j] == body;
    assert s[j..j + 4] == DataClose[..4] == "})()";
    assert s[AttrPrefix..j + 4] == s[AttrPrefix..|DataOpen|] + s[|DataOpen|..j] + s[j..j + 4];
  }

  // ---------------------------------------------------------------------------
  // `processedData`

  /** What running the extracted code gives: a value (the data array), a falsy
      value such as `null`, or an exception (from building the function or from
      running it; both are caught and turned into `[]`). */
  datatype Outcome = Returned(data: seq<Row>) | ReturnedFalsy | Threw

  /** `processedData`, `None` standing for every falsy value. */
  function ProcessedData(dataCode: Option<string>, run: string -> Outcome): (r: Option<seq<Row>>)
    ensures dataCode.None? ==> r.None?
    ensures dataCode.Some? ==> match run(dataCode.value)
      case Returned(data) => r == Some(data)
      case ReturnedFalsy => r.None?
      case Threw => r == Some([])
  {
    match dataCode
    case None => None
    case Some(d) =>
      match run(d)
      case Returned(data) => Some(data)
      case ReturnedFalsy => None
      case Threw => Some([])
  }

  // ---------------------------------------------------------------------------
  // Template parameters

  datatype Margin = Margin(top: nat, right: nat, left: nat, bottom: nat)

  const DefaultMargin := Margin(20, 30, 20, 40)
  const DefaultFill := "#8884d8"

  /** `\s*name\s*(\d+)` at `p`: the number and the position after it. */
  function Field(s: string, p: nat, name: string): (r: Option<(nat, nat)>)
    ensures r.Some? ==> p < r.value.1 <= |s|
    decreases if p <= |s| then |s| - p else 0
  {
    if p > |s| then None
    else if p < |s| && IsSpace(s[p]) then Field(s, p + 1, name)
    else if !LiteralAt(s, p, name) then None
    else
      var d := SkipSpaces(s, p + |name|);
      match DigitRun(s, d)
      case Some(e) => Some((DigitsValue(s[d..e]), e))
      case None => None
  }

  /** The field names of the margin, in the order the pattern wants them. */
  const MarginNames := ["top:", "right:", "left:", "bottom:"]

  /** `\s*n0\s*(\d+),\s*n1\s*(\d+), … \s*nk\s*(\d+)\s*\}\}` at `p`: the numbers. */
  function FieldsAt(s: string, p: nat, names: seq<string>): (r: Option<seq<nat>>)
    requires names != []
    ensures r.Some? ==> |r.value| == |names|
    decreases |names|, 1
  {
    match Field(s, p, names[0])
    case None => None
    case Some((v, e)) => FieldsAfter(s, v, e, names)
  }

  /** The numbers once the first field has been read as `v`, ending at `e`:
      the closing braces after the last field, or a comma and the next field. */
  function FieldsAfter(s: string, v: nat, e: nat, names: seq<string>): (r: Option<seq<nat>>)
    requires names != []
    ensures r.Some? ==> |r.value| == |names| && r.value[0] == v
    decreases |names|, 0
  {
    if |names| == 1 then
      if e <= |s| && LiteralAt(s, SkipSpaces(s, e), "}}") then Some([v]) else None
    else if !LiteralAt(s, e, ",") then None
    else match FieldsAt(s, e + 1, names[1..])
      case None => None
      case Some(vs) => Some([v] + vs)
  }

  /** `margin=\{\{\s*top:\s*(\d+),\s*right:\s*(\d+),\s*left:\s*(\d+),\s*bottom:\s*(\d+)\s*\}\}` at `i`.
      Every `\s*` and `\d+` is followed by a character it cannot match, so the
      greedy runs never give anything back. */
  function MarginAt(s: string, i: nat): Option<Margin> {
    if !LiteralAt(s, i, "margin={{") then None
    else match FieldsAt(s, i + 9, MarginNames)
      case Some(v) => Some(Margin(v[0], v[1], v[2], v[3]))
      case None => None
  }

  /** `fill=["']([^"']*)["']` at `i`. */
  function FillAt(s: string, i: nat): Option<string> {
    if LiteralAt(s, i, "fill=") then
      match QuotedAt(s, i + 5)
      case Some((v, _)) => Some(v)
      case None => None
    else None
  }

  /** `label=\{\{\s*value:\s*["']([^"']*)["']` at `p`. */
  function LabelValueAt(s: string, p: nat): Option<string> {
    if !LiteralAt(s, p, "label={{") then None
    else
      var q := SkipSpaces(s, p + 8);
      if !LiteralAt(s, q, "value:") then None
      else match QuotedAt(s, SkipSpaces(s, q + 6))
        case Some((v, _)) => Some(v)
        case None => None
  }

  /** `XAxis[^>]*label=\{\{\s*value:\s*["']([^"']*)["']` at `i`. The greedy `[^>]*`
      stops at the first `>` and gives back characters one at a time, so the
      LAST `label={{ value: '…'` before that `>` is the one matched. */
  function XLabelAt(s: string, i: nat): Option<string> {
    if !LiteralAt(s, i, "XAxis") then None
    else
      var limit := match IndexOf(s, ">", i + 5) case Some(g) => g case None => |s|;
      match Rightmost(s, i + 5, limit, LabelValueAt)
      case Some((_, v)) => Some(v)
      case None => None
  }

  /** `value=["']([^"']*)["']\s*angle=` at `i`. */
  function YLabelAt(s: string, i: nat): Option<string> {
    if !LiteralAt(s, i, "value=") then None
    else match QuotedAt(s, i + 6)
      case Some((v, e)) => if LiteralAt(s, SkipSpaces(s, e), "angle=") then Some(v) else None
      case None => None
  }

  /** `jsxCode.match(re)` followed by `match ? value : default`. */
  function FirstMatchOr<T>(s: string, at: (string, nat) -> Option<T>, default: T): (r: T)
    ensures (forall k :: 0 <= k <= |s| ==> at(s, k).None?) ==> r == default
    ensures forall k :: 0 <= k <= |s| && at(s, k).Some? && (forall j :: 0 <= j < k ==> at(s, j).None?) ==> r == at(s, k).value
    ensures r != default ==> exists k :: 0 <= k <= |s| && at(s, k) == Some(r)
  {
    LeftmostFirst(s, 0, at);
    match Leftmost(s, 0, at)
    case Some((_, v)) => v
    case None => default
  }

  // ---------------------------------------------------------------------------
  // The chart

  /** What the interpreter renders. */
  datatype Chart =
    | ErrorPlaceholder
    | BarChart(data: seq<Row>, margin: Margin, fill: string, xLabel: string, yLabel: string)
    | PieChart(data: seq<Row>, cellFills: seq<Option<string>>)
    | Unsupported

  /** `COLORS[idx % COLORS.length]` for every entry; with no colours the index
      is `NaN` and the fill `undefined`. */
  function CellFills(n: nat, palette: seq<string>): (r: seq<Option<string>>)
    ensures |r| == n
    ensures forall i :: 0 <= i < n ==> (r[i].None? <==> palette == [])
    ensures forall i :: 0 <= i < n && palette != [] ==> r[i] == Some(palette[i % |palette|])
  {
    seq(n, i => if palette == [] then None else Some(palette[i % |palette|]))
  }

  /** `DynamicChart({ code, bindings })`: `run` evaluates the extracted code with
      the bindings in scope, `palette` is `bindings.COLORS`. */
  function Render(code: string, run: string -> Outcome, palette: seq<string>): (c: Chart)
    ensures var pd := ProcessedData(ExtractDataAndJsx(code).dataProcessingCode, run);
      && (c.ErrorPlaceholder? <==> code == "" || pd.None?)
      && (c.BarChart? <==> code != "" && pd.Some? && Includes(code, "BarChart"))
      && (c.PieChart? <==> code != "" && pd.Some? && !Includes(code, "BarChart") && Includes(code, "PieChart"))
      && (c.BarChart? || c.PieChart? ==> c.data == pd.value)
    ensures c.PieChart? ==> |c.cellFills| == |c.data|
    ensures c.PieChart? ==> c.cellFills == CellFills(|c.data|, palette)
    ensures c.BarChart? ==> c.margin == FirstMatchOr(code, MarginAt, DefaultMargin) && c.fill == FirstMatchOr(code, FillAt, DefaultFill)
    ensures c.BarChart? ==> c.xLabel == FirstMatchOr(code, XLabelAt, "") && c.yLabel == FirstMatchOr(code, YLabelAt, "")
  {
    var ex := ExtractDataAndJsx(code);
    var pd := ProcessedData(ex.dataProcessingCode, run);
    if ex.jsxCode == "" || pd.None? then ErrorPlaceholder
    else if Includes(ex.jsxCode, "BarChart") then
      BarChart(pd.value,
        FirstMatchOr(code, MarginAt, DefaultMargin),
        FirstMatchOr(code, FillAt, DefaultFill),
        FirstMatchOr(code, XLabelAt, ""),
        FirstMatchOr(code, YLabelAt, ""))
    else if Includes(ex.jsxCode, "PieChart") then
      PieChart(pd.value, CellFills(|pd.value|, palette))
    else Unsupported
  }

  /** Without a data block the error placeholder shows, whatever the fragment. */
  lemma NoBlockShowsError(code: string, run: string -> Outcome, palette: seq<string>)
    requires forall i :: 0 <= i <= |code| ==> DataBlockAt(code, i).None?
    ensures Render(code, run, palette) == ErrorPlaceholder
  {
  }

  /** A data block that throws still gives a chart, with no data. */
  lemma FailureRendersEmptyChart(code: string, run: string -> Outcome, palette: seq<string>)
    requires ExtractDataAndJsx(code).dataProcessingCode.Some?
    requires run(ExtractDataAndJsx(code).dataProcessingCode.value).Threw?
    requires Includes(code, "BarChart") || Includes(code, "PieChart")
    ensures Render(code, run, palette).BarChart? || Render(code, run, palette).PieChart?
    ensures Render(code, run, palette).data == []
  {
  }

  /** With no margin, fill or label written in the fragment, the bar chart uses
      the fixed defaults. */
  lemma BarDefaults(code: string, run: string -> Outcome, palette: seq<string>)
    requires Render(code, run, palette).BarChart?
    requires forall k :: 0 <= k <= |code| ==> MarginAt(code, k).None? && FillAt(code, k).None?
    requires forall k :: 0 <= k <= |code| ==> XLabelAt(code, k).None? && YLabelAt(code, k).None?
    ensures var c := Render(code, run, palette);
      c.margin == DefaultMargin && c.fill == DefaultFill && c.xLabel == "" && c.yLabel == ""
  {
  }

  /** A pie chart gets one cell per entry, coloured round-robin from the palette. */
  lemma PieCellsRoundRobin(code: string, run: string -> Outcome, palette: seq<string>, i: nat)
    requires Render(code, run, palette).PieChart? && palette != []
    requires i < |Render(code, run, palette).data|
    ensures Render(code, run, palette).cellFills[i] == Some(palette[i % |palette|])
  {
  }

  // ---------------------------------------------------------------------------
  // Reading written parameters back

  /** A quoted fill colour is read back. */
  lemma FillRoundTrip(v: string)
    requires forall k :: 0 <= k < |v| ==> !IsQuote(v[k])
    ensures FillAt("fill=\"" + v + "\"", 0) == Some(v)
  {
    var s := "fill=\"" + v + "\"";
    assert s[..5] == "fill=";
    QuotedRead(s, 5, v);
  }

  /** `"v"` written at `i` is read by `QuotedAt`. */
  lemma QuotedRead(s: string, i: nat, v: string)
    requires forall k :: 0 <= k < |v| ==> !IsQuote(v[k])
    requires i + |v| + 2 <= |s| && s[i] == '"' && s[i + 1..i + 1 + |v|] == v && s[i + 1 + |v|] == '"'
    ensures QuotedAt(s, i) == Some((v, i + |v| + 2))
  {
    assert forall k :: i + 1 <= k < i + 1 + |v| ==> s[k] == v[k - i - 1];
    assert NextQuote(s, i + 1) == Some(i + 1 + |v|) by {
      var r := NextQuote(s, i + 1);
      assert IsQuote(s[i + 1 + |v|]);
    }
  }

  /** A Y-axis label written as `value="v" angle=` is read back. */
  lemma YLabelRoundTrip(v: string)
    requires forall k :: 0 <= k < |v| ==> !IsQuote(v[k])
    ensures YLabelAt("value=\"" + v + "\" angle=", 0) == Some(v)
  {
    var s := "value=\"" + v + "\" angle=";
    var e := |v| + 8;
    assert s[..6] == "value=";
    QuotedRead(s, 6, v);
    assert s[e] == ' ' && s[e + 1] == 'a';
    SkipSpacesUnique(s, e, e + 1);
    assert s[e + 1..e + 7] == "angle=";
  }

  /** ` name n`, the way a field of the margin is usually written. */
  function Piece(name: string, n: nat): string {
    " " + name + " " + NatToString(n)
  }

  /** The fields written one after another, separated by commas, then ` }}`. */
  function FieldsText(names: seq<string>, vals: seq<nat>): string
    requires |names| == |vals| >= 1
    decreases |names|
  {
    Piece(names[0], vals[0]) + if |names| == 1 then " }}" else "," + FieldsText(names[1..], vals[1..])
  }

  /** `margin={{ top: t, right: r, left: l, bottom: b }}` */
  function MarginText(m: Margin): string {
    "margin={{" + FieldsText(MarginNames, [m.top, m.right, m.left, m.bottom])
  }

  /** An X-axis label written as `XAxis label={{ value: "v" }}` is read back. */
  lemma XLabelRoundTrip(v: string)
    requires forall k :: 0 <= k < |v| ==> !IsQuote(v[k]) && v[k] != '=' && v[k] != '>'
    ensures XLabelAt(XLabelText(v), 0) == Some(v)
  {
    var s := XLabelText(v);
    XLabelTextChars(v);
    assert s[..5] == "XAxis";
    NoGreaterThan(s, 5);
    LabelValueRead(s, v);
    NoLabelAfter(s, 7);
    var r := Rightmost(s, 5, |s|, LabelValueAt);
    assert r.Some? && r.value.0 == 6;
  }

  lemma XLabelTextChars(v: string)
    requires forall k :: 0 <= k < |v| ==> v[k] != '=' && v[k] != '>'
    ensures var s := XLabelText(v); forall j :: 5 <= j < |s| ==> s[j] != '>' && (12 <= j ==> s[j] != '=')
  {
    var s := XLabelText(v);
    assert forall j :: 23 <= j < 23 + |v| ==> s[j] == v[j - 23];
  }

  /** No `>` from `from` on: the tag runs to the end of the text. */
  lemma NoGreaterThan(s: string, from: nat)
    requires forall j :: from <= j < |s| ==> s[j] != '>'
    ensures IndexOf(s, ">", from).None?
  {
    forall k | from <= k ensures !LiteralAt(s, k, ">") {
      if k < |s| {
        assert s[k..k + 1][0] == s[k];
      }
    }
  }

  /** No `=` from `from + 5` on: no label starts at `from` or later. */
  lemma NoLabelAfter(s: string, from: nat)
    requires forall j :: from + 5 <= j < |s| ==> s[j] != '='
    ensures forall k :: from <= k <= |s| ==> LabelValueAt(s, k).None?
  {
    forall k | from <= k <= |s| ensures !LiteralAt(s, k, "label={{") {
      if k + 8 <= |s| {
        assert s[k..k + 8][5] == s[k + 5];
      }
    }
  }

  /** `XAxis label={{ value: "v" }}` */
  function XLabelText(v: string): string {
    "XAxis label={{ value: \"" + v + "\" }}"
  }

  lemma LabelValueRead(s: string, v: string)
    requires forall k :: 0 <= k < |v| ==> !IsQuote(v[k])
    requires s == XLabelText(v)
    ensures LabelValueAt(s, 6) == Some(v)
  {
    assert s[6..14] == "label={{";
    assert s[14] == ' ' && s[15] == 'v';
    SkipSpacesUnique(s, 14, 15);
    assert s[15..21] == "value:";
    assert s[21] == ' ' && s[22] == '"';
    SkipSpacesUnique(s, 21, 22);
    assert s[23..23 + |v|] == v;
    QuotedRead(s, 22, v);
  }

  /** A margin written in the usual layout is read back. */
  lemma MarginRoundTrip(m: Margin)
    ensures MarginAt(MarginText(m), 0) == Some(m)
  {
    var vals := [m.top, m.right, m.left, m.bottom];
    var s := MarginText(m);
    LiteralSplit(s, 0, "margin={{", FieldsText(MarginNames, vals));
    FieldsRoundTrip(s, 9, MarginNames, vals);
  }

  /** Fields written in the usual layout are read back, in order. */
  lemma {:induction false} FieldsRoundTrip(s: string, p: nat, names: seq<string>, vals: seq<nat>)
    requires |names| == |vals| >= 1
    requires forall k :: 0 <= k < |names| ==> |names[k]| > 0 && !IsSpace(names[k][0])
    requires LiteralAt(s, p, FieldsText(names, vals))
    ensures FieldsAt(s, p, names) == Some(vals)
    decreases |names|
  {
    if |names| == 1 {
      FieldsLast(s, p, names[0], vals[0]);
      assert [names[0]] == names && [vals[0]] == vals;
    } else {
      var e := p + |Piece(names[0], vals[0])|;
      FieldsHead(s, p, e, names, vals);
      FieldsRoundTrip(s, e + 1, names[1..], vals[1..]);
      FieldsNext(s, p, e, names, vals[0], vals[1..]);
      assert [vals[0]] + vals[1..] == vals;
    }
  }

  /** The first of several fields is read, and the rest follow its comma. */
  lemma FieldsHead(s: string, p: nat, e: nat, names: seq<string>, vals: seq<nat>)
    requires |names| == |vals| >= 2 && |names[0]| > 0 && !IsSpace(names[0][0])
    requires LiteralAt(s, p, FieldsText(names, vals)) && e == p + |Piece(names[0], vals[0])|
    ensures Field(s, p, names[0]) == Some((vals[0], e)) && LiteralAt(s, e, ",")
    ensures LiteralAt(s, e + 1, FieldsText(names[1..], vals[1..]))
  {
    FieldsTextSplit(s, p, e, names, vals);
    assert s[e..e + 1] == ",";
    assert s[e..e + 1][0] == s[e];
    FieldRead(s, p, names[0], vals[0]);
  }

  /** Several fields written out are the first piece, a comma and the rest. */
  lemma FieldsTextSplit(s: string, p: nat, e: nat, names: seq<string>, vals: seq<nat>)
    requires |names| == |vals| >= 2
    requires LiteralAt(s, p, FieldsText(names, vals)) && e == p + |Piece(names[0], vals[0])|
    ensures LiteralAt(s, p, Piece(names[0], vals[0])) && LiteralAt(s, e, ",")
    ensures LiteralAt(s, e + 1, FieldsText(names[1..], vals[1..]))
  {
    var rest := FieldsText(names[1..], vals[1..]);
    assert FieldsText(names, vals) == Piece(names[0], vals[0]) + ("," + rest);
    LiteralSplit(s, p, Piece(names[0], vals[0]), "," + rest);
    LiteralSplit(s, e, ",", rest);
  }

  lemma FieldsLast(s: string, p: nat, name: string, v: nat)
    requires |name| > 0 && !IsSpace(name[0])
    requires LiteralAt(s, p, Piece(name, v) + " }}")
    ensures FieldsAt(s, p, [name]) == Some([v])
  {
    var e := p + |Piece(name, v)|;
    LiteralSplit(s, p, Piece(name, v), " }}");
    assert s[e] == ' ' && s[e + 1] == '}';
    FieldRead(s, p, name, v);
    SkipSpacesUnique(s, e, e + 1);
    assert s[e + 1..e + 3] == "}}";
  }

  /** A field, a comma and the fields after it are read together. */
  lemma FieldsNext(s: string, p: nat, e: nat, names: seq<string>, v: nat, vs: seq<nat>)
    requires |names| >= 2
    requires Field(s, p, names[0]) == Some((v, e)) && LiteralAt(s, e, ",")
    requires FieldsAt(s, e + 1, names[1..]) == Some(vs)
    ensures FieldsAt(s, p, names) == Some([v] + vs)
  {
  }

  /** A literal made of two parts is the first part followed by the second. */
  lemma LiteralSplit(s: string, p: nat, a: string, b: string)
    requires LiteralAt(s, p, a + b)
    ensures LiteralAt(s, p, a) && LiteralAt(s, p + |a|, b)
  {
    assert s[p..p + |a|] == (a + b)[..|a|];
    assert s[p + |a|..p + |a| + |b|] == (a + b)[|a|..];
  }

  /** ` name n` written at `p`, followed by a character that is not a digit, is
      read by `Field`. */
  lemma FieldRead(s: string, p: nat, name: string, n: nat)
    requires |name| > 0 && !IsSpace(name[0])
    requires LiteralAt(s, p, Piece(name, n))
    requires p + |Piece(name, n)| < |s| && !IsDigit(s[p + |Piece(name, n)|])
    ensures Field(s, p, name) == Some((n, p + |Piece(name, n)|))
  {
    PieceParts(s, p, name, n);
    var d := NatToString(n);
    var q := p + 1;
    var b := q + |name| + 1;
    assert !IsSpace(d[0]);
    assert s[q] == name[0];
    SkipSpacesUnique(s, q + |name|, b);
    DigitRunUnique(s, b, b + |d|);
    DigitsValueOfNatToString(n);
  }

  lemma PieceParts(s: string, p: nat, name: string, n: nat)
    requires LiteralAt(s, p, Piece(name, n))
    ensures var d := NatToString(n); var q := p + 1 + |name|;
      && s[p] == ' ' && LiteralAt(s, p + 1, name) && s[q] == ' ' && s[q + 1..q + 1 + |d|] == d
      && |Piece(name, n)| == |name| + 2 + |d|
  {
    var w := Piece(name, n);
    var d := NatToString(n);
    var q := p + 1 + |name|;
    assert |w| == |name| + 2 + |d|;
    forall k | 0 <= k < |w| ensures s[p + k] == w[k] {
      assert s[p..p + |w|][k] == w[k];
    }
    assert forall k :: 0 <= k < |name| ==> w[1 + k] == name[k];
    assert forall k :: 0 <= k < |d| ==> w[2 + |name| + k] == d[k];
    assert s[p] == w[0] && s[q] == w[1 + |name|];
    assert s[p + 1..q] == name;
    assert s[q + 1..q + 1 + |d|] == d;
  }

  lemma DigitRunUnique(s: string, i: nat, e: nat)
    requires i < e <= |s| && AllDigits(s[i..e]) && (e == |s| || !IsDigit(s[e]))
    ensures DigitRun(s, i) == Some(e)
    decreases e - i
  {
    assert IsDigit(s[i..e][0]);
    DigitRunEndUnique(s, i, e);
  }

  lemma {:induction false} DigitRunEndUnique(s: string, i: nat, e: nat)
    requires i <= e <= |s| && AllDigits(s[i..e]) && (e == |s| || !IsDigit(s[e]))
    ensures DigitRunEnd(s, i) == e
    decreases e - i
  {
    if i < e {
      assert IsDigit(s[i..e][0]);
      assert s[i + 1..e] == s[i..e][1..];
      DigitRunEndUnique(s, i + 1, e);
    }
  }
}

=== FILE: entries.dfy ===
/** A JavaScript plain object with string keys, as the ordered list of its
    entries. The order is the order in which keys were first assigned, which is
    what `Object.entries` reports for non-numeric keys (JavaScript would list
    canonical array-index keys such as "20" first, in ascending order; the model
    keeps first-assignment order for every key). Only own properties are
    modelled: members inherited from `Object.prototype`, which `obj[k]` also
    reaches for keys such as "constructor", are not. */
module Entries {
  import opened Wrappers

  type Entries<V> = seq<(string, V)>

  function Keys<V>(e: Entries<V>): (ks: seq<string>)
    ensures |ks| == |e|
    ensures forall i :: 0 <= i < |e| ==> ks[i] == e[i].0
  {
    seq(|e|, i requires 0 <= i < |e| => e[i].0)
  }

  /** Every key occurs at most once: true of every object. */
  predicate DistinctKeys<V>(e: Entries<V>) {
    forall i, j :: 0 <= i < j < |e| ==> e[i].0 != e[j].0
  }

  /** The position of the first entry for `k`, `|e|` when there is none. */
  function KeyIndex<V>(e: Entries<V>, k: string): (i: nat)
    ensures i <= |e|
    ensures forall j :: 0 <= j < i ==> e[j].0 != k
    ensures i < |e| ==> e[i].0 == k
    ensures i == |e| <==> k !in Keys(e)
  {
    if e == [] then 0
    else if e[0].0 == k then 0
    else 1 + KeyIndex(e[1..], k)
  }

  /** `obj[k]` on own properties, `None` standing for `undefined`: the value of
      the first entry for `k`. */
  function Lookup<V>(e: Entries<V>, k: string): Option<V>
    decreases |e|
  {
    if e == [] then None
    else if e[0].0 == k then Some(e[0].1)
    else Lookup(e[1..], k)
  }

  /** The keys after the first entry. */
  lemma KeysTail<V>(e: Entries<V>)
    requires e != []
    ensures Keys(e) == [e[0].0] + Keys(e[1..])
  {
  }

  /** A key is missing exactly when no entry has it; otherwise its value is the
      one at `KeyIndex`. */
  lemma {:induction false} LookupIndex<V>(e: Entries<V>, k: string)
    ensures Lookup(e, k) == if KeyIndex(e, k) < |e| then Some(e[KeyIndex(e, k)].1) else None
    ensures Lookup(e, k).None? <==> k !in Keys(e)
    decreases |e|
  {
    if e != [] && e[0].0 != k {
      LookupIndex(e[1..], k);
      KeysTail(e);
    }
  }

  /** A value found under `k` is the value of an entry for `k`. */
  lemma LookupFound<V>(e: Entries<V>, k: string)
    requires Lookup(e, k).Some?
    ensures (k, Lookup(e, k).value) in e
  {
    LookupIndex(e, k);
    assert e[KeyIndex(e, k)] == (k, Lookup(e, k).value);
  }

  /** `obj[k] = v`: an existing key keeps its place and takes the new value;
      a new key is added at the end. */
  function Put<V>(e: Entries<V>, k: string, v: V): (r: Entries<V>)
    ensures Lookup(r, k) == Some(v)
    ensures forall k' :: k' != k ==> Lookup(r, k') == Lookup(e, k')
    decreases |e|
  {
    if e == [] then [(k, v)]
    else if e[0].0 == k then [(k, v)] + e[1..]
    else
      var r := [e[0]] + Put(e[1..], k, v);
      assert r[1..] == Put(e[1..], k, v);
      r
  }

  /** The keys after an assignment: an existing key keeps its place, a new key
      comes last. */
  lemma {:induction false} PutKeys<V>(e: Entries<V>, k: string, v: V)
    ensures Keys(Put(e, k, v)) == if k in Keys(e) then Keys(e) else Keys(e) + [k]
    decreases |e|
  {
    if e != [] {
      KeysTail(e);
      KeysTail(Put(e, k, v));
      if e[0].0 != k {
        assert Put(e, k, v)[1..] == Put(e[1..], k, v);
        PutKeys(e[1..], k, v);
        assert k in Keys(e) <==> k in Keys(e[1..]);
      } else {
        assert Put(e, k, v)[1..] == e[1..];
      }
    }
  }

  /** Assigning a new key appends its entry. */
  lemma {:induction false} PutNew<V>(e: Entries<V>, k: string, v: V)
    requires k !in Keys(e)
    ensures Put(e, k, v) == e + [(k, v)]
    decreases |e|
  {
    if e != [] {
      KeysTail(e);
      PutNew(e[1..], k, v);
      assert e == [e[0]] + e[1..];
    }
  }

  /** Assigning an existing key replaces its first entry in place. */
  lemma PutExisting<V>(e: Entries<V>, k: string, v: V)
    requires k in Keys(e)
    ensures KeyIndex(e, k) < |e| && Lookup(e, k) == Some(e[KeyIndex(e, k)].1)
    ensures Put(e, k, v) == e[KeyIndex(e, k) := (k, v)]
  {
    LookupIndex(e, k);
    PutAtIndex(e, k, v);
  }

  lemma {:induction false} PutAtIndex<V>(e: Entries<V>, k: string, v: V)
    requires KeyIndex(e, k) < |e|
    ensures Put(e, k, v) == e[KeyIndex(e, k) := (k, v)]
    decreases |e|
  {
    if e[0].0 != k {
      var j := KeyIndex(e[1..], k);
      PutAtIndex(e[1..], k, v);
      var tail := e[1..][j := (k, v)];
      assert Put(e, k, v) == [e[0]] + tail;
      assert forall m :: 0 <= m < |e| ==> ([e[0]] + tail)[m] == e[j + 1 := (k, v)][m];
    }
  }

  /** An assignment adds no entry other than its own. */
  lemma {:induction false} PutMembers<V>(e: Entries<V>, k: string, v: V)
    ensures forall p :: p in Put(e, k, v) ==> p in e || p == (k, v)
    decreases |e|
  {
    if e != [] && e[0].0 != k {
      PutMembers(e[1..], k, v);
      assert forall p :: p in e[1..] ==> p in e;
    }
  }

  /** `obj[k] = (obj[k] || 0) + a`: adds `a` to the number under `k`, a missing
      key counting as 0. */
  function Add(e: Entries<int>, k: string, a: int): (r: Entries<int>)
    ensures Lookup(r, k) == Some(Lookup(e, k).GetOr(0) + a)
    ensures forall k' :: k' != k ==> Lookup(r, k') == Lookup(e, k')
  {
    Put(e, k, Lookup(e, k).GetOr(0) + a)
  }

  /** Assigning a property never duplicates a key. */
  lemma PutKeepsDistinct<V>(e: Entries<V>, k: string, v: V)
    requires DistinctKeys(e)
    ensures DistinctKeys(Put(e, k, v))
  {
    var r := Put(e, k, v);
    PutKeys(e, k, v);
    assert forall m :: 0 <= m < |r| ==> r[m].0 == Keys(r)[m];
    assert forall m :: 0 <= m < |e| ==> e[m].0 == Keys(e)[m];
  }

  /** The keys of `s` in the order of their first occurrence. */
  function Dedup(s: seq<string>): (d: seq<string>)
    ensures forall k :: k in d <==> k in s
    ensures forall i, j :: 0 <= i < j < |d| ==> d[i] != d[j]
  {
    if s == [] then []
    else
      var d := Dedup(s[..|s| - 1]);
      assert s == s[..|s| - 1] + [s[|s| - 1]];
      if s[|s| - 1] in d then d else d + [s[|s| - 1]]
  }
}

=== FILE: grouping.dfy ===
/** The accumulation pattern the panels share:
    `rows.forEach(row => { if (!keep(row)) return; acc[key(row)] = (acc[key(row)] || 0) + amount(row) })`
    with the keep test, the key and the amount as parameters, together with
    reference definitions of what it computes. */
module Grouping {
  import opened Wrappers
  import opened Entries

  /** The keys of the kept rows, in row order, repeats included. */
  function KeptKeys<T>(rows: seq<T>, keep: T -> bool, key: T -> string): seq<string>
    decreases |rows|
  {
    if rows == [] then []
    else
      var n := |rows| - 1;
      KeptKeys(rows[..n], keep, key) + if keep(rows[n]) then [key(rows[n])] else []
  }

  /** The sum of the amounts of the kept rows whose key is `k`. */
  function SumFor<T>(rows: seq<T>, keep: T -> bool, key: T -> string, amount: T -> int, k: string): int
    decreases |rows|
  {
    if rows == [] then 0
    else
      var n := |rows| - 1;
      SumFor(rows[..n], keep, key, amount, k) + if keep(rows[n]) && key(rows[n]) == k then amount(rows[n]) else 0
  }

  /** The sum of the amounts of all kept rows. */
  function TotalKept<T>(rows: seq<T>, keep: T -> bool, amount: T -> int): int
    decreases |rows|
  {
    if rows == [] then 0
    else
      var n := |rows| - 1;
      TotalKept(rows[..n], keep, amount) + if keep(rows[n]) then amount(rows[n]) else 0
  }

  /** The rows that pass `pass`, in order. */
  function Filter<T>(rows: seq<T>, pass: T -> bool): (r: seq<T>)
    ensures |r| <= |rows|
    decreases |rows|
  {
    if rows == [] then []
    else
      var n := |rows| - 1;
      Filter(rows[..n], pass) + if pass(rows[n]) then [rows[n]] else []
  }

  /** The accumulator after the loop: one entry per distinct kept key, in order
      of first appearance. */
  function GroupSum<T>(rows: seq<T>, keep: T -> bool, key: T -> string, amount: T -> int): Entries<int>
    decreases |rows|
  {
    if rows == [] then []
    else
      var n := |rows| - 1;
      var acc := GroupSum(rows[..n], keep, key, amount);
      if keep(rows[n]) then Add(acc, key(rows[n]), amount(rows[n])) else acc
  }

  /** One entry per distinct kept key, in order of first appearance. */
  lemma {:induction false} GroupSumKeys<T>(rows: seq<T>, keep: T -> bool, key: T -> string, amount: T -> int)
    ensures Keys(GroupSum(rows, keep, key, amount)) == Dedup(KeptKeys(rows, keep, key))
    decreases |rows|
  {
    if rows != [] {
      var n := |rows| - 1;
      var ks := KeptKeys(rows[..n], keep, key);
      var acc := GroupSum(rows[..n], keep, key, amount);
      GroupSumKeys(rows[..n], keep, key, amount);
      if keep(rows[n]) {
        var k := key(rows[n]);
        PutKeys(acc, k, Lookup(acc, k).GetOr(0) + amount(rows[n]));
        DedupAppend(ks, k);
      } else {
        assert ks + [] == ks;
      }
    }
  }

  /** The distinct keys after one more key. */
  lemma DedupAppend(ks: seq<string>, k: string)
    ensures Dedup(ks + [k]) == if k in Dedup(ks) then Dedup(ks) else Dedup(ks) + [k]
  {
    assert (ks + [k])[..|ks|] == ks;
  }

  lemma {:induction false} SumForAbsent<T>(rows: seq<T>, keep: T -> bool, key: T -> string, amount: T -> int, k: string)
    requires k !in KeptKeys(rows, keep, key)
    ensures SumFor(rows, keep, key, amount, k) == 0
    decreases |rows|
  {
    if rows != [] {
      var n := |rows| - 1;
      assert KeptKeys(rows[..n], keep, key) <= KeptKeys(rows, keep, key);
      SumForAbsent(rows[..n], keep, key, amount, k);
    }
  }

  /** Each kept key maps to the sum of the amounts of the kept rows with that
      key; no other key is present. */
  lemma {:induction false} GroupSumLookup<T>(rows: seq<T>, keep: T -> bool, key: T -> string, amount: T -> int, k: string)
    ensures Lookup(GroupSum(rows, keep, key, amount), k) ==
      if k in KeptKeys(rows, keep, key) then Some(SumFor(rows, keep, key, amount, k)) else None
    decreases |rows|
  {
    if rows != [] {
      var n := |rows| - 1;
      var pre := rows[..n];
      var acc := GroupSum(pre, keep, key, amount);
      var ks := KeptKeys(pre, keep, key);
      var sum := SumFor(pre, keep, key, amount, k);
      GroupSumLookup(pre, keep, key, amount, k);
      if k !in ks {
        SumForAbsent(pre, keep, key, amount, k);
      }
      if keep(rows[n]) {
        var k0 := key(rows[n]);
        assert GroupSum(rows, keep, key, amount) == Add(acc, k0, amount(rows[n]));
        assert KeptKeys(rows, keep, key) == ks + [k0];
        assert SumFor(rows, keep, key, amount, k) == sum + if k == k0 then amount(rows[n]) else 0;
        AddLookupStep(acc, ks, k0, amount(rows[n]), k, sum);
      } else {
        assert GroupSum(rows, keep, key, amount) == acc;
        assert KeptKeys(rows, keep, key) == ks + [];
        assert SumFor(rows, keep, key, amount, k) == sum;
      }
    }
  }

  lemma AddLookupStep(acc: Entries<int>, ks: seq<string>, k0: string, a: int, k: string, sum: int)
    requires Lookup(acc, k) == if k in ks then Some(sum) else None
    requires k !in ks ==> sum == 0
    ensures Lookup(Add(acc, k0, a), k) == if k in ks + [k0] then Some(sum + if k == k0 then a else 0) else None
  {
  }

  /** The sum of the values of an accumulator. */
  function SumValues(e: Entries<int>): int
    decreases |e|
  {
    if e == [] then 0 else SumValues(e[..|e| - 1]) + e[|e| - 1].1
  }

  /** The sum of the values, taken from the front. */
  lemma {:induction false} SumValuesFront(e: Entries<int>)
    requires e != []
    ensures SumValues(e) == e[0].1 + SumValues(e[1..])
    decreases |e|
  {
    var n := |e| - 1;
    if n > 0 {
      SumValuesFront(e[..n]);
      assert e[..n][1..] == e[1..][..n - 1];
    } else {
      assert e[..n] == [] && e[1..] == [];
    }
  }

  /** Assigning `v` to `k` replaces the value under `k` (0 when there was none)
      by `v` in the sum of the values. */
  lemma {:induction false} PutSumValues(e: Entries<int>, k: string, v: int)
    ensures SumValues(Put(e, k, v)) == SumValues(e) - Lookup(e, k).GetOr(0) + v
    decreases |e|
  {
    if e == [] {
      assert Put(e, k, v) == [(k, v)];
      SumValuesFront([(k, v)]);
      assert [(k, v)][1..] == [];
    } else if e[0].0 == k {
      var r := [(k, v)] + e[1..];
      assert Put(e, k, v) == r;
      SumValuesFront(r);
      assert r[1..] == e[1..];
      SumValuesFront(e);
    } else {
      var t := Put(e[1..], k, v);
      PutSumValues(e[1..], k, v);
      var r := [e[0]] + t;
      assert Put(e, k, v) == r;
      SumValuesFront(r);
      assert r[1..] == t;
      SumValuesFront(e);
    }
  }

  /** Nothing is lost or counted twice: the values of the accumulator add up to
      the total amount of the kept rows. */
  lemma {:induction false} GroupSumTotal<T>(rows: seq<T>, keep: T -> bool, key: T -> string, amount: T -> int)
    ensures SumValues(GroupSum(rows, keep, key, amount)) == TotalKept(rows, keep, amount)
    decreases |rows|
  {
    if rows != [] {
      var n := |rows| - 1;
      GroupSumTotal(rows[..n], keep, key, amount);
      if keep(rows[n]) {
        AddSumValues(GroupSum(rows[..n], keep, key, amount), key(rows[n]), amount(rows[n]));
      }
    }
  }

  /** Adding to one key adds to the sum of the values. */
  lemma AddSumValues(acc: Entries<int>, k: string, a: int)
    ensures SumValues(Add(acc, k, a)) == SumValues(acc) + a
  {
    PutSumValues(acc, k, Lookup(acc, k).GetOr(0) + a);
  }

  /** With non-negative amounts every group sum is non-negative. */
  lemma {:induction false} GroupSumNonNegative<T>(rows: seq<T>, keep: T -> bool, key: T -> string, amount: T -> int)
    requires forall i :: 0 <= i < |rows| ==> amount(rows[i]) >= 0
    ensures forall p :: p in GroupSum(rows, keep, key, amount) ==> p.1 >= 0
    decreases |rows|
  {
    if rows != [] {
      var n := |rows| - 1;
      assert forall i :: 0 <= i < n ==> rows[..n][i] == rows[i];
      GroupSumNonNegative(rows[..n], keep, key, amount);
      if keep(rows[n]) {
        var acc := GroupSum(rows[..n], keep, key, amount);
        var k := key(rows[n]);
        PutMembers(acc, k, Lookup(acc, k).GetOr(0) + amount(rows[n]));
        if Lookup(acc, k).Some? {
          LookupFound(acc, k);
        }
      }
    }
  }

  /** When keeping a row means passing `pass` and then `keep2`, filtering first
      and grouping the survivors gives the same accumulator. */
  lemma {:induction false} GroupSumFilterFirst<T>(rows: seq<T>, pass: T -> bool, keep2: T -> bool, keep: T -> bool,
                                                  key: T -> string, amount: T -> int)
    requires forall row :: keep(row) == (pass(row) && keep2(row))
    ensures GroupSum(rows, keep, key, amount) == GroupSum(Filter(rows, pass), keep2, key, amount)
    decreases |rows|
  {
    if rows != [] {
      var n := |rows| - 1;
      var pre := Filter(rows[..n], pass);
      GroupSumFilterFirst(rows[..n], pass, keep2, keep, key, amount);
      if pass(rows[n]) {
        assert (pre + [rows[n]])[..|pre|] == pre;
      } else {
        assert pre + [] == pre;
      }
    }
  }

  /** A row the keep test rejects changes nothing. */
  lemma RejectedRowIgnored<T>(rows: seq<T>, keep: T -> bool, key: T -> string, amount: T -> int, row: T)
    requires !keep(row)
    ensures GroupSum(rows + [row], keep, key, amount) == GroupSum(rows, keep, key, amount)
    ensures KeptKeys(rows + [row], keep, key) == KeptKeys(rows, keep, key)
  {
    assert (rows + [row])[..|rows|] == rows;
  }

  /** With distinct keys, looking up the key of an entry finds that entry. */
  lemma DistinctLookup<V>(e: Entries<V>, i: nat)
    requires i < |e| && forall a, b :: 0 <= a < b < |Keys(e)| ==> Keys(e)[a] != Keys(e)[b]
    ensures Lookup(e, e[i].0) == Some(e[i].1)
  {
    var k := e[i].0;
    var j := KeyIndex(e, k);
    LookupIndex(e, k);
    assert Keys(e)[j] == Keys(e)[i];
  }

  /** The entry at position `i` holds the `i`-th distinct kept key and its sum. */
  lemma GroupSumEntry<T>(rows: seq<T>, keep: T -> bool, key: T -> string, amount: T -> int, i: nat)
    requires i < |Dedup(KeptKeys(rows, keep, key))|
    ensures var k := Dedup(KeptKeys(rows, keep, key))[i];
      i < |GroupSum(rows, keep, key, amount)| && GroupSum(rows, keep, key, amount)[i] == (k, SumFor(rows, keep, key, amount, k))
  {
    var acc := GroupSum(rows, keep, key, amount);
    GroupSumKeys(rows, keep, key, amount);
    var k := acc[i].0;
    assert k == Keys(acc)[i];
    GroupSumLookup(rows, keep, key, amount, k);
    DistinctLookup(acc, i);
  }

  lemma DedupEmpty(s: seq<string>)
    ensures Dedup(s) == [] <==> s == []
  {
    if s != [] {
      assert s[0] in Dedup(s);
    }
  }
}

=== FILE: history.dfy ===
/** The chart history both panels share through the `chartHistory` item of the
    browser's local storage (src/components/LlmResultPanel.jsx appends to it,
    src/components/HistoryPanel.jsx reads, rewrites and removes it). */
module ChartHistory {
  import opened Wrappers
  import opened Rows

  /** `MAX_HISTORY_ITEMS` */
  const MaxHistoryItems := 3

  /** The exception `localStorage.setItem` throws when the serialized list does
      not fit in the storage quota. */
  const QuotaExceeded := "QuotaExceededError"

  /** What was on screen when a chart was captured. */
  datatype Metadata = Metadata(rows: seq<Row>, date: SelectedDate, port: string)

  /** One captured chart: its image as a data URL, when it was taken, and the
      selection it was drawn for. Timestamps are integers ordered like the
      instants they stand for. */
  datatype Entry = Entry(image: string, timestamp: int, metadata: Metadata)

  /** The `chartHistory` item: missing (or empty), a stored array, or text that
      is not a JSON array. */
  datatype Stored = Absent | Saved(entries: seq<Entry>) | Malformed

  /** `JSON.parse(localStorage.getItem('chartHistory') || '[]')`. Neither reader
      catches the exception a malformed item raises. */
  function ReadStored(s: Stored): (r: Result<seq<Entry>, string>)
    ensures r.Failure? <==> s.Malformed?
    ensures s.Absent? ==> r == Success([])
    ensures s.Saved? ==> r == Success(s.entries)
  {
    match s
    case Absent => Success([])
    case Saved(es) => Success(es)
    case Malformed => Failure("SyntaxError: JSON.parse")
  }

  /** The reference for an append: the newest `MaxHistoryItems` entries of the
      stored list followed by the new one. */
  function Appended(existing: seq<Entry>, e: Entry): seq<Entry> {
    var all := existing + [e];
    if |all| <= MaxHistoryItems then all else all[|all| - MaxHistoryItems..]
  }

  /** `[...existing, newEntry]`, then `shift()` while longer than the maximum. */
  method AppendEvicting(existing: seq<Entry>, e: Entry) returns (updated: seq<Entry>)
    ensures updated == Appended(existing, e)
  {
    var all := existing + [e];
    updated := all;
    while |updated| > MaxHistoryItems
      invariant 1 <= |updated| <= |all| && updated == all[|all| - |updated|..]
      invariant |updated| >= MaxHistoryItems || updated == all
      decreases |updated|
    {
      updated := updated[1..];
    }
  }

  /** An append keeps at most `MaxHistoryItems` entries, always keeps the new one
      last, drops nothing from a short list, and otherwise drops the oldest
      (front) entries only. */
  lemma AppendedShape(existing: seq<Entry>, e: Entry)
    ensures var r := Appended(existing, e);
      && 1 <= |r| <= MaxHistoryItems
      && r[|r| - 1] == e
      && (|existing| < MaxHistoryItems ==> r == existing + [e])
      && (|existing| >= MaxHistoryItems ==> r == existing[|existing| - (MaxHistoryItems - 1)..] + [e])
  {
    var all := existing + [e];
    if |existing| >= MaxHistoryItems {
      assert all[|all| - MaxHistoryItems..] == existing[|existing| - (MaxHistoryItems - 1)..] + [e];
    }
  }
}

=== FILE: history_panel.dfy ===
/** The history view of src/components/HistoryPanel.jsx: it loads the stored
    history newest first, puts every newly dispatched capture in front, deletes
    a card by position and writes the view back to storage, and removes the
    stored item when the page is left. */
module HistoryPanel {
  import opened Wrappers
  import opened ChartHistory

  // ---------------------------------------------------------------------------
  // Load: `saved.sort((a, b) => new Date(b.timestamp) - new Date(a.timestamp))`

  predicate NewestFirst(es: seq<Entry>) {
    forall i, j :: 0 <= i < j < |es| ==> es[i].timestamp >= es[j].timestamp
  }

  /** The entries stamped `t`, in order. */
  function StampedAt(es: seq<Entry>, t: int): seq<Entry>
    decreases |es|
  {
    if es == [] then [] else (if es[0].timestamp == t then [es[0]] else []) + StampedAt(es[1..], t)
  }

  /** Places `e` before the first entry that is not newer than it. */
  function Insert(e: Entry, sorted: seq<Entry>): (r: seq<Entry>)
    ensures |r| == |sorted| + 1
    ensures multiset(r) == multiset(sorted) + multiset{e}
    ensures r[0] == e || (sorted != [] && r[0] == sorted[0])
    decreases |sorted|
  {
    if sorted == [] || sorted[0].timestamp <= e.timestamp then [e] + sorted
    else
      var rest := Insert(e, sorted[1..]);
      assert sorted == [sorted[0]] + sorted[1..];
      [sorted[0]] + rest
  }

  /** Inserting into a newest-first list keeps it newest first. */
  lemma {:induction false} InsertSorted(e: Entry, sorted: seq<Entry>)
    requires NewestFirst(sorted)
    ensures NewestFirst(Insert(e, sorted))
    decreases |sorted|
  {
    if !(sorted == [] || sorted[0].timestamp <= e.timestamp) {
      var rest := Insert(e, sorted[1..]);
      InsertSorted(e, sorted[1..]);
      var r := [sorted[0]] + rest;
      assert r == Insert(e, sorted);
      assert forall j :: 0 < j < |r| ==> r[j] == rest[j - 1];
      forall j | 0 < j < |r| ensures r[0].timestamp >= r[j].timestamp {
        var x := rest[j - 1];
        assert x in multiset(rest);
        if x != e {
          assert x in multiset(sorted[1..]);
          var k :| 0 <= k < |sorted[1..]| && sorted[1..][k] == x;
          assert sorted[k + 1] == x;
        }
      }
    }
  }

  /** The comparator sort, stable as `Array.prototype.sort` is: an insertion
      sort that inserts earlier entries in front of later ones with the same
      timestamp. */
  function SortNewestFirst(es: seq<Entry>): (r: seq<Entry>)
    ensures multiset(r) == multiset(es)
    ensures NewestFirst(r)
    decreases |es|
  {
    if es == [] then []
    else
      assert es == [es[0]] + es[1..];
      InsertSorted(es[0], SortNewestFirst(es[1..]));
      Insert(es[0], SortNewestFirst(es[1..]))
  }

  /** Inserting `e` puts it in front of every entry with its timestamp. */
  lemma {:induction false} InsertStable(e: Entry, sorted: seq<Entry>, t: int)
    ensures StampedAt(Insert(e, sorted), t) == (if e.timestamp == t then [e] else []) + StampedAt(sorted, t)
    decreases |sorted|
  {
    if sorted == [] || sorted[0].timestamp <= e.timestamp {
      assert ([e] + sorted)[1..] == sorted;
    } else {
      var rest := Insert(e, sorted[1..]);
      InsertStable(e, sorted[1..], t);
      assert ([sorted[0]] + rest)[1..] == rest;
      if e.timestamp == t {
        assert sorted[0].timestamp != t;
      }
    }
  }

  /** The sort is stable: entries with the same timestamp keep their stored order. */
  lemma {:induction false} SortStable(es: seq<Entry>, t: int)
    ensures StampedAt(SortNewestFirst(es), t) == StampedAt(es, t)
    decreases |es|
  {
    if es != [] {
      SortStable(es[1..], t);
      InsertStable(es[0], SortNewestFirst(es[1..]), t);
    }
  }

  /** A list already newest first is left as it is. */
  lemma {:induction false} SortOfSorted(es: seq<Entry>)
    requires NewestFirst(es)
    ensures SortNewestFirst(es) == es
    decreases |es|
  {
    if es != [] {
      assert NewestFirst(es[1..]);
      SortOfSorted(es[1..]);
      assert es == [es[0]] + es[1..];
    }
  }

  /** The view after loading: the stored list, newest first; nothing stored
      gives an empty view; a malformed item throws. */
  function Load(store: Stored): (r: Result<seq<Entry>, string>)
    ensures r.Failure? <==> store.Malformed?
    ensures store.Absent? ==> r == Success([])
    ensures store.Saved? ==> r.Success? && NewestFirst(r.value) && multiset(r.value) == multiset(store.entries)
  {
    match ReadStored(store)
    case Success(saved) => Success(SortNewestFirst(saved))
    case Failure(err) => Failure(err)
  }

  // ---------------------------------------------------------------------------
  // Updates

  /** `handleUpdate`: a dispatched capture goes in front; the view has no bound. */
  function OnBroadcast(view: seq<Entry>, e: Entry): (r: seq<Entry>)
    ensures |r| == |view| + 1 && r[0] == e && r[1..] == view
  {
    [e] + view
  }

  /** Dispatching several captures grows the view by one card each, newest in front. */
  lemma {:induction false} BroadcastsAccumulate(view: seq<Entry>, es: seq<Entry>)
    ensures |ReceiveAll(view, es)| == |view| + |es|
    ensures ReceiveAll(view, es)[|es|..] == view
    ensures forall i :: 0 <= i < |es| ==> ReceiveAll(view, es)[i] == es[|es| - 1 - i]
    decreases |es|
  {
    if es != [] {
      var n := |es| - 1;
      BroadcastsAccumulate(view, es[..n]);
      var v := ReceiveAll(view, es[..n]);
      assert ReceiveAll(view, es) == [es[n]] + v;
      forall i | 0 <= i < |es| ensures ReceiveAll(view, es)[i] == es[|es| - 1 - i] {
        if i > 0 {
          assert ReceiveAll(view, es)[i] == v[i - 1] == es[..n][n - 1 - (i - 1)];
        }
      }
    }
  }

  /** The view after the captures `es` are dispatched in order. */
  function ReceiveAll(view: seq<Entry>, es: seq<Entry>): seq<Entry>
    decreases |es|
  {
    if es == [] then view else OnBroadcast(ReceiveAll(view, es[..|es| - 1]), es[|es| - 1])
  }

  /** `prev.filter((_, idx) => idx !== idxToDelete)` */
  method DeleteAt(view: seq<Entry>, idxToDelete: int) returns (updated: seq<Entry>)
    ensures 0 <= idxToDelete < |view| ==> updated == view[..idxToDelete] + view[idxToDelete + 1..]
    ensures !(0 <= idxToDelete < |view|) ==> updated == view
  {
    updated := [];
    var i := 0;
    while i < |view|
      invariant 0 <= i <= |view|
      invariant updated == if 0 <= idxToDelete < i then view[..idxToDelete] + view[idxToDelete + 1..i] else view[..i]
    {
      if i != idxToDelete {
        updated := updated + [view[i]];
      }
      i := i + 1;
    }
  }

  /** The view and the stored item, as the panel sees them. */
  datatype State = State(view: seq<Entry>, store: Stored)

  /** `handleDelete(idx)`: the filtered view replaces the stored item as it is,
      newest first and with no bound on its length. When the list does not fit
      in the storage quota (`fits` is false) `setItem` throws inside the state
      updater: neither the view nor the stored item changes. */
  method HandleDelete(s: State, idxToDelete: int, fits: bool) returns (r: Result<State, string>)
    ensures r.Failure? <==> !fits
    ensures r.Success? ==> r.value.store == Saved(r.value.view)
    ensures r.Success? && 0 <= idxToDelete < |s.view| ==> r.value.view == s.view[..idxToDelete] + s.view[idxToDelete + 1..]
    ensures r.Success? && 0 <= idxToDelete < |s.view| ==> |r.value.view| == |s.view| - 1
    ensures r.Success? && 0 <= idxToDelete < |s.view| ==> multiset(r.value.view) + multiset{s.view[idxToDelete]} == multiset(s.view)
    ensures r.Success? && !(0 <= idxToDelete < |s.view|) ==> r.value.view == s.view
  {
    var updated := DeleteAt(s.view, idxToDelete);
    if !fits {
      return Failure(QuotaExceeded);
    }
    if 0 <= idxToDelete < |s.view| {
      assert s.view == s.view[..idxToDelete] + [s.view[idxToDelete]] + s.view[idxToDelete + 1..];
    }
    r := Success(State(updated, Saved(updated)));
  }

  /** `clearHistoryOnLeave`: the stored item is removed whatever it held. */
  function ClearOnLeave(s: State): (r: State)
    ensures r.store == Absent && r.view == s.view
    ensures Load(r.store) == Success([])
  {
    s.(store := Absent)
  }

  /** Deleting from a newest-first view keeps it newest first, and so is the
      list written back. */
  lemma DeleteKeepsOrder(view: seq<Entry>, idx: nat)
    requires NewestFirst(view) && idx < |view|
    ensures NewestFirst(view[..idx] + view[idx + 1..])
  {
    var r := view[..idx] + view[idx + 1..];
    assert forall i :: 0 <= i < |r| ==> r[i] == view[if i < idx then i else i + 1];
  }

  /** The stored list is oldest first for an append but newest first after a
      delete: once a delete has written back three cards, the next capture
      evicts the NEWEST of them and keeps the two older ones. */
  lemma DeleteThenAppendEvictsNewest(view: seq<Entry>, idx: nat, e: Entry)
    requires NewestFirst(view) && idx < |view| && |view| == MaxHistoryItems + 1
    ensures var stored := view[..idx] + view[idx + 1..];
      && |stored| == MaxHistoryItems
      && Appended(stored, e) == stored[1..] + [e]
      && forall i :: 0 <= i < |stored| ==> stored[0].timestamp >= stored[i].timestamp
  {
    var stored := view[..idx] + view[idx + 1..];
    DeleteKeepsOrder(view, idx);
    AppendedShape(stored, e);
  }
}

=== FILE: map_panel.dfy ===
/** The tonnage map of src/components/MapPanel.jsx: the rows are summed into a
    nested object port code -> year -> month -> tonnage, the three known port
    codes hand their sub-object to a fixed marker, and each marker shows the
    tonnage of the selected month. */
module MapPanel {
  import opened Wrappers
  import opened Text
  import opened Entries
  import opened Rows

  const PortColumn := "청코드"
  const YearColumn := "년"
  const MonthColumn := "월"
  const TonColumn := "총톤수"

  // ---------------------------------------------------------------------------
  // Nested objects

  /** A value of the nested object: a number or a plain object. */
  datatype Obj = Number(n: int) | Object(fields: Entries<Obj>)

  /** The properties of `o`; a number has none. */
  function Fields(o: Obj): Entries<Obj> {
    if o.Object? then o.fields else []
  }

  /** `o?.[path[0]]?.[path[1]]…` */
  function At(o: Obj, path: seq<string>): Option<Obj>
    decreases |path|
  {
    if path == [] then Some(o)
    else
      match Lookup(Fields(o), path[0])
      case None => None
      case Some(child) => At(child, path[1..])
  }

  /** The number at `path`, if there is one. */
  function NumberAt(o: Obj, path: seq<string>): Option<int> {
    match At(o, path)
    case Some(Number(n)) => Some(n)
    case _ => None
  }

  /** `child || {}` for a level on the way down. */
  function ObjectOr(child: Option<Obj>): Obj {
    if child.Some? && child.value.Object? then child.value else Object([])
  }

  /** `(child || 0)` for the number at the end of the path. */
  function NumberOr0At(child: Option<Obj>): int {
    if child.Some? && child.value.Number? then child.value.n else 0
  }

  /** `o[p0] = o[p0] || {}; o[p0][p1] = o[p0][p1] || {}; … o[…][last] = (o[…][last] || 0) + ton` */
  function AddAt(o: Obj, path: seq<string>, ton: int): Obj
    requires path != []
    decreases |path|
  {
    var child := Lookup(Fields(o), path[0]);
    if |path| == 1 then Object(Put(Fields(o), path[0], Number(NumberOr0At(child) + ton)))
    else Object(Put(Fields(o), path[0], AddAt(ObjectOr(child), path[1..], ton)))
  }

  /** A value with no properties has nothing under any non-empty path. */
  lemma EmptyAt(o: Obj, path: seq<string>)
    requires Fields(o) == [] && path != []
    ensures At(o, path) == None
  {
    assert Keys(Fields(o)) == [];
  }

  /** Reading one level down through `child || {}`: below a missing level or a
      number there is nothing. */
  lemma ObjectOrAt(o: Obj, path: seq<string>)
    requires |path| >= 2
    ensures NumberAt(o, path) == NumberAt(ObjectOr(Lookup(Fields(o), path[0])), path[1..])
  {
    var child := Lookup(Fields(o), path[0]);
    if child.None? {
      EmptyAt(Object([]), path[1..]);
    } else if child.value.Number? {
      EmptyAt(Object([]), path[1..]);
      EmptyAt(child.value, path[1..]);
    }
  }

  /** One level down, on the path that was added along. */
  lemma AtStep(o: Obj, path: seq<string>, child: Obj)
    requires path != [] && Lookup(Fields(o), path[0]) == Some(child)
    ensures NumberAt(o, path) == NumberAt(child, path[1..])
  {
  }

  /** Adding along a path adds to the number at its end, a missing number
      counting as 0, and changes no other number at the same depth. */
  lemma {:induction false} AddAtNumber(o: Obj, p: seq<string>, ton: int, q: seq<string>)
    requires p != [] && |q| == |p|
    ensures NumberAt(AddAt(o, p, ton), q) == if q == p then Some(NumberAt(o, p).GetOr(0) + ton) else NumberAt(o, q)
    decreases |p|
  {
    if q[0] != p[0] {
      AddAtOtherKey(o, p, ton, q);
    } else if |p| == 1 {
      AddAtLeaf(o, p, ton);
      assert q == p;
    } else {
      var below := ObjectOr(Lookup(Fields(o), p[0]));
      AddAtNumber(below, p[1..], ton, q[1..]);
      AddAtDown(o, p, ton, q);
      ObjectOrAt(o, q);
      ObjectOrAt(o, p);
      assert q == p <==> q[1..] == p[1..] by {
        assert q == [q[0]] + q[1..] && p == [p[0]] + p[1..];
      }
    }
  }

  lemma AddAtOtherKey(o: Obj, p: seq<string>, ton: int, q: seq<string>)
    requires p != [] && q != [] && q[0] != p[0]
    ensures NumberAt(AddAt(o, p, ton), q) == NumberAt(o, q)
  {
    var r := AddAt(o, p, ton);
    AddAtKeeps(o, p, ton);
    assert Lookup(Fields(r), q[0]) == Lookup(Fields(o), q[0]);
  }

  lemma AddAtLeaf(o: Obj, p: seq<string>, ton: int)
    requires |p| == 1
    ensures NumberAt(AddAt(o, p, ton), p) == Some(NumberAt(o, p).GetOr(0) + ton)
  {
    var r := AddAt(o, p, ton);
    var child := Lookup(Fields(o), p[0]);
    AddAtKeeps(o, p, ton);
    AtStep(r, p, Number(NumberOr0At(child) + ton));
    if child.Some? {
      AtStep(o, p, child.value);
    }
  }

  lemma AddAtDown(o: Obj, p: seq<string>, ton: int, q: seq<string>)
    requires |p| >= 2 && |q| == |p| && q[0] == p[0]
    ensures NumberAt(AddAt(o, p, ton), q) == NumberAt(AddAt(ObjectOr(Lookup(Fields(o), p[0])), p[1..], ton), q[1..])
  {
    var r := AddAt(o, p, ton);
    AddAtKeeps(o, p, ton);
    AtStep(r, q, AddAt(ObjectOr(Lookup(Fields(o), p[0])), p[1..], ton));
  }

  /** Adding along a path leaves its first key present. */
  lemma AddAtKeeps(o: Obj, p: seq<string>, ton: int)
    requires p != []
    ensures Fields(AddAt(o, p, ton)) == Put(Fields(o), p[0], if |p| == 1 then Number(NumberOr0At(Lookup(Fields(o), p[0])) + ton)
                                                            else AddAt(ObjectOr(Lookup(Fields(o), p[0])), p[1..], ton))
  {
  }

  // ---------------------------------------------------------------------------
  // `reduce`, over any kind of row and accumulator

  /** `rows.reduce(step, init)` */
  function Reduce<T, S>(rows: seq<T>, init: S, step: (S, T) -> S): S
    decreases |rows|
  {
    if rows == [] then init else step(Reduce(rows[..|rows| - 1], init, step), rows[|rows| - 1])
  }

  /** The sum of `ton` over the rows `hit` selects. */
  function Total<T>(rows: seq<T>, hit: T -> bool, ton: T -> int): int
    decreases |rows|
  {
    if rows == [] then 0
    else
      var n := |rows| - 1;
      Total(rows[..n], hit, ton) + if hit(rows[n]) then ton(rows[n]) else 0
  }

  /** Some row is selected. */
  predicate Any<T>(rows: seq<T>, hit: T -> bool) {
    exists i :: 0 <= i < |rows| && hit(rows[i])
  }

  lemma AnyStep<T>(rows: seq<T>, hit: T -> bool)
    requires rows != []
    ensures Any(rows, hit) <==> Any(rows[..|rows| - 1], hit) || hit(rows[|rows| - 1])
  {
    var n := |rows| - 1;
    assert forall i :: 0 <= i < n ==> rows[..n][i] == rows[i];
  }

  /** With no row selected the total is 0. */
  lemma {:induction false} TotalOfNone<T>(rows: seq<T>, hit: T -> bool, ton: T -> int)
    requires !Any(rows, hit)
    ensures Total(rows, hit, ton) == 0
    decreases |rows|
  {
    if rows != [] {
      AnyStep(rows, hit);
      TotalOfNone(rows[..|rows| - 1], hit, ton);
    }
  }

  /** A fold whose every step adds the amount of a selected row to one counter,
      a missing counter counting as 0, and leaves it alone otherwise, ends with
      the total of the selected rows, and with no counter when no row was
      selected. */
  lemma {:induction false} ReduceCounts<T, S>(rows: seq<T>, init: S, step: (S, T) -> S, count: S -> Option<int>,
                                            hit: T -> bool, ton: T -> int)
    requires count(init) == None
    requires forall acc, x :: count(step(acc, x)) == if hit(x) then Some(count(acc).GetOr(0) + ton(x)) else count(acc)
    ensures count(Reduce(rows, init, step)) == if Any(rows, hit) then Some(Total(rows, hit, ton)) else None
    decreases |rows|
  {
    if rows != [] {
      var n := |rows| - 1;
      var pre := rows[..n];
      var acc := Reduce(pre, init, step);
      ReduceCounts(pre, init, step, count, hit, ton);
      AnyStep(rows, hit);
      if !Any(pre, hit) {
        TotalOfNone(pre, hit, ton);
      }
      CountStep(count(acc), Any(pre, hit), Total(pre, hit, ton), hit(rows[n]), ton(rows[n]), count(step(acc, rows[n])));
    }
  }

  /** The induction step of `ReduceCounts`, on plain values. */
  lemma CountStep(before: Option<int>, seen: bool, sum: int, hit: bool, t: int, after: Option<int>)
    requires before == if seen then Some(sum) else None
    requires !seen ==> sum == 0
    requires after == if hit then Some(before.GetOr(0) + t) else before
    ensures after == if seen || hit then Some(sum + if hit then t else 0) else None
  {
  }

  // ---------------------------------------------------------------------------
  // The nested sum, over any kind of row

  /** `acc?.[c]?.[y]?.[m]`, when it is a number. */
  function Cell(acc: Obj, c: string, y: string, m: string): Option<int> {
    NumberAt(acc, [c, y, m])
  }

  /** The reducer: a row the keep test rejects is skipped, any other adds its
      tonnage under its code, year and month. */
  function NestStep<T>(keep: T -> bool, code: T -> string, year: T -> string, month: T -> string,
                       ton: T -> int): (Obj, T) -> Obj
  {
    (acc: Obj, row: T) => if keep(row) then AddAt(acc, [code(row), year(row), month(row)], ton(row)) else acc
  }

  /** `rows.reduce(…, {})` */
  function Nest<T>(rows: seq<T>, keep: T -> bool, code: T -> string, year: T -> string, month: T -> string,
                   ton: T -> int): Obj
  {
    Reduce(rows, Object([]), NestStep(keep, code, year, month, ton))
  }

  /** A kept row with the keys `c`, `y`, `m`. */
  predicate Matches<T>(row: T, keep: T -> bool, code: T -> string, year: T -> string, month: T -> string,
                       c: string, y: string, m: string)
  {
    keep(row) && code(row) == c && year(row) == y && month(row) == m
  }

  function MatchFn<T>(keep: T -> bool, code: T -> string, year: T -> string, month: T -> string,
                      c: string, y: string, m: string): T -> bool
  {
    row => Matches(row, keep, code, year, month, c, y, m)
  }

  function CellFn(c: string, y: string, m: string): Obj -> Option<int> {
    acc => Cell(acc, c, y, m)
  }

  /** One row adds its tonnage to its own cell when it is kept, and to no other. */
  lemma NestStepCell<T>(keep: T -> bool, code: T -> string, year: T -> string, month: T -> string, ton: T -> int,
                        acc: Obj, row: T, c: string, y: string, m: string)
    ensures Cell(NestStep(keep, code, year, month, ton)(acc, row), c, y, m) ==
      if Matches(row, keep, code, year, month, c, y, m) then Some(Cell(acc, c, y, m).GetOr(0) + ton(row)) else Cell(acc, c, y, m)
  {
    if keep(row) {
      var p := [code(row), year(row), month(row)];
      AddAtNumber(acc, p, ton(row), [c, y, m]);
      assert [c, y, m] == p <==> code(row) == c && year(row) == y && month(row) == m;
    }
  }

  /** Every cell holds the sum over the kept rows with its keys, and a cell no
      kept row has is absent. */
  lemma NestCell<T>(rows: seq<T>, keep: T -> bool, code: T -> string, year: T -> string, month: T -> string,
                    ton: T -> int, c: string, y: string, m: string)
    ensures Cell(Nest(rows, keep, code, year, month, ton), c, y, m) ==
      if Any(rows, MatchFn(keep, code, year, month, c, y, m))
      then Some(Total(rows, MatchFn(keep, code, year, month, c, y, m), ton)) else None
  {
    var step := NestStep(keep, code, year, month, ton);
    var hit := MatchFn(keep, code, year, month, c, y, m);
    var count := CellFn(c, y, m);
    forall acc: Obj, row: T
      ensures count(step(acc, row)) == if hit(row) then Some(count(acc).GetOr(0) + ton(row)) else count(acc)
    {
      NestStepCell(keep, code, year, month, ton, acc, row, c, y, m);
    }
    EmptyAt(Object([]), [c, y, m]);
    ReduceCounts(rows, Object([]), step, count, hit, ton);
  }

  /** The object has no property exactly when no row was kept. */
  lemma {:induction false} NestEmpty<T>(rows: seq<T>, keep: T -> bool, code: T -> string, year: T -> string,
                                        month: T -> string, ton: T -> int)
    ensures Fields(Nest(rows, keep, code, year, month, ton)) == [] <==> forall i :: 0 <= i < |rows| ==> !keep(rows[i])
    decreases |rows|
  {
    if rows != [] {
      var n := |rows| - 1;
      NestEmpty(rows[..n], keep, code, year, month, ton);
      assert forall i :: 0 <= i < n ==> rows[..n][i] == rows[i];
      if keep(rows[n]) {
        var acc := Nest(rows[..n], keep, code, year, month, ton);
        var p := [code(rows[n]), year(rows[n]), month(rows[n])];
        AddAtKeeps(acc, p, ton(rows[n]));
        assert Lookup(Fields(AddAt(acc, p, ton(rows[n]))), p[0]).Some?;
      }
    }
  }

  /** No port code occurs twice at the top level. */
  lemma {:induction false} NestDistinct<T>(rows: seq<T>, keep: T -> bool, code: T -> string, year: T -> string,
                                           month: T -> string, ton: T -> int)
    ensures DistinctKeys(Fields(Nest(rows, keep, code, year, month, ton)))
    decreases |rows|
  {
    if rows != [] {
      var n := |rows| - 1;
      var acc := Nest(rows[..n], keep, code, year, month, ton);
      NestDistinct(rows[..n], keep, code, year, month, ton);
      if keep(rows[n]) {
        var p := [code(rows[n]), year(rows[n]), month(rows[n])];
        AddAtKeeps(acc, p, ton(rows[n]));
        PutKeepsDistinct(Fields(acc), p[0], AddAt(ObjectOr(Lookup(Fields(acc), p[0])), p[1..], ton(rows[n])));
      }
    }
  }

  // ---------------------------------------------------------------------------
  // `aggregated` over the uploaded rows

  /** `if (!code || !year || !month) return acc;` */
  predicate Kept(row: Row) {
    Truthy(Get(row, PortColumn)) && Truthy(Get(row, YearColumn)) && Truthy(Get(row, MonthColumn))
  }

  function KeepFn(): Row -> bool {
    row => Kept(row)
  }

  /** The property name a field becomes: `acc[row[column]]`. */
  function KeyFn(column: string): Row -> string {
    row => StringOf(Get(row, column))
  }

  /** `Number(row['총톤수']) || 0` */
  function TonFn(): Row -> int {
    row => NumberOr0(Get(row, TonColumn))
  }

  function Aggregated(rows: seq<Row>): Obj {
    Nest(rows, KeepFn(), KeyFn(PortColumn), KeyFn(YearColumn), KeyFn(MonthColumn), TonFn())
  }

  /** Each cell is the tonnage summed over the kept rows with its code, year and
      month as written; cells no kept row names are absent. */
  lemma AggregatedCell(rows: seq<Row>, c: string, y: string, m: string)
    ensures var seen := exists i :: 0 <= i < |rows| && Kept(rows[i]) && KeyFn(PortColumn)(rows[i]) == c && KeyFn(YearColumn)(rows[i]) == y && KeyFn(MonthColumn)(rows[i]) == m;
      Cell(Aggregated(rows), c, y, m) ==
        if seen then Some(Total(rows, MatchFn(KeepFn(), KeyFn(PortColumn), KeyFn(YearColumn), KeyFn(MonthColumn), c, y, m), TonFn()))
        else None
  {
    NestCell(rows, KeepFn(), KeyFn(PortColumn), KeyFn(YearColumn), KeyFn(MonthColumn), TonFn(), c, y, m);
  }

  /** A row with a falsy code, year or month changes nothing. */
  lemma FalsyRowSkipped(rows: seq<Row>, row: Row)
    requires !Kept(row)
    ensures Aggregated(rows + [row]) == Aggregated(rows)
  {
    assert (rows + [row])[..|rows|] == rows;
  }

  /** `Object.keys(aggregated).length === 0` */
  function IsEmpty(rows: seq<Row>): bool {
    Fields(Aggregated(rows)) == []
  }

  /** The map counts as empty exactly when no row has a code, a year and a month. */
  lemma IsEmptyIff(rows: seq<Row>)
    ensures IsEmpty(rows) <==> forall i :: 0 <= i < |rows| ==> !Kept(rows[i])
  {
    NestEmpty(rows, KeepFn(), KeyFn(PortColumn), KeyFn(YearColumn), KeyFn(MonthColumn), TonFn());
  }

  // ---------------------------------------------------------------------------
  // Markers

  const LocationCount := 3

  /** The marker a port code feeds: '020' the north port (1), '021' Gamcheon (0),
      '022' the new port (2). */
  function LocationOf(code: string): (r: Option<nat>)
    ensures r.Some? ==> r.value < LocationCount && CodeOf(r.value) == code
    ensures forall i :: 0 <= i < LocationCount && CodeOf(i) == code ==> r == Some(i)
  {
    if code == "020" then Some(1)
    else if code == "021" then Some(0)
    else if code == "022" then Some(2)
    else None
  }

  function CodeOf(i: nat): string
    requires i < LocationCount
  {
    ["021", "020", "022"][i]
  }

  /** `for (const key in aggregated) { … locations[i].tons = aggregated[key] }`.
      The markers live at module level, so a marker whose code is missing from
      this aggregate keeps what an earlier render gave it. */
  function AssignTons(tons: seq<Option<Obj>>, agg: Entries<Obj>): (r: seq<Option<Obj>>)
    requires |tons| == LocationCount
    ensures |r| == LocationCount
    decreases |agg|
  {
    if agg == [] then tons
    else
      var r := AssignTons(tons, agg[..|agg| - 1]);
      var (k, v) := agg[|agg| - 1];
      match LocationOf(k)
      case Some(i) => r[i := Some(v)]
      case None => r
  }

  /** Each marker takes its code's sub-object when the code is present and keeps
      its old value otherwise; other codes touch no marker. */
  lemma {:induction false} AssignTonsLookup(tons: seq<Option<Obj>>, agg: Entries<Obj>, i: nat)
    requires |tons| == LocationCount && i < LocationCount && DistinctKeys(agg)
    ensures AssignTons(tons, agg)[i] == match Lookup(agg, CodeOf(i)) case Some(v) => Some(v) case None => tons[i]
    decreases |agg|
  {
    if agg != [] {
      var n := |agg| - 1;
      var pre := agg[..n];
      assert DistinctKeys(pre) by {
        assert forall a :: 0 <= a < n ==> Keys(pre)[a] == Keys(agg)[a];
      }
      AssignTonsLookup(tons, pre, i);
      LookupLast(agg, CodeOf(i));
    }
  }

  /** With distinct keys, the last entry answers for its own key only. */
  lemma LookupLast<V>(e: Entries<V>, k: string)
    requires e != [] && DistinctKeys(e)
    ensures Lookup(e, k) == if e[|e| - 1].0 == k then Some(e[|e| - 1].1) else Lookup(e[..|e| - 1], k)
  {
    var n := |e| - 1;
    assert e == e[..n] + [e[n]];
    assert forall a :: 0 <= a < n ==> Keys(e[..n])[a] == Keys(e)[a];
    assert e[n].0 !in Keys(e[..n]);
    PutNew(e[..n], e[n].0, e[n].1);
  }

  /** What a marker shows. */
  datatype Marker = Plain | Circle(ton: int, fill: string)

  const MarkerColors := ["#4A90E2", "#50E3C2", "#F5A623"]

  /** `loc.tons?.[String(year)]?.[String(month).padStart(2, '0')] ?? 0` */
  function ShownTon(tons: Option<Obj>, year: int, month: int): int {
    match tons
    case None => 0
    case Some(o) => NumberAt(o, [IntToString(year), PadStart2(IntToString(month))]).GetOr(0)
  }

  /** The marker at `idx`: a coloured circle with the month's tonnage when some
      row was aggregated and a date is selected, a plain marker otherwise. */
  function MarkerAt(idx: nat, tons: Option<Obj>, isEmpty: bool, date: SelectedDate): (m: Marker)
    ensures m.Circle? <==> !isEmpty && date.Selected?
    ensures m.Circle? ==> m.fill == MarkerColors[idx % 3] && m.ton == ShownTon(tons, date.year, date.month)
  {
    if !isEmpty && date.Selected? then Circle(ShownTon(tons, date.year, date.month), MarkerColors[idx % 3])
    else Plain
  }

  /** The markers after a render: a marker whose code was aggregated shows the
      summed tonnage of its code for the selected year and (zero-padded) month,
      or 0 when there is none. */
  lemma MarkerShowsCell(rows: seq<Row>, prev: seq<Option<Obj>>, i: nat, year: int, month: int)
    requires |prev| == LocationCount && i < LocationCount
    requires CodeOf(i) in Keys(Fields(Aggregated(rows)))
    ensures ShownTon(AssignTons(prev, Fields(Aggregated(rows)))[i], year, month)
      == Cell(Aggregated(rows), CodeOf(i), IntToString(year), PadStart2(IntToString(month))).GetOr(0)
  {
    NestDistinct(rows, KeepFn(), KeyFn(PortColumn), KeyFn(YearColumn), KeyFn(MonthColumn), TonFn());
    AssignTonsLookup(prev, Fields(Aggregated(rows)), i);
    LookupIndex(Fields(Aggregated(rows)), CodeOf(i));
    var path := [CodeOf(i), IntToString(year), PadStart2(IntToString(month))];
    assert path[1..] == [IntToString(year), PadStart2(IntToString(month))];
    AtStep(Aggregated(rows), path, Lookup(Fields(Aggregated(rows)), CodeOf(i)).value);
  }

  /** Months are stored as written but looked up padded: tonnage stored under a
      one-digit month such as "9" is never shown for that month. */
  lemma UnpaddedMonthNotShown(byYear: Obj, year: int, month: int)
    requires 0 <= month <= 9
    requires forall p :: p in Fields(byYear) ==> forall q :: q in Fields(p.1) ==> q.0 == IntToString(month)
    ensures ShownTon(Some(byYear), year, month) == 0
  {
    var key := PadStart2(IntToString(month));
    assert key != IntToString(month);
    var path := [IntToString(year), key];
    match Lookup(Fields(byYear), IntToString(year))
    case Some(byMonth) =>
      LookupFound(Fields(byYear), IntToString(year));
      AtStep(byYear, path, byMonth);
      assert path[1..] == [key];
      if Lookup(Fields(byMonth), key).Some? {
        LookupFound(Fields(byMonth), key);
        assert false;
      }
    case None =>
  }
}

=== FILE: parse_csv.dfy ===
/** The row cleaning applied to every parsed record (src/utils/ParseCsv.jsx, and
    the identical `cleanRows` of the panels): every key and every string value is
    trimmed. The CSV parser itself is a parameter. */
module ParseCsv {
  import opened Wrappers
  import opened Text
  import opened Entries
  import opened Rows

  /** A string value is trimmed; any other value passes unchanged. */
  function CleanValue(v: Value): Value {
    if v.Str? then Str(Trim(v.s)) else v
  }

  /** The keys of `row` after applying `key` to each, in entry order. */
  function MapKeys(row: Row, key: string -> string): (ks: seq<string>)
    ensures |ks| == |row| && forall i :: 0 <= i < |row| ==> ks[i] == key(row[i].0)
  {
    seq(|row|, i requires 0 <= i < |row| => key(row[i].0))
  }

  /** Assigns the entries of `row`, in order, into a fresh object under the
      normalised key `key(k)` and value `val(v)`: the shape of the cleaning
      callback. A later entry whose key normalises to an earlier one overwrites
      that value and keeps its position. */
  function Rebuild(row: Row, key: string -> string, val: Value -> Value): (r: Row)
    ensures Keys(r) == Dedup(MapKeys(row, key))
    decreases |row|
  {
    if row == [] then []
    else
      var n := |row| - 1;
      assert MapKeys(row, key) == MapKeys(row[..n], key) + [key(row[n].0)];
      PutKeys(Rebuild(row[..n], key, val), key(row[n].0), val(row[n].1));
      Put(Rebuild(row[..n], key, val), key(row[n].0), val(row[n].1))
  }

  /** Every entry of the rebuilt object is the normalised form of a raw entry,
      and no key occurs twice. */
  lemma {:induction false} RebuildImage(row: Row, key: string -> string, val: Value -> Value)
    ensures DistinctKeys(Rebuild(row, key, val))
    ensures forall p :: p in Rebuild(row, key, val) ==> exists i :: 0 <= i < |row| && p == (key(row[i].0), val(row[i].1))
    decreases |row|
  {
    var r := Rebuild(row, key, val);
    assert forall i :: 0 <= i < |r| ==> r[i].0 == Keys(r)[i];
    if row != [] {
      var n := |row| - 1;
      var pre := row[..n];
      RebuildImage(pre, key, val);
      PutMembers(Rebuild(pre, key, val), key(row[n].0), val(row[n].1));
      forall p | p in r ensures exists i :: 0 <= i < |row| && p == (key(row[i].0), val(row[i].1)) {
        if p in Rebuild(pre, key, val) {
          var i :| 0 <= i < n && p == (key(pre[i].0), val(pre[i].1));
          assert pre[i] == row[i];
        } else {
          assert p == (key(row[n].0), val(row[n].1));
        }
      }
    }
  }

  /** The position of the last entry of `row` whose key normalises to `k`. */
  function LastIndexOf(row: Row, key: string -> string, k: string): (r: Option<nat>)
    ensures r.Some? ==> r.value < |row| && key(row[r.value].0) == k
    ensures r.Some? ==> forall j :: r.value < j < |row| ==> key(row[j].0) != k
    ensures r.None? ==> forall i :: 0 <= i < |row| ==> key(row[i].0) != k
    decreases |row|
  {
    if row == [] then None
    else
      var n := |row| - 1;
      if key(row[n].0) == k then Some(n)
      else
        var pre := row[..n];
        assert forall i :: 0 <= i < n ==> pre[i] == row[i];
        LastIndexOf(pre, key, k)
  }

  /** The rebuilt object holds, under `k`, the normalised value of the last entry
      whose key normalises to `k`, and nothing when no key does. */
  lemma {:induction false} RebuildLookup(row: Row, key: string -> string, val: Value -> Value, k: string)
    ensures Lookup(Rebuild(row, key, val), k) ==
      match LastIndexOf(row, key, k)
      case None => None
      case Some(i) => Some(val(row[i].1))
    decreases |row|
  {
    if row != [] {
      var n := |row| - 1;
      var pre := row[..n];
      RebuildLookup(pre, key, val, k);
      assert Rebuild(row, key, val) == Put(Rebuild(pre, key, val), key(row[n].0), val(row[n].1));
      if key(row[n].0) != k {
        assert LastIndexOf(row, key, k) == LastIndexOf(pre, key, k);
        var m := LastIndexOf(pre, key, k);
        assert m.Some? ==> pre[m.value] == row[m.value];
      }
    }
  }

  /** Rebuilding an object whose keys and values are already normal gives it back. */
  lemma {:induction false} RebuildOfNormal(row: Row, key: string -> string, val: Value -> Value)
    requires DistinctKeys(row)
    requires forall i :: 0 <= i < |row| ==> key(row[i].0) == row[i].0 && val(row[i].1) == row[i].1
    ensures Rebuild(row, key, val) == row
    decreases |row|
  {
    if row != [] {
      var n := |row| - 1;
      var pre := row[..n];
      assert forall i :: 0 <= i < n ==> pre[i] == row[i];
      RebuildOfNormal(pre, key, val);
      RebuildOfNormalStep(row, key, val);
    }
  }

  lemma RebuildOfNormalStep(row: Row, key: string -> string, val: Value -> Value)
    requires row != [] && DistinctKeys(row)
    requires Rebuild(row[..|row| - 1], key, val) == row[..|row| - 1]
    requires key(row[|row| - 1].0) == row[|row| - 1].0 && val(row[|row| - 1].1) == row[|row| - 1].1
    ensures Rebuild(row, key, val) == row
  {
    LastKeyIsNew(row);
    LastSplit(row);
    var n := |row| - 1;
    PutNew(row[..n], row[n].0, row[n].1);
  }

  lemma LastKeyIsNew(row: Row)
    requires row != [] && DistinctKeys(row)
    ensures row[|row| - 1].0 !in Keys(row[..|row| - 1])
  {
    var n := |row| - 1;
    assert forall i :: 0 <= i < n ==> Keys(row[..n])[i] == row[i].0;
  }

  lemma LastSplit<T>(s: seq<T>)
    requires s != []
    ensures s == s[..|s| - 1] + [s[|s| - 1]]
  {
  }

  function TrimmedKeys(row: Row): seq<string> {
    MapKeys(row, Trim)
  }

  /** A row as cleaning leaves it: distinct trimmed keys, trimmed string values. */
  predicate IsClean(row: Row) {
    && DistinctKeys(row)
    && forall i :: 0 <= i < |row| ==> Trim(row[i].0) == row[i].0 && CleanValue(row[i].1) == row[i].1
  }

  /** The cleaned copy of one row: keys and string values trimmed. */
  function CleanRow(row: Row): (r: Row)
    ensures Keys(r) == Dedup(TrimmedKeys(row))
    ensures IsClean(r)
  {
    var r := Rebuild(row, Trim, CleanValue);
    RebuildImage(row, Trim, CleanValue);
    forall i | 0 <= i < |r| ensures Trim(r[i].0) == r[i].0 && CleanValue(r[i].1) == r[i].1 {
      assert r[i] in r;
      var j :| 0 <= j < |row| && r[i] == (Trim(row[j].0), CleanValue(row[j].1));
      TrimIdempotent(row[j].0);
      CleanValueIdempotent(row[j].1);
    }
    r
  }

  lemma CleanValueIdempotent(v: Value)
    ensures CleanValue(CleanValue(v)) == CleanValue(v)
  {
    if v.Str? {
      TrimIdempotent(v.s);
    }
  }

  /** `rows.map(cleanRow)` */
  function CleanRows(rows: seq<Row>): (r: seq<Row>)
    ensures |r| == |rows|
    ensures forall i :: 0 <= i < |rows| ==> r[i] == CleanRow(rows[i])
  {
    seq(|rows|, i requires 0 <= i < |rows| => CleanRow(rows[i]))
  }

  /** `parseAndClean(csvText)`, the parser being `papa`. */
  function ParseAndClean(csvText: string, papa: string -> seq<Row>): (r: seq<Row>)
    ensures |r| == |papa(csvText)|
    ensures forall i :: 0 <= i < |r| ==> IsClean(r[i])
  {
    CleanRows(papa(csvText))
  }

  /** The cleaned row maps a key to the cleaned value of the LAST raw entry whose
      key trims to it, and has no entry for a key no raw key trims to. */
  lemma CleanRowLookup(row: Row, k: string)
    ensures (forall i :: 0 <= i < |row| ==> Trim(row[i].0) != k) ==> Lookup(CleanRow(row), k) == None
    ensures forall i :: 0 <= i < |row| && Trim(row[i].0) == k && (forall j :: i < j < |row| ==> Trim(row[j].0) != k) ==>
        Lookup(CleanRow(row), k) == Some(CleanValue(row[i].1))
  {
    RebuildLookup(row, Trim, CleanValue, k);
    var m := LastIndexOf(row, Trim, k);
    assert CleanRow(row) == Rebuild(row, Trim, CleanValue);
    forall i | 0 <= i < |row| && Trim(row[i].0) == k && (forall j :: i < j < |row| ==> Trim(row[j].0) != k)
      ensures Lookup(CleanRow(row), k) == Some(CleanValue(row[i].1))
    {
      assert m.Some?;
      assert m.value == i;
    }
  }

  /** Cleaning is idempotent: a cleaned row is clean already. */
  lemma CleanRowIdempotent(row: Row)
    ensures CleanRow(CleanRow(row)) == CleanRow(row)
  {
    var r := CleanRow(row);
    RebuildOfNormal(r, Trim, CleanValue);
  }
}

=== FILE: rows.dfy ===
/** One record of the uploaded shipping table, and the JavaScript coercions the
    panels apply to its fields. */
module Rows {
  import opened Wrappers
  import opened Text
  import opened Entries

  /** A field value: a string (what the CSV parser yields), a number (rows handed
      over as an array may carry them) or `undefined`. */
  datatype Value = Str(s: string) | Num(n: int) | Missing

  type Row = Entries<Value>

  /** `row[column]` */
  function Get(row: Row, column: string): Value {
    Lookup(row, column).GetOr(Missing)
  }

  /** JavaScript truthiness of a field. */
  predicate Truthy(v: Value) {
    match v
    case Str(s) => s != ""
    case Num(n) => n != 0
    case Missing => false
  }

  /** `String(v)`, which is also the property key `obj[v]` uses. */
  function StringOf(v: Value): (r: string)
    ensures v.Str? ==> r == v.s
    ensures v.Num? ==> ToNumber(r) == Some(v.n)
  {
    match v
    case Str(s) => s
    case Num(n) => NumberOfString(n); IntToString(n)
    case Missing => "undefined"
  }

  /** `Number(v) || 0`: the numeric value of a field, 0 when it is not a number. */
  function NumberOr0(v: Value): (r: int)
    ensures v.Num? ==> r == v.n
    ensures v.Str? && ToNumber(v.s).Some? ==> r == ToNumber(v.s).value
    ensures v.Str? && ToNumber(v.s).None? ==> r == 0
    ensures v.Missing? ==> r == 0
  {
    match v
    case Str(s) => ToNumber(s).GetOr(0)
    case Num(n) => n
    case Missing => 0
  }

  /** A field such as "N/A" or "12abc" counts as 0. */
  lemma NonNumeralCountsZero()
    ensures NumberOr0(Str("N/A")) == 0 && NumberOr0(Str("12abc")) == 0
  {
    NotANumber();
    TrailingLettersNotANumber();
  }

  /** The date the user picked: `selectedDate` is either absent or `{year, month}`. */
  datatype SelectedDate = NoDate | Selected(year: int, month: int)
}

=== FILE: scan.dfy ===
/** The pieces of JavaScript regular-expression matching the dashboard uses.
    `s.match(re)` reports the match that starts leftmost; a greedy `[^x]*` that
    must be followed by more pattern backtracks from its longest extent, so the
    rightmost continuation point wins. Both searches are defined here once, over
    a matcher `at(s, i)` that says whether (and with what captured value) the
    rest of the pattern matches at position `i`. */
module Scan {
  import opened Wrappers
  import opened Text

  /** The first position in `from..|s|` where `at` matches, with its value. */
  function Leftmost<T>(s: string, from: nat, at: (string, nat) -> Option<T>): (r: Option<(nat, T)>)
    ensures r.Some? ==> from <= r.value.0 <= |s| && at(s, r.value.0) == Some(r.value.1)
    ensures r.Some? ==> forall k :: from <= k < r.value.0 ==> at(s, k).None?
    ensures r.None? ==> forall k :: from <= k <= |s| ==> at(s, k).None?
    decreases |s| + 1 - from
  {
    if from > |s| then None
    else match at(s, from)
      case Some(v) => Some((from, v))
      case None => Leftmost(s, from + 1, at)
  }

  /** A match at `i` with none before it is the leftmost one. */
  lemma LeftmostIs<T>(s: string, from: nat, at: (string, nat) -> Option<T>, i: nat, v: T)
    requires from <= i <= |s| && at(s, i) == Some(v)
    requires forall k :: from <= k < i ==> at(s, k).None?
    ensures Leftmost(s, from, at) == Some((i, v))
  {
  }

  /** Whatever matches first is what `Leftmost` reports. */
  lemma LeftmostFirst<T>(s: string, from: nat, at: (string, nat) -> Option<T>)
    ensures forall k :: from <= k <= |s| && at(s, k).Some? && (forall j :: from <= j < k ==> at(s, j).None?) ==>
      Leftmost(s, from, at) == Some((k, at(s, k).value))
  {
    forall k | from <= k <= |s| && at(s, k).Some? && (forall j :: from <= j < k ==> at(s, j).None?) {
      LeftmostIs(s, from, at, k, at(s, k).value);
    }
  }

  /** The last position in `lo..hi` where `at` matches, with its value. */
  function Rightmost<T>(s: string, lo: nat, hi: nat, at: (string, nat) -> Option<T>): (r: Option<(nat, T)>)
    ensures r.Some? ==> lo <= r.value.0 <= hi && at(s, r.value.0) == Some(r.value.1)
    ensures r.Some? ==> forall k :: r.value.0 < k <= hi ==> at(s, k).None?
    ensures r.None? ==> forall k :: lo <= k <= hi ==> at(s, k).None?
    decreases hi
  {
    if hi < lo then None
    else match at(s, hi)
      case Some(v) => Some((hi, v))
      case None => if hi == lo then None else Rightmost(s, lo, hi - 1, at)
  }

  /** The literal `lit` occurs in `s` at position `i`. */
  predicate LiteralAt(s: string, i: nat, lit: string) {
    i + |lit| <= |s| && s[i..i + |lit|] == lit
  }

  /** Matcher for a literal; its value is the position just after it. */
  function Literal(lit: string): (string, nat) -> Option<nat> {
    (s: string, i: nat) => if LiteralAt(s, i, lit) then Some(i + |lit|) else None
  }

  /** The first occurrence of `lit` at or after `from`: the scan behind `[^>]*>` and
      the lazy `[\s\S]*?` that stops at the first closing literal. */
  function IndexOf(s: string, lit: string, from: nat): (r: Option<nat>)
    ensures r.Some? ==> from <= r.value && LiteralAt(s, r.value, lit)
    ensures r.Some? ==> forall k :: from <= k < r.value ==> !LiteralAt(s, k, lit)
    ensures r.None? ==> forall k :: from <= k ==> !LiteralAt(s, k, lit)
  {
    var m := Leftmost(s, from, Literal(lit));
    assert forall k :: from <= k <= |s| ==> (Literal(lit)(s, k).None? <==> !LiteralAt(s, k, lit));
    if m.Some? then Some(m.value.0) else None
  }

  /** `s.includes(lit)` */
  function Includes(s: string, lit: string): (r: bool)
    ensures r <==> exists k :: LiteralAt(s, k, lit)
  {
    IndexOf(s, lit, 0).Some?
  }

  /** `\d+` at `i`: the end of the longest non-empty run of digits starting there. */
  function DigitRun(s: string, i: nat): (r: Option<nat>)
    requires i <= |s|
    ensures r.Some? <==> i < |s| && IsDigit(s[i])
    ensures r.Some? ==> i < r.value <= |s| && AllDigits(s[i..r.value])
    ensures r.Some? ==> r.value == |s| || !IsDigit(s[r.value])
  {
    if i < |s| && IsDigit(s[i]) then Some(DigitRunEnd(s, i)) else None
  }

  function DigitRunEnd(s: string, i: nat): (r: nat)
    requires i <= |s|
    ensures i <= r <= |s| && AllDigits(s[i..r])
    ensures r == |s| || !IsDigit(s[r])
    decreases |s| - i
  {
    if i < |s| && IsDigit(s[i]) then
      var r := DigitRunEnd(s, i + 1);
      assert s[i..r] == [s[i]] + s[i + 1..r];
      r
    else i
  }

  predicate IsQuote(c: char) {
    c == '"' || c == '\''
  }

  /** `["']([^"']*)["']` at `i`: the text between a quote at `i` and the next quote
      (of either kind), and the position after that closing quote. */
  function QuotedAt(s: string, i: nat): (r: Option<(string, nat)>)
    requires i <= |s|
    ensures r.Some? ==> i < |s| && IsQuote(s[i])
    ensures r.Some? ==> var (v, e) := r.value;
      i + 2 + |v| == e <= |s| && s[i + 1..e - 1] == v && IsQuote(s[e - 1])
      && forall k :: 0 <= k < |v| ==> !IsQuote(v[k])
    ensures r.None? && i < |s| && IsQuote(s[i]) ==> forall k :: i < k < |s| ==> !IsQuote(s[k])
  {
    if i < |s| && IsQuote(s[i]) then
      match NextQuote(s, i + 1)
      case Some(j) => Some((s[i + 1..j], j + 1))
      case None => None
    else None
  }

  function NextQuote(s: string, i: nat): (r: Option<nat>)
    requires i <= |s|
    ensures r.Some? ==> i <= r.value < |s| && IsQuote(s[r.value])
    ensures r.Some? ==> forall k :: i <= k < r.value ==> !IsQuote(s[k])
    ensures r.None? ==> forall k :: i <= k < |s| ==> !IsQuote(s[k])
    decreases |s| - i
  {
    if i == |s| then None
    else if IsQuote(s[i]) then Some(i)
    else NextQuote(s, i + 1)
  }
}

=== FILE: text.dfy ===
/** The JavaScript string primitives the dashboard leans on, over `seq<char>`:
    `String.prototype.trim`, `String(n)` for integers, `padStart(2, '0')`
    and `Number(s)` restricted to integer numerals. */
module Text {
  import opened Wrappers

  /** ECMAScript WhiteSpace and LineTerminator code points: the set that both
      `trim()` strips and the regular-expression class `\s` matches. */
  predicate IsSpace(c: char) {
    || c == '\t' || c == '\n' || c == '\U{000B}' || c == '\U{000C}' || c == '\r' || c == ' '
    || c == '\U{00A0}' || c == '\U{1680}' || ('\U{2000}' <= c <= '\U{200A}')
    || c == '\U{2028}' || c == '\U{2029}' || c == '\U{202F}' || c == '\U{205F}'
    || c == '\U{3000}' || c == '\U{FEFF}'
  }

  predicate AllSpace(s: string) {
    forall k :: 0 <= k < |s| ==> IsSpace(s[k])
  }

  /** Neither end of `s` is white space: what `trim()` guarantees of its result. */
  predicate Trimmed(s: string) {
    s == [] || (!IsSpace(s[0]) && !IsSpace(s[|s| - 1]))
  }

  /** `\s*` at `i`: the end of the longest run of white space starting there. */
  function SkipSpaces(s: string, i: nat): (r: nat)
    requires i <= |s|
    ensures i <= r <= |s|
    ensures forall k :: i <= k < r ==> IsSpace(s[k])
    ensures r == |s| || !IsSpace(s[r])
    decreases |s| - i
  {
    if i < |s| && IsSpace(s[i]) then SkipSpaces(s, i + 1) else i
  }

  /** The start of the longest run of white space that ends at `hi`, not going below `lo`. */
  function SkipSpacesBack(s: string, lo: nat, hi: nat): (r: nat)
    requires lo <= hi <= |s|
    ensures lo <= r <= hi
    ensures forall k :: r <= k < hi ==> IsSpace(s[k])
    ensures r == lo || !IsSpace(s[r - 1])
    decreases hi
  {
    if lo < hi && IsSpace(s[hi - 1]) then SkipSpacesBack(s, lo, hi - 1) else hi
  }

  /** `s.trim()`: the infix of `s` left after dropping white space at both ends. */
  function Trim(s: string): (r: string)
    ensures Trimmed(r)
    ensures |r| <= |s|
  {
    var a := SkipSpaces(s, 0);
    s[a..SkipSpacesBack(s, a, |s|)]
  }

  lemma SkipSpacesUnique(s: string, i: nat, j: nat)
    requires i <= j <= |s|
    requires forall k :: i <= k < j ==> IsSpace(s[k])
    requires j == |s| || !IsSpace(s[j])
    ensures SkipSpaces(s, i) == j
  {
    var r := SkipSpaces(s, i);
  }

  lemma SkipSpacesBackUnique(s: string, lo: nat, hi: nat, j: nat)
    requires lo <= j <= hi <= |s|
    requires forall k :: j <= k < hi ==> IsSpace(s[k])
    requires j == lo || !IsSpace(s[j - 1])
    ensures SkipSpacesBack(s, lo, hi) == j
  {
    var r := SkipSpacesBack(s, lo, hi);
  }

  /** `trim()` only removes white space, and only at the two ends: `s` is the
      trimmed string with white space before and after it. */
  lemma TrimDropsOnlyOuterSpace(s: string)
    ensures exists a, c :: AllSpace(a) && AllSpace(c) && s == a + Trim(s) + c
  {
    var i := SkipSpaces(s, 0);
    var j := SkipSpacesBack(s, i, |s|);
    SpaceSlice(s, 0, i);
    SpaceSlice(s, j, |s|);
    assert s == s[0..i] + Trim(s) + s[j..|s|];
  }

  lemma SpaceSlice(s: string, i: nat, j: nat)
    requires i <= j <= |s|
    requires forall k :: i <= k < j ==> IsSpace(s[k])
    ensures AllSpace(s[i..j])
  {
    assert forall k :: 0 <= k < j - i ==> s[i..j][k] == s[i + k];
  }

  /** Trimming recovers the trimmed core of any white-space padding of it. */
  lemma TrimOfPadded(a: string, b: string, c: string)
    requires AllSpace(a) && AllSpace(c) && Trimmed(b)
    ensures Trim(a + b + c) == b
  {
    var s := a + b + c;
    var i := if b == [] then |s| else |a|;
    var j := if b == [] then |s| else |a| + |b|;
    assert forall k :: 0 <= k < i ==> IsSpace(s[k]) by {
      assert forall k :: 0 <= k < |a| ==> s[k] == a[k];
      assert forall k :: |a| + |b| <= k < |s| ==> s[k] == c[k - |a| - |b|];
    }
    SkipSpacesUnique(s, 0, i);
    assert forall k :: j <= k < |s| ==> IsSpace(s[k]) by {
      assert forall k :: |a| + |b| <= k < |s| ==> s[k] == c[k - |a| - |b|];
    }
    SkipSpacesBackUnique(s, i, |s|, j);
    assert s[i..j] == b;
  }

  /** `trim()` is idempotent. */
  lemma TrimIdempotent(s: string)
    ensures Trim(Trim(s)) == Trim(s)
  {
    var t := Trim(s);
    assert [] + t + [] == t;
    TrimOfPadded([], t, []);
  }

  /** `s.padStart(2, '0')` */
  function PadStart2(s: string): (r: string)
    ensures |s| >= 2 ==> r == s
    ensures |s| < 2 ==> |r| == 2 && r[2 - |s|..] == s && forall k :: 0 <= k < 2 - |s| ==> r[k] == '0'
  {
    if |s| >= 2 then s else seq(2 - |s|, _ => '0') + s
  }

  predicate IsDigit(c: char) {
    '0' <= c <= '9'
  }

  predicate AllDigits(s: string) {
    forall k :: 0 <= k < |s| ==> IsDigit(s[k])
  }

  function DigitChar(d: nat): (c: char)
    requires d < 10
    ensures IsDigit(c) && c as int - '0' as int == d
  {
    ['0', '1', '2', '3', '4', '5', '6', '7', '8', '9'][d]
  }

  /** The value of a run of decimal digits, as `parseInt` reads it. */
  function DigitsValue(s: string): nat
    requires AllDigits(s)
  {
    if s == [] then 0 else DigitsValue(s[..|s| - 1]) * 10 + (s[|s| - 1] as int - '0' as int)
  }

  /** `String(n)` for a non-negative integer: its shortest decimal numeral. */
  function NatToString(n: nat): (r: string)
    ensures |r| >= 1 && AllDigits(r)
    ensures r[0] == '0' ==> n == 0
    ensures n < 10 <==> |r| == 1
  {
    if n < 10 then [DigitChar(n)] else NatToString(n / 10) + [DigitChar(n % 10)]
  }

  /** `String(n)` for an integer. */
  function IntToString(n: int): (r: string)
    ensures |r| >= 1
    ensures n >= 0 <==> IsDigit(r[0])
    ensures n < 0 <==> r[0] == '-'
  {
    if n >= 0 then NatToString(n) else "-" + NatToString(-n)
  }

  /** The numeral read back gives the number: `NatToString` and `DigitsValue` are inverse. */
  lemma {:induction false} DigitsValueOfNatToString(n: nat)
    ensures DigitsValue(NatToString(n)) == n
    decreases n
  {
    var r := NatToString(n);
    if n >= 10 {
      DigitsValueOfNatToString(n / 10);
      assert r[..|r| - 1] == NatToString(n / 10);
    }
  }

  /** `Number(s)` where the model only knows integer numerals: white space around the
      numeral is ignored, an empty string is 0, an optional sign is allowed, and
      anything else is `NaN` (`None`). */
  function ToNumber(s: string): (r: Option<int>)
    ensures Trim(s) == [] ==> r == Some(0)
    ensures AllDigits(Trim(s)) && Trim(s) != [] ==> r == Some(DigitsValue(Trim(s)))
    ensures SignedDigits(Trim(s)) && Trim(s)[0] == '+' ==> r == Some(DigitsValue(Trim(s)[1..]))
    ensures SignedDigits(Trim(s)) && Trim(s)[0] == '-' ==> r == Some(-(DigitsValue(Trim(s)[1..]) as int))
    ensures r.None? <==> Trim(s) != [] && !AllDigits(Trim(s)) && !SignedDigits(Trim(s))
    ensures r.Some? && r.value < 0 ==> Trim(s)[0] == '-'
  {
    NumeralValue(Trim(s))
  }

  /** A sign followed by at least one digit. */
  predicate SignedDigits(t: string) {
    |t| >= 2 && (t[0] == '+' || t[0] == '-') && AllDigits(t[1..])
  }

  /** Text that is not a numeral, such as "N/A", is `NaN`. */
  lemma NotANumber()
    ensures ToNumber("N/A") == None
  {
    var t := "N/A";
    assert t[0] == 'N' && t[2] == 'A';
    assert [] + t + [] == t;
    TrimOfPadded([], t, []);
    assert !IsDigit(t[0]);
  }

  /** A numeral followed by letters is `NaN` as a whole. */
  lemma TrailingLettersNotANumber()
    ensures ToNumber("12abc") == None
  {
    var t := "12abc";
    assert t[0] == '1' && t[4] == 'c';
    assert [] + t + [] == t;
    TrimOfPadded([], t, []);
    assert !IsDigit(t[4]) && t[1..][3] == 'c';
  }

  /** The value of an already trimmed integer numeral, `None` when it is not one. */
  function NumeralValue(t: string): Option<int> {
    if t == [] then Some(0)
    else if AllDigits(t) then Some(DigitsValue(t))
    else if SignedDigits(t) then
      var v: int := DigitsValue(t[1..]);
      if t[0] == '-' then Some(-v) else Some(v)
    else None
  }

  /** `Number(String(n)) === n` for every integer. */
  lemma NumberOfString(n: int)
    ensures ToNumber(IntToString(n)) == Some(n)
  {
    if n >= 0 {
      NumberOfNatString(n);
      assert IntToString(n) == NatToString(n);
    } else {
      var m: nat := -n;
      NumberOfNegativeString(m);
      assert IntToString(n) == "-" + NatToString(m);
    }
  }

  lemma NumberOfNatString(m: nat)
    ensures ToNumber(NatToString(m)) == Some(m)
  {
    var d := NatToString(m);
    DigitsValueOfNatToString(m);
    TrimOfTrimmed(d);
  }

  lemma NumberOfNegativeString(m: nat)
    requires m > 0
    ensures ToNumber("-" + NatToString(m)) == Some(-(m as int))
  {
    DigitsValueOfNatToString(m);
    NegativeNumber(NatToString(m), m);
  }

  lemma NegativeNumber(d: string, v: nat)
    requires |d| >= 1 && AllDigits(d) && DigitsValue(d) == v
    ensures ToNumber("-" + d) == Some(-(v as int))
  {
    var r := "-" + d;
    assert r[0] == '-' && r[|r| - 1] == d[|d| - 1];
    TrimOfTrimmed(r);
    NegativeNumeral(d);
  }

  lemma NegativeNumeral(d: string)
    requires |d| >= 1 && AllDigits(d)
    ensures NumeralValue("-" + d) == Some(-(DigitsValue(d) as int))
  {
    var r := "-" + d;
    assert r[1..] == d;
    assert !IsDigit(r[0]);
  }

  lemma TrimOfTrimmed(r: string)
    requires |r| >= 1
    requires IsDigit(r[0]) || r[0] == '-'
    requires IsDigit(r[|r| - 1])
    ensures Trim(r) == r
  {
    assert [] + r + [] == r;
    TrimOfPadded([], r, []);
  }
}

=== FILE: timeline.dfy ===
/** The month arithmetic of src/components/TimeLinePanel.jsx: how many months
    the strip shows, the list of first-of-month dates it draws, the clamp that
    keeps a drag inside the strip, and the selection of a month. A date stands
    for the first day of its month; `month` is zero-based as `getMonth()` is.
    Pixel offsets and widths are reals. */
module Timeline {
  import opened Wrappers

  /** `getMonth()`: January is 0. */
  type Month = m: int | 0 <= m < 12

  datatype YearMonth = YearMonth(year: int, month: Month)

  /** The default `start` and `end` props: January 2022 and December 2023. */
  const DefaultStart := YearMonth(2022, 0)
  const DefaultEnd := YearMonth(2023, 11)

  /** Months since January of year 0, so that consecutive months differ by one. */
  function Index(ym: YearMonth): int {
    ym.year * 12 + ym.month
  }

  /** A later year means a later month, whatever the months. */
  lemma YearOrder(a: YearMonth, b: YearMonth)
    ensures a.year < b.year ==> Index(a) < Index(b)
  {
    if a.year < b.year {
      assert a.year * 12 + 12 <= b.year * 12;
    }
  }

  /** Months are determined by their index. */
  lemma IndexInjective(a: YearMonth, b: YearMonth)
    ensures Index(a) == Index(b) <==> a == b
  {
    YearOrder(a, b);
    YearOrder(b, a);
  }

  /** The month is the index modulo twelve. */
  lemma MonthOfIndex(ym: YearMonth)
    ensures Index(ym) % 12 == ym.month
  {
    var q, r := Index(ym) / 12, Index(ym) % 12;
    assert q * 12 + r == ym.year * 12 + ym.month;
    IndexInjective(YearMonth(q, r), ym);
  }

  /** `new Date(y, m + 1, 1)`: December rolls over into January of the next year. */
  function Next(ym: YearMonth): (r: YearMonth)
    ensures Index(r) == Index(ym) + 1
    ensures r.month == (ym.month + 1) % 12
  {
    if ym.month == 11 then YearMonth(ym.year + 1, 0) else YearMonth(ym.year, ym.month + 1)
  }

  /** `monthsCount`: the months from `start`'s through `end`'s, both included;
      zero or negative when `end` is before `start`. */
  function MonthsCount(start: YearMonth, end: YearMonth): (r: int)
    ensures r == Index(end) - Index(start) + 1
    ensures r > 0 <==> Index(start) <= Index(end)
  {
    (end.year - start.year) * 12 + (end.month - start.month) + 1
  }

  /** `n` consecutive months from `first` (none when `n` is not positive). */
  function MonthsFrom(first: YearMonth, n: int): seq<YearMonth>
    decreases n
  {
    if n <= 0 then [] else [first] + MonthsFrom(Next(first), n - 1)
  }

  /** The reference for the `months` list: the `MonthsCount` months from `start`. */
  function Months(start: YearMonth, end: YearMonth): seq<YearMonth> {
    MonthsFrom(start, MonthsCount(start, end))
  }

  /** The `i`-th of the months from `first` is `i` months after it. */
  lemma {:induction false} MonthsFromIndex(first: YearMonth, n: int)
    ensures |MonthsFrom(first, n)| == if n > 0 then n else 0
    ensures forall i :: 0 <= i < |MonthsFrom(first, n)| ==> Index(MonthsFrom(first, n)[i]) == Index(first) + i
    decreases n
  {
    if n > 0 {
      MonthsFromIndex(Next(first), n - 1);
      var r := MonthsFrom(first, n);
      assert forall i :: 0 < i < |r| ==> r[i] == MonthsFrom(Next(first), n - 1)[i - 1];
    }
  }

  /** The `while (cur <= end)` loop. A first-of-month date is at or before `end`
      exactly when its month is not after `end`'s, so comparing indices decides
      the loop test. */
  method EnumerateMonths(start: YearMonth, end: YearMonth) returns (months: seq<YearMonth>)
    ensures |months| == if MonthsCount(start, end) > 0 then MonthsCount(start, end) else 0
    ensures months != [] ==> months[0] == start && months[|months| - 1] == end
    ensures forall i :: 0 <= i < |months| - 1 ==> months[i + 1] == Next(months[i])
    ensures forall i :: 0 <= i < |months| ==> Index(start) <= Index(months[i]) <= Index(end)
    ensures months == Months(start, end)
  {
    months := [];
    var cur := start;
    while Index(cur) <= Index(end)
      invariant Index(cur) == Index(start) + |months|
      invariant |months| == 0 || Index(cur) <= Index(end) + 1
      invariant months == [] ==> cur == start
      invariant months != [] ==> Next(months[|months| - 1]) == cur
      invariant forall i :: 0 <= i < |months| - 1 ==> months[i + 1] == Next(months[i])
      invariant forall i :: 0 <= i < |months| ==> Index(months[i]) == Index(start) + i
      decreases Index(end) - Index(cur)
    {
      months := months + [cur];
      cur := Next(cur);
    }
    if months != [] {
      IndexInjective(months[0], start);
      IndexInjective(months[|months| - 1], end);
    }
    MonthsFromIndex(start, MonthsCount(start, end));
    forall i | 0 <= i < |months| ensures months[i] == Months(start, end)[i] {
      IndexInjective(months[i], Months(start, end)[i]);
    }
  }

  /** The default props draw two years, 24 months, the thirteenth being
      January 2023. */
  lemma DefaultMonths()
    ensures MonthsCount(DefaultStart, DefaultEnd) == 24
    ensures |Months(DefaultStart, DefaultEnd)| == 24
    ensures Months(DefaultStart, DefaultEnd)[12] == YearMonth(2023, 0)
  {
    MonthsFromIndex(DefaultStart, 24);
    IndexInjective(Months(DefaultStart, DefaultEnd)[12], YearMonth(2023, 0));
  }

  /** The year label is drawn over January only, so over the items whose
      distance from January of year 0 is a whole number of years. */
  lemma YearLabels(start: YearMonth, end: YearMonth, i: nat)
    requires i < |Months(start, end)|
    ensures Months(start, end)[i].month == (Index(start) + i) % 12
    ensures Months(start, end)[i].month == 0 <==> (Index(start) + i) % 12 == 0
  {
    MonthsFromIndex(start, MonthsCount(start, end));
    MonthOfIndex(Months(start, end)[i]);
  }

  // ---------------------------------------------------------------------------
  // Dragging

  /** `minOffset = -(timelineWidth - containerWidth)` with
      `timelineWidth = monthsCount * containerWidth / 12`. */
  function MinOffset(count: int, width: nat): real {
    -((count as real) * ((width as real) / 12.0) - width as real)
  }

  /** The strip is at least as wide as its container exactly when it holds a
      year or more, unless the container has no width. */
  lemma MinOffsetSign(count: int, width: nat)
    ensures MinOffset(count, width) <= 0.0 <==> (width == 0 || count >= 12)
  {
    var w := width as real;
    assert MinOffset(count, width) == w * (12.0 - count as real) / 12.0;
    if width > 0 && count < 12 {
      assert 12.0 - count as real > 0.0;
      assert w * (12.0 - count as real) > 0.0;
    }
    if width > 0 && count >= 12 {
      assert w * (12.0 - count as real) <= 0.0;
    }
  }

  /** `Math.min(maxOffset, Math.max(minOffset, rawOffset))` with `maxOffset = 0`. */
  function Clamp(raw: real, minOffset: real): (r: real)
    ensures r <= 0.0
    ensures minOffset <= 0.0 ==> minOffset <= r
    ensures minOffset <= raw <= 0.0 ==> r == raw
    ensures raw > 0.0 ==> r == 0.0
    ensures raw < minOffset ==> r == (if minOffset <= 0.0 then minOffset else 0.0)
  {
    var lower := if minOffset > raw then minOffset else raw;
    if 0.0 < lower then 0.0 else lower
  }

  /** Clamping a clamped offset changes nothing while the strip fills its
      container. */
  lemma ClampIdempotent(raw: real, minOffset: real)
    requires minOffset <= 0.0
    ensures Clamp(Clamp(raw, minOffset), minOffset) == Clamp(raw, minOffset)
  {
    var c := Clamp(raw, minOffset);
    assert minOffset <= c <= 0.0;
  }

  /** The drag state: the offset drawn, the container width, and the refs
      `draggingRef`, `startXRef` and `prevOffsetRef`. */
  datatype Drag = Drag(offset: real, width: nat, dragging: bool, startX: real, prevOffset: real)

  /** Press, move, release and resize events; mouse and touch handlers do the same thing. */
  datatype Event = Down(x: real) | Move(x: real) | Up | Resize(width: nat)

  /** The first render: offset 0, a 600-pixel container, not dragging. */
  const Initial := Drag(0.0, 600, false, 0.0, 0.0)

  /** One event. A move while not dragging is ignored; a resize re-measures the
      container and scrolls back to the first month. */
  function Handle(count: int, s: Drag, ev: Event): (r: Drag)
    ensures r.width == (if ev.Resize? then ev.width else s.width)
    ensures ev.Move? && s.dragging ==> r.offset == Clamp(s.prevOffset + (ev.x - s.startX), MinOffset(count, s.width))
    ensures ev.Move? && !s.dragging ==> r == s
    ensures ev.Down? ==> r.dragging && r.prevOffset == s.offset && r.offset == s.offset
    ensures ev.Up? ==> !r.dragging && r.offset == s.offset
  {
    match ev
    case Down(x) => s.(dragging := true, startX := x, prevOffset := s.offset)
    case Move(x) =>
      if !s.dragging then s
      else s.(offset := Clamp(s.prevOffset + (x - s.startX), MinOffset(count, s.width)))
    case Up => s.(dragging := false)
    case Resize(w) => s.(width := w, offset := 0.0)
  }

  /** The events in order. */
  function HandleAll(count: int, s: Drag, evs: seq<Event>): Drag
    decreases |evs|
  {
    if evs == [] then s else HandleAll(count, Handle(count, s, evs[0]), evs[1..])
  }

  /** The offset never moves right of the first month, never left of the last
      month while the strip fills its container, and stays at the first month
      while it does not. */
  predicate InStrip(count: int, s: Drag) {
    && s.offset <= 0.0
    && (MinOffset(count, s.width) <= 0.0 ==> MinOffset(count, s.width) <= s.offset)
    && (MinOffset(count, s.width) > 0.0 ==> s.offset == 0.0)
  }

  lemma HandleInStrip(count: int, s: Drag, ev: Event)
    requires InStrip(count, s)
    ensures InStrip(count, Handle(count, s, ev))
  {
    if ev.Resize? {
      assert Handle(count, s, ev).offset == 0.0;
    }
  }

  /** Whatever the events, the strip is never dragged out of range. */
  lemma {:induction false} HandleAllInStrip(count: int, s: Drag, evs: seq<Event>)
    requires InStrip(count, s)
    ensures InStrip(count, HandleAll(count, s, evs))
    decreases |evs|
  {
    if evs != [] {
      HandleInStrip(count, s, evs[0]);
      HandleAllInStrip(count, Handle(count, s, evs[0]), evs[1..]);
    }
  }

  /** The first render is in range, so every reachable state is. */
  lemma ReachableInStrip(count: int, evs: seq<Event>)
    ensures InStrip(count, HandleAll(count, Initial, evs))
    ensures HandleAll(count, Initial, evs).offset <= 0.0
  {
    HandleAllInStrip(count, Initial, evs);
  }

  /** Pressing and moving back to the press point leaves the strip where it was. */
  lemma DragBackRestores(count: int, s: Drag, x: real)
    requires InStrip(count, s)
    ensures HandleAll(count, s, [Down(x), Move(x)]).offset == s.offset
  {
    var d := Handle(count, s, Down(x));
    assert [Down(x), Move(x)][1..] == [Move(x)];
    assert HandleAll(count, s, [Down(x), Move(x)]) == HandleAll(count, d, [Move(x)]);
    assert [Move(x)][1..] == [];
    assert HandleAll(count, d, [Move(x)]) == Handle(count, d, Move(x));
  }

  // ---------------------------------------------------------------------------
  // Selecting a month

  /** What `onDateSelect` received: nothing when the prop is missing, else the
      date at the clicked index (`None` standing for `undefined` off the end). */
  datatype Dispatch = NoCallback | Called(date: Option<YearMonth>)

  datatype Selection = Selection(selectedIdx: int, dispatch: Dispatch)

  /** `handleMonthSelect(idx)`. */
  function HandleMonthSelect(months: seq<YearMonth>, idx: int, hasCallback: bool): (r: Selection)
    ensures r.selectedIdx == idx
    ensures !hasCallback <==> r.dispatch == NoCallback
    ensures hasCallback && 0 <= idx < |months| ==> r.dispatch == Called(Some(months[idx]))
  {
    Selection(idx, if !hasCallback then NoCallback
                   else Called(if 0 <= idx < |months| then Some(months[idx]) else None))
  }

  /** Clicking the `idx`-th circle of the strip highlights it and hands the
      parent the month `idx` months after `start`, which is not after `end`. */
  lemma SelectMonth(start: YearMonth, end: YearMonth, idx: nat)
    requires idx < |Months(start, end)|
    ensures var r := HandleMonthSelect(Months(start, end), idx, true);
      && r.dispatch.Called? && r.dispatch.date.Some?
      && Index(r.dispatch.date.value) == Index(start) + idx
      && Index(r.dispatch.date.value) <= Index(end)
      && r.selectedIdx == idx
  {
    MonthsFromIndex(start, MonthsCount(start, end));
  }
}

=== FILE: wrappers.dfy ===
/** Failure-compatible wrappers shared by every module of the model:
    - Option<T> stands for a JavaScript value that may be `null`/`undefined`;
    - Result<T, E> stands for a computation that may throw. */
module Wrappers {

  datatype Option<+T> = None | Some(value: T) {

    /** The carried value, or `default` when there is none (JavaScript's `?? default`). */
    function GetOr(default: T): T {
      match this
      case Some(v) => v
      case None => default
    }
  }

  datatype Result<+T, +E> = Success(value: T) | Failure(error: E)
}
